=== FILE: README.md ===
# Spline research: a verified model of the curve core

This project models the numerical core of a spline-research repository in Dafny. The repository explores interpolating splines whose segments come from a two-parameter curve family. The model covers these parts:

- **Cubic Béziers** (`curves.js`): evaluation, the first and second derivative, and splitting at the middle.
- **Polynomials** (`curves.js`): evaluation, the derivative, and the quintic Hermite interpolant `hermite5`.
- **The tridiagonal solver** (`curves.js`): forward elimination and back substitution, over arrays that it overwrites in place.
- **`TwoParamSpline`** (`curves.js`): the tangent-angle solver for one run of control points, in two steps.
  - Chord-based initial angles.
  - Ten damped secant sweeps (`iterDumb`) that drive the curvature mismatch at each interior knot towards zero.
- **`Spline`** (`curves.js`): the object an editor holds.
  - It finds where a closed path must start.
  - It solves each run between corners, storing tangents and curvature arctangents on the control points.
  - It blends curvatures across smooth knots.
  - It renders the result as a path of marked cubic segments.
- **`BezPath`** (`docs/demo/bezpath.js`): a command list that renders to SVG path text, plus hit testing against lines and flattened cubics.
- **The curve tuner** (`docs/demo/tuner.js`):
  - bisection root finding;
  - the `TwoCubics` shape, with its rotations and mirror images;
  - the JavaScript-safe modulus `mymod`;
  - the `CurveGrid` of master shapes, with its symmetric fold, bilinear interpolation and JSON form.
- **The Euler-spiral family** (`spiro.js`):
  - the series integral and its subdivided version;
  - the secant fit `fit_euler`;
  - `EulerSegment`;
  - `SpiroCurve`, which renders a fitted segment as five cubic pieces.

Floating-point numbers are modelled as mathematical reals. `Math.sin`, `Math.cos`, `Math.atan`, `Math.atan2`, `Math.tanh`, `Math.hypot`, `Math.sqrt`, `Math.tan`, `Math.PI` and the repository's `mod2pi` are fields of a `Numerics.Transcendentals` record that every operation receives as a parameter. The operations require only `pi > 0` of it; the lemmas that need more trigonometry state it as a hypothesis, as listed under "## Left out". Division is `Numerics.Quot`, which gives 0 where JavaScript would give an infinity or NaN. The curve family a `Spline` uses is a `TwoParam.CurveFamily` record of functions. Its `computeCurvature`, `endpointTangent`, `render` and `render4` are total functions supplied by the caller. `Spiro.SpiroCurve`, the Euler-spiral family, is modelled on its own: its `computeCurvature`, `render` and `render4` are methods that can fail (because `fit_euler` can throw) and return a `Result`, so it is not a `CurveFamily` value and no `Spline` in the model uses it.

Each imperative operation of the source is a Dafny method with loop invariants. Each method is proved against a specification function, and the properties the source relies on are proved about those functions as lemmas. The modules are:

- `Numerics`;
- `Bezier`;
- `Poly`;
- `Tridiag`;
- `TwoParam`;
- `Splines`, with the proof modules `SolveFacts`, `BlendFacts` and `RenderFacts`;
- `BezPaths`;
- `Tuner`;
- `Spiro`.

## Model

| member | source | states |
|---|---|---|
| Numerics.Abs | curves.js:504-504 | the absolute value is nonnegative and equals x or -x |
| Numerics.Min | docs/demo/bezpath.js:110-110 | the minimum is at most both arguments and equals one of them |
| Numerics.Sign | docs/demo/tuner.js:13-13 | `Math.sign` is -1, 0 or 1, 0 exactly at zero and 1 exactly for positive input |
| Bezier.CubicBez.Eval | curves.js:50-57 | the body is the Bernstein form; a curve on one point stays at that point; `Bezier.EvalEndpoints` and `Bezier.EvalTaylor` state its other properties |
| Bezier.BernConstant | curves.js:50-57 | the four Bernstein weights sum to 1 |
| Bezier.CubicBez.Deriv | curves.js:59-66 | the body is the derivative's Bernstein form; at t = 0 it is 3 (p1 - p0) and at t = 1 it is 3 (p3 - p2); `Bezier.EvalTaylor` proves it is the derivative of `eval` |
| Bezier.CubicBez.Deriv2 | curves.js:68-75 | the body is the second derivative's form; at the ends it is 6 (p0 - 2 p1 + p2) and 6 (p1 - 2 p2 + p3); `Bezier.DerivTaylor` proves it is the derivative of `deriv` |
| Bezier.CubicBez.LeftHalf | curves.js:90-101 | the body is de Casteljau's left half; `Bezier.HalvesReparametrize` and `Bezier.HalvesMeet` state its properties |
| Bezier.CubicBez.RightHalf | curves.js:103-114 | the body is de Casteljau's right half; `Bezier.HalvesReparametrize` and `Bezier.HalvesMeet` state its properties |
| Bezier.EvalTaylor | curves.js:50-75 | `eval` at t + h is its cubic Taylor expansion at t built from `deriv`, `deriv2` and the constant third derivative, so `deriv` and `deriv2` are the exact derivatives of `eval` |
| Bezier.DerivTaylor | curves.js:59-75 | `deriv2` is the exact derivative of `deriv` |
| Bezier.EvalEndpoints | curves.js:50-57 | the curve starts at p0 and ends at p3 |
| Bezier.HalvesReparametrize | curves.js:90-114 | `leftHalf` at t is the curve at t/2, and `rightHalf` at t is the curve at 1/2 + t/2 |
| Bezier.HalvesMeet | curves.js:90-114 | the halves keep the curve's end points and meet at the curve's midpoint |
| Poly.Polynomial.Eval | curves.js:141-149 | the Horner loop returns the polynomial's value, the sum of c[i] x^i |
| Poly.Polynomial.Deriv | curves.js:151-157 | the derivative has one coefficient fewer, and its coefficient i is (i + 1) c[i + 1] |
| Poly.ValueAtZero | curves.js:141-149 | a polynomial's value at 0 is its constant coefficient |
| Poly.ValueAtOne | curves.js:141-149 | a polynomial's value at 1 is the sum of its coefficients |
| Poly.DerivAtZero | curves.js:151-157 | the derivative at 0 is the linear coefficient |
| Poly.Hermite5 | curves.js:160-167 | `hermite5` gives six coefficients |
| Poly.Hermite5Interpolates | curves.js:160-167 | the quintic takes the given values, first derivatives and second derivatives at 0 and at 1 |
| Tridiag.Solve | curves.js:177-188 | the arrays b and d end up holding the eliminated pivots and right-hand sides, and x holds the back-substituted solution; entries past x's length are untouched |
| Tridiag.Eliminate | curves.js:178-182 | the forward sweep leaves pivot k in b[k] and the reduced right-hand side in d[k] |
| Tridiag.BackSubstitute | curves.js:183-187 | the backward sweep writes solution entry k to x[k] for every k |
| Tridiag.SolvesSystem | curves.js:177-188 | when no pivot is zero, the computed x satisfies every row a[i] x[i-1] + b[i] x[i] + c[i] x[i+1] = d[i] of the original system |
| Tridiag.EliminatedRow | curves.js:178-187 | each eliminated row holds for the solution: pivot times x[i] plus c[i] x[i+1] is the reduced right-hand side |
| Tridiag.IgnoresCorners | curves.js:177-188 | the result does not depend on a[0] or c[n-1], nor on entries past n |
| Tridiag.SolAgree | curves.js:177-188 | two systems that agree on the entries the solver reads give the same solution |
| TwoParam.InteriorsAt | curves.js:435-444 | each interior seed is the length-weighted blend of the two neighbouring chord angles |
| TwoParam.SeedsFromChords | curves.js:429-445 | a seeding that covered every interior knot, with both end angles taken from the end chords, is exactly the initial-angle specification without pins |
| TwoParam.InitialThsEnds | curves.js:446-451 | a given start or end tangent replaces the first or last seed, an interior seed is never replaced, and the result has one angle per point |
| TwoParam.TwoParamSpline.constructor | curves.js:421-426 | the spline keeps its curve family and points, with no end tangents and no angles yet |
| TwoParam.TwoParamSpline.InitialThs | curves.js:429-454 | the stored and returned angle array is the chord-based seeding with the end pins applied |
| TwoParam.TwoParamSpline.ChordSeeds | curves.js:430-445 | the seeding loop gives every interior knot its blended chord angle and each end its chord's angle |
| TwoParam.TwoParamSpline.SeedAt | curves.js:436-444 | one step of the seeding loop extends the seeded prefix by knot i and keeps the end values the loop needs |
| TwoParam.TwoParamSpline.InteriorSeed | curves.js:436-442 | the interior seed at knot i is the chord-length-weighted blend of the chord angles on either side |
| TwoParam.TwoParamSpline.IterDumbs | curves.js:649-653 | ten sweeps apply `iterDumb` with iteration numbers 0 to 9, in order |
| TwoParam.TwoParamSpline.IterDumb | curves.js:468-524 | one sweep leaves the angles relaxed as specified and returns the summed absolute curvature mismatch measured before the update; it fails, with the angles unchanged, exactly when fewer than two points leave an end unpinned (the source's `getThs` throws there) |
| TwoParam.TwoParamSpline.FixEnds | curves.js:484-492 | an unpinned end angle is moved to where the family's end tangent puts it; a pinned one and the interior are unchanged; it fails, with the angles unchanged, exactly when fewer than two points leave an end unpinned |
| TwoParam.TwoParamSpline.FixStart | curves.js:484-487 | the start angle moves by the family's end tangent of the first segment's far angle minus its near angle, and nothing else changes |
| TwoParam.TwoParamSpline.FixEnd | curves.js:489-492 | the last angle moves back by the family's end tangent of the last segment's near angle minus its far angle, and nothing else changes |
| TwoParam.TwoParamSpline.GetThs | curves.js:456-465 | the body is the definition (`TwoParam.SegThsOf` on the stored angles): the end angles of segment i relative to its chord, through `mod2pi`, and the chord length; `FixStart`, `FixEnd` and `SecantSteps` state their results through it |
| TwoParam.TwoParamSpline.SecantSteps | curves.js:495-516 | the loop computes, for each interior knot, the secant step from the curvature mismatch there, and sums the absolute mismatches |
| TwoParam.TwoParamSpline.SecantStep | curves.js:497-512 | one step computes the next segment's curvature arctangents, the mismatch at the joint, and the secant step that cancels it |
| TwoParam.TwoParamSpline.ApplySteps | curves.js:518-521 | each interior angle moves by its step times the iteration's damping factor, and the ends stay |
| TwoParam.SumAbsNonneg | curves.js:495-504 | the summed absolute error is nonnegative |
| TwoParam.NudgedMoves | curves.js:518-521 | applying the steps changes only the interior angles, each by scale times its step |
| TwoParam.EndsFixedInterior | curves.js:484-492 | fixing the ends never changes an interior angle |
| TwoParam.RelaxedKeepsPins | curves.js:468-524 | a sweep keeps a pinned start or end angle |
| TwoParam.RelaxErrNonneg | curves.js:468-524 | the reported error is nonnegative, and zero when there are fewer than three points |
| TwoParam.SweepsStep | curves.js:649-653 | one more sweep is one more `iterDumb` after the others |
| TwoParam.SweepsKeepPins | curves.js:649-653 | every sweep keeps the pinned end angles |
| TwoParam.SolveRunPins | curves.js:646-653 | a run solved with pinned end tangents keeps them and has one angle per point |
| TwoParam.SolveInner | curves.js:646-653 | building a run solver, seeding it and sweeping ten times gives the specified angles |
| Splines.WrapIsMod | curves.js:604-616 | the wrap-around index is the Euclidean remainder |
| Splines.Pt | curves.js:599-602 | the body is the definition, the point at index `Splines.Ix`; `Splines.IxWraps` and `Splines.IxInjective` state which point that is |
| Splines.IxWraps | curves.js:599-602 | point i of a path starting at `start` is at i + start, wrapped once past the end |
| Splines.IxInjective | curves.js:599-602 | distinct offsets less than the point count name distinct points |
| Splines.FirstBreak | curves.js:604-616 | the first corner or pinned point at or after i: every point before it is smooth and free |
| Splines.StartOfFirstBreak | curves.js:604-616 | a closed path starts at its first corner or pinned point, and an open path or one without such points starts at 0 |
| Splines.Break | curves.js:635-644 | a run ends at the next corner or pinned point, or at the last point of the path |
| Splines.BreakIsFirst | curves.js:635-644 | no point strictly inside a run is a corner or pinned |
| Splines.TwoParamSolverPins | curves.js:646-653 | the run solver returns one angle per point and keeps the pinned end tangents |
| Splines.SolveFromStep | curves.js:620-664 | the solve loop handles the run at h, then goes on from the run's end |
| Splines.WriteRunCurved | curves.js:646-662 | for a curved run, the write-back records the solved angles and each segment's curvature arctangents |
| Splines.PlaceEnds | curves.js:726-733 | placing the unit chord maps (0, 0) to the segment's start point and (1, 0) to its end point |
| Splines.PlaceAll | curves.js:726-733 | the coordinate loop transforms every rendered point onto the segment's chord, in order |
| Splines.ChordLenAt | curves.js:669-673 | the body is the definition: the length of the chord between consecutive wrapped points, counted from index 0; `Splines.ChordLenBetween` states which points those are |
| Splines.ChordLenBetween | curves.js:669-673 | chord i joins point i to point i + 1, and the last chord joins the last point back to point 0 |
| Splines.EndCurvature | curves.js:712-724 | an end curvature is passed to `render4` exactly when the point has a blended curvature |
| Splines.EmitCurvetos | curves.js:734-736 | every six coordinates are appended to the path as one curveto, in order |
| Splines.CoordsInSixes | curves.js:726-736 | the coordinates of a segment always divide into whole curvetos |
| Splines.Spline.constructor | curves.js:593-597 | the spline keeps its points and closedness, and no point has solved data yet |
| Splines.Spline.StartIx | curves.js:604-616 | the search returns the start point the specification picks |
| Splines.Spline.Solve | curves.js:618-667 | every run between corners or pins is solved and written back: straight runs get the chord angle, curved runs the run solver's angles |
| Splines.Spline.SolveRunAt | curves.js:622-662 | one loop iteration solves the run at i and returns where it ends |
| Splines.Spline.SolveCurveRun | curves.js:635-662 | a curved run is collected, solved and written back, and the loop resumes after its end |
| Splines.Spline.CollectRun | curves.js:635-644 | the collected points are those of the run from i to its break |
| Splines.Spline.WriteCurveRun | curves.js:654-662 | each segment of the run gets its solved angles at both ends and the curvature arctangents the family computes |
| Splines.Spline.WriteSegAt | curves.js:655-661 | one segment's write-back sets the right angle and curvature of its start point and the left ones of its end point |
| Splines.Spline.ComputeCurvatureBlending | curves.js:677-700 | after blending, every point's blended curvature is the one the specification gives, and nothing else changed |
| Splines.Spline.BlendPoint | curves.js:679-698 | one iteration sets only point i's blended curvature |
| Splines.Spline.Render | curves.js:702-742 | the fresh path holds exactly the specified command list |
| Splines.Spline.RenderSegments | curves.js:711-737 | the segment loop appends each segment's commands in order |
| Splines.Spline.RenderSegment | curves.js:712-736 | one segment appends its mark and its curvetos |
| Splines.Spline.SegmentCoords | curves.js:712-733 | the segment's local render, placed onto its chord, flattened to coordinates |
| Splines.SegFnMatches | curves.js:711-737 | the per-segment command function gives each segment's commands |
| SolveFacts.SolvedOut | curves.js:618-667 | after solving, every point that starts a segment has an outgoing tangent, namely the one its run computed |
| SolveFacts.SolvedIn | curves.js:618-667 | after solving, every point that ends a segment has an incoming tangent, namely the one its run computed |
| SolveFacts.SolvedTangents | curves.js:618-667 | every segment gets both end tangents |
| SolveFacts.SolvedStraight | curves.js:625-632 | a segment that starts a run, ends at a corner or at the path's end, and has no pinned tangent at either end gets its chord angle at both ends |
| SolveFacts.SolvedStartPin | curves.js:646-653 | a pinned outgoing tangent at a run's first point is kept |
| SolveFacts.SolvedEndPin | curves.js:646-653 | a pinned incoming tangent at a run's last point is kept |
| SolveFacts.SolvedSmooth | curves.js:654-662 | at a smooth interior knot the incoming and outgoing tangents are equal |
| SolveFacts.SolveFromKeepR | curves.js:620-664 | the solve loop never rewrites a point's outgoing tangent before the current run |
| SolveFacts.SolveFromKeepL | curves.js:620-664 | the solve loop never rewrites a point's incoming tangent before the current run |
| SolveFacts.WriteRunR | curves.js:654-662 | every point of a run except its last gets its solved angle as outgoing tangent |
| SolveFacts.WriteRunL | curves.js:654-662 | every point of a run except its first gets its solved angle as incoming tangent |
| SolveFacts.RunHeadAtBreak | curves.js:635-644 | a corner or pinned point starts the run it belongs to |
| SolveFacts.BreakEndsRun | curves.js:635-644 | a run ends at the first corner or pin after its start |
| BlendFacts.BlendedKeepsSolve | curves.js:677-700 | blending changes neither tangents nor curvature arctangents |
| BlendFacts.BlendedWhere | curves.js:679-690 | a point gets a blended curvature exactly when it starts a segment, is smooth, has a pinned incoming tangent `lth`, and neither of its curvature arctangents exceeds pi/2 - 1e-6 in size |
| BlendFacts.BlendedOppositeIsZero | curves.js:690-697 | when the two sides bend opposite ways, or one side was never solved, the blended curvature is 0 |
| BlendFacts.BlendedIdempotent | curves.js:677-700 | blending a second time changes nothing |
| BlendFacts.HarmonicMeanOfEqual | curves.js:694-695 | blending two equal curvatures gives that curvature |
| BlendFacts.HarmonicMeanBetween | curves.js:694-695 | the blend of two positive curvatures lies between them |
| BlendFacts.HarmonicMeanBetweenNegative | curves.js:694-695 | the blend of two negative curvatures lies between them |
| RenderFacts.RenderShape | curves.js:702-742 | an empty spline renders to no commands; otherwise the path is a moveto to the first point, then marks 0 .. length-1 in order among curvetos, and ends with a closepath exactly when the spline is closed |
| RenderFacts.SegCmdsShape | curves.js:712-736 | a segment emits its mark, then whole curvetos, the last ending at the segment's end point |
| RenderFacts.CurvetosShape | curves.js:734-736 | each curveto consumes six coordinates, and the last ends on the last two |
| RenderFacts.MarkIdsAppend | docs/demo/bezpath.js:39-41 | the marks of two command lists joined are the marks of each, in order |
| BezPaths.BezPath.constructor | docs/demo/bezpath.js:18-20 | a new path has no commands |
| BezPaths.BezPath.MoveTo | docs/demo/bezpath.js:23-25 | appends one moveto |
| BezPaths.BezPath.LineTo | docs/demo/bezpath.js:27-29 | appends one lineto |
| BezPaths.BezPath.CurveTo | docs/demo/bezpath.js:31-33 | appends one curveto |
| BezPaths.BezPath.ClosePath | docs/demo/bezpath.js:35-37 | appends one closepath |
| BezPaths.BezPath.Mark | docs/demo/bezpath.js:39-41 | appends one mark |
| BezPaths.BezPath.RenderSvg | docs/demo/bezpath.js:43-58 | the loop concatenates each command's SVG fragment in order |
| BezPaths.SvgAppend | docs/demo/bezpath.js:43-58 | rendering joined command lists gives the joined texts |
| BezPaths.FragmentShape | docs/demo/bezpath.js:46-55 | a mark renders to nothing, and the other commands to text starting with M, L or C, or to Z |
| BezPaths.MarksRenderEmpty | docs/demo/bezpath.js:43-58 | a list of marks only renders to the empty string |
| BezPaths.BezPath.HitTest | docs/demo/bezpath.js:60-84 | the result holds the probe point and the best that the command-by-command fold `Hits` finds, starting from distance 1e12 and no mark (what that best is: `BezPaths.HitsMin`, `BezPaths.HitsAttained`) |
| BezPaths.Offer | docs/demo/bezpath.js:95-100 | a candidate replaces the best only when strictly nearer; the best never gets farther |
| BezPaths.LineDist | docs/demo/bezpath.js:102-115 | a segment's distance is at most the distance to either end point, equals the nearer one when the foot of the perpendicular falls outside, and is at most the perpendicular distance otherwise |
| BezPaths.SampleEnd | docs/demo/bezpath.js:127-131 | the last of the 32 samples is the curve's end point |
| BezPaths.SampleIsBernstein | docs/demo/bezpath.js:128-131 | each sample is the Bernstein form of the cubic at t = (i + 1)/32 |
| BezPaths.PiecesChain | docs/demo/bezpath.js:125-134 | the 32 line pieces run from the curve's start, each starting where the previous ended, to its end |
| BezPaths.CurveFoldMin | docs/demo/bezpath.js:122-136 | after k pieces the best distance is at most each piece's distance so far |
| BezPaths.CurveFoldAttained | docs/demo/bezpath.js:122-136 | after k pieces the best is the starting best, or one piece's distance carrying the curve's mark |
| BezPaths.HitTestResult.constructor | docs/demo/bezpath.js:88-93 | a result starts at the probe point with distance 1e12 and no mark |
| BezPaths.HitTestResult.Accumulate | docs/demo/bezpath.js:95-100 | one candidate is offered to the best |
| BezPaths.HitTestResult.AccumLine | docs/demo/bezpath.js:102-120 | the line's distance is offered to the best |
| BezPaths.HitTestResult.AccumCurve | docs/demo/bezpath.js:122-136 | the 32 sample pieces are offered in order |
| BezPaths.HitStep | docs/demo/bezpath.js:65-81 | the current point follows movetos, linetos and curveto ends, marks set the current mark, and the best distance never grows |
| BezPaths.HitsMark | docs/demo/bezpath.js:64-81 | the mark in force after a command list is its last mark |
| BezPaths.HitsMin | docs/demo/bezpath.js:60-136 | after the loop the best distance is at most that of every line, and of every one of the 32 pieces of every curve, drawn from a current point |
| BezPaths.HitsAttained | docs/demo/bezpath.js:60-136 | the best is the initial one (1e12, no mark), or is reached: its distance is that of some line or curve piece drawn from a current point, and its mark is the last mark before that command |
| Tuner.SolveBisect | docs/demo/tuner.js:12-33 | a root at either end is returned at once; no answer exactly when the ends have the same nonzero sign; otherwise the answer lies between the bounds and, unless it is an exact root, within (xmax - xmin)/2^30 of a sign change |
| Tuner.Bisect | docs/demo/tuner.js:21-32 | from ends of opposite nonzero sign, the answer lies between the bounds and, unless it is an exact root, is an end of a bracket that kept both end signs through 30 halvings |
| Tuner.BracketHalved | docs/demo/tuner.js:23-30 | replacing the end whose sign the midpoint shares by the midpoint keeps both end signs, stays inside the original interval and halves the width |
| Tuner.TwoCubics.GetCenterPt | docs/demo/tuner.js:47-71 | the centre point is the midpoint of the two interior control points |
| Tuner.TwoCubics.Render | docs/demo/tuner.js:75-88 | five points: the interior points at 1 and 3, the centre between them at 2, the arms at 0 and 4 |
| Tuner.TwoCubics.Default | docs/demo/tuner.js:116-125 | the default shape is well formed |
| Tuner.TwoCubics.Turn | docs/demo/tuner.js:128-137 | turning keeps the shape well formed |
| Tuner.TwoCubics.FlipHoriz | docs/demo/tuner.js:140-149 | mirroring left to right keeps the shape well formed |
| Tuner.TwoCubics.FlipVert | docs/demo/tuner.js:152-157 | mirroring top to bottom keeps the arms and x coordinates and negates the y coordinates |
| Tuner.SymmetriesAreInvolutions | docs/demo/tuner.js:128-157 | each symmetry undoes itself |
| Tuner.TurnIsBothFlips | docs/demo/tuner.js:128-157 | turning is mirroring both ways, in either order |
| Tuner.DefaultIsSymmetric | docs/demo/tuner.js:116-157 | the default shape is fixed by all three symmetries |
| Tuner.DefaultOnChord | docs/demo/tuner.js:75-125 | the default shape puts its interior points at the thirds of the chord and its centre at the middle |
| Tuner.RenderArms | docs/demo/tuner.js:75-88 | the arms leave (0, 0) at angle th0 and arrive at (1, 0) at angle th1, with the stored arm lengths |
| Tuner.FlipHorizMirrorsRender | docs/demo/tuner.js:140-149 | the mirrored shape with swapped angles renders the mirror image, in reverse |
| Tuner.FlipVertMirrorsRender | docs/demo/tuner.js:152-157 | the mirrored shape with negated angles renders the mirror image |
| Tuner.TurnRotatesRender | docs/demo/tuner.js:128-137 | the turned shape with swapped, negated angles renders the half-turned image, in reverse |
| Tuner.JsRem | docs/demo/tuner.js:162-162 | JavaScript's `%`: the remainder is smaller in size than the divisor and takes the dividend's sign |
| Tuner.MyMod | docs/demo/tuner.js:161-164 | for a positive divisor the result is in 0 .. b-1 |
| Tuner.MyModIsEuclidean | docs/demo/tuner.js:161-164 | `mymod` is the Euclidean remainder for every positive divisor, which covers the only divisor the source passes, 2n |
| Tuner.MyModPeriodic | docs/demo/tuner.js:161-164 | shifting by a multiple of the divisor does not change `mymod` |
| Tuner.MasterIndexRange | docs/demo/tuner.js:182-185 | masters of a grid of size n are stored at indices below (n+1)^2 |
| Tuner.MasterIndexOrder | docs/demo/tuner.js:182-185 | the storage order is lexicographic by column, then row |
| Tuner.MasterIndexOnto | docs/demo/tuner.js:182-185 | every storage slot belongs to exactly one triangle point |
| Tuner.BilinearCorners | docs/demo/tuner.js:222-230 | bilinear interpolation gives each corner's value at that corner |
| Tuner.BilinearConstant | docs/demo/tuner.js:222-230 | interpolating four equal values gives that value |
| Tuner.BlendCorners | docs/demo/tuner.js:215-230 | the blend exists exactly when all four masters exist, and is well formed |
| Tuner.BlendPrefixAt | docs/demo/tuner.js:222-230 | each blended coefficient is the bilinear interpolation of the four masters' coefficients |
| Tuner.BlendOfEqual | docs/demo/tuner.js:221-230 | blending four equal masters gives that master, whatever the fractions |
| Tuner.BlendAtCorner | docs/demo/tuner.js:221-230 | with both fractions 0 the blend is the first corner's master |
| Tuner.BlendCoeff | docs/demo/tuner.js:223-229 | one coefficient is the bilinear interpolation of the four corners |
| Tuner.Blend | docs/demo/tuner.js:222-230 | the loop blends all six coefficients |
| Tuner.CurveGrid.GetMasterCore | docs/demo/tuner.js:182-185 | a master is found exactly when its storage index is in range |
| Tuner.CurveGrid.Fold | docs/demo/tuner.js:188-200 | a grid coordinate folds into -n+1 .. n |
| Tuner.CurveGrid.GetMaster | docs/demo/tuner.js:188-200 | any master found is well formed |
| Tuner.CurveGrid.Interp | docs/demo/tuner.js:210-232 | any interpolated shape is well formed |
| Tuner.CurveGrid.InterpAt | docs/demo/tuner.js:213-231 | any blend around grid coordinates is well formed |
| Tuner.CurveGrid.GetInterp | docs/demo/tuner.js:210-232 | the method returns the specified interpolation |
| Tuner.CurveGrid.GetInterpAt | docs/demo/tuner.js:213-231 | from the grid coordinates on, the method returns the specified blend of the four neighbouring masters |
| Tuner.CurveGrid.ToJson | docs/demo/tuner.js:235-248 | the JSON holds n and each master's coefficients, in order |
| Tuner.CurveGrid.FromJson | docs/demo/tuner.js:251-258 | the grid holds n and one master per coefficient list, in order |
| Tuner.JsonRoundTrip | docs/demo/tuner.js:235-258 | reading back what was written gives the same grid, and writing back what was read gives the same JSON |
| Tuner.FoldInside | docs/demo/tuner.js:188-200 | folding leaves coordinates inside the fundamental range unchanged |
| Tuner.FoldPeriodic | docs/demo/tuner.js:188-200 | folding is periodic with period 2n |
| Tuner.GetMasterPeriodic | docs/demo/tuner.js:188-200 | master lookup is periodic with period 2n in both coordinates |
| Tuner.GetMasterTotal | docs/demo/tuner.js:188-200 | a grid holding all (n+1)^2 masters answers every lookup |
| Tuner.GetMasterInside | docs/demo/tuner.js:188-200 | inside the stored triangle, except at the corner (n, -n), the lookup is the direct one |
| Tuner.GetMasterCorner | docs/demo/tuner.js:188-192 | at the corner (n, -n) the fold sends j = -n to n, so the lookup returns the master stored for (n, n), which differs from the one stored for (n, -n) whenever those two differ |
| Tuner.InterpTotal | docs/demo/tuner.js:210-232 | a fully populated grid interpolates every pair of angles |
| Tuner.InterpAtGridPoint | docs/demo/tuner.js:210-232 | at angles that fall exactly on a grid point, the interpolation is that point's master |
| Tuner.InterpUniform | docs/demo/tuner.js:210-232 | where the four surrounding masters are equal, the interpolation is that master |
| Spiro.IntegSpiro12 | spiro.js:18-68 | the body is the series, term for term; `Spiro.IntegSpiro12Straight` states its zero-curvature value |
| Spiro.IntegSpiro12Straight | spiro.js:18-68 | the series gives the unit chord (1, 0) for zero curvature |
| Spiro.IntegSpiro12n | spiro.js:70-107 | the subdivided integral sums the n sub-interval contributions, each rotated by the tangent angle at its midpoint, and scales by 1/n |
| Spiro.IntegSpiro12nOne | spiro.js:70-107 | with one sub-interval the subdivided integral is the series itself |
| Spiro.SubSumStraight | spiro.js:88-105 | for zero curvature the first i contributions sum to (i, 0) |
| Spiro.IntegSpiro12nStraight | spiro.js:70-107 | for zero curvature the subdivided integral is the unit chord for any n |
| Spiro.SubIntervalsTile | spiro.js:75-104 | the n sub-intervals exactly tile -1/2 .. 1/2 |
| Spiro.IntegSpiro | spiro.js:110-119 | the series is used exactly when k2 = k3 = 0 and 0.2 k0^2 + abs(k1) < 1, and four sub-intervals otherwise |
| Spiro.EulerIntegralStraight | spiro.js:110-119 | the Euler integral of a straight segment is the unit chord |
| Spiro.WrapK0Range | spiro.js:124-126 | the mean curvature is wrapped into -2 pi .. 2 pi by a whole number of 4 pi steps, and left unchanged if already inside |
| Spiro.WrapMeanCurvature | spiro.js:124-126 | the two wrapping loops compute the wrapped value |
| Spiro.FitEuler | spiro.js:121-144 | the fit returns the specified outcome |
| Spiro.SecantLoop | spiro.js:129-140 | the loop stops after at most 10 steps: after 10 the fit diverges, otherwise its last integral and slope give the fitted parameters |
| Spiro.SecantTurn | spiro.js:129-137 | a converged step ends the search with its parameters; otherwise the next secant iterate is taken |
| Spiro.SecantSearchOutcome | spiro.js:129-140 | the search fails exactly when no step converges, and otherwise returns the parameters of the first step that does |
| Spiro.FitEulerOutcome | spiro.js:121-144 | `fit_euler` fails exactly when none of the 10 secant steps converges; otherwise its k0 is the wrapped mean curvature and its k1 meets the 1e-9 tolerance |
| Spiro.FitEulerStraight | spiro.js:121-144 | zero end angles fit the straight segment: k0 = k1 = 0, chord 1, chord angle 0 |
| Spiro.EulerSegment.KEndpoints | spiro.js:171-175 | the end curvatures have mean k0 chord and difference k1 chord, and each is the turning rate of `th` at that end times the chord |
| Spiro.SegmentOf | spiro.js:147-150 | the segment's tangent angle starts at -th0 and turns by k0 |
| Spiro.EulerSegment.Th | spiro.js:152-156 | the body is the definition; `Spiro.ThTaylor` and `Spiro.EulerSegment.KEndpoints` state its properties |
| Spiro.EulerSegment.Xy | spiro.js:158-169 | the point at parameter t of the segment drawn on the unit chord; it starts at the origin |
| Spiro.ThTaylor | spiro.js:152-156 | `th` is quadratic with midpoint value thmid and constant second derivative k1 |
| Spiro.NewEulerSegment | spiro.js:147-150 | constructing a segment fits the end angles and fails exactly when the fit diverges |
| Spiro.PieceOf | spiro.js:219-234 | each piece contributes its two handles, preceded by its start point for every piece but the first |
| Spiro.RenderPointsLength | spiro.js:219-234 | i pieces give 3i - 1 points |
| Spiro.RenderPointsPrefix | spiro.js:219-234 | rendering more pieces only appends points |
| Spiro.RenderJoins | spiro.js:219-234 | point 3i - 1 is the curve at i/n, and the handles around it lead out and come in along the tangent at distance d |
| Spiro.RenderStarts | spiro.js:219-234 | the first point is the lead handle of the curve's start |
| Spiro.DrawPieces | spiro.js:216-235 | the render loop produces the specified points |
| Spiro.SpiroCurve.ComputeCurvature | spiro.js:202-208 | the curvature arctangents are defined exactly when the fit succeeds, and are the arctangents of the fitted segment's end curvatures |
| Spiro.SpiroCurve.EndpointTangent | spiro.js:210-212 | the Euler family takes the endpoint tangent as given |
| Spiro.SpiroCurve.Render | spiro.js:214-236 | the method renders the fitted segment with five pieces, or fails exactly when the fit fails |
| Spiro.SpiroCurve.Render4 | spiro.js:238-240 | the end curvatures are ignored, and the result is `render`'s |
| Spiro.RenderSize | spiro.js:214-236 | a successful render has 14 points |

## Left out

- Floating point: all arithmetic is on exact reals. Rounding, NaN and infinities are not modelled. `Numerics.Quot` returns 0 where JavaScript divides by zero, and properties that need a division hold under a nonzero-divisor hypothesis.
- Transcendental functions, `Math.PI` and `mod2pi` are opaque parameters. The operations require only `pi > 0`. A few lemmas take further facts as hypotheses: `Tuner.RenderArms` assumes cos² + sin² = 1; `Tuner.FlipVertMirrorsRender` and `Tuner.TurnRotatesRender` assume cos is even and sin is odd; `Spiro.IntegSpiro12nOne`, `Spiro.SubSumStraight` and `Spiro.IntegSpiro12nStraight` assume cos 0 = 1 and sin 0 = 0; `Spiro.FitEulerStraight` assumes atan2(0, 1) = 0 and hypot(1, 0) = 1. No other property depends on their values.
- Number formatting in SVG output, template-literal text and exception message texts are not modelled. `BezPath.renderSvg` takes the number formatter as a parameter. `fit_euler`'s thrown message is the constant "fit_euler diverges" without the angles.
- `Vec2` arithmetic beyond what the core uses, the `CubicBez` curvature and `atanCurvature` helpers, `MyCurve`'s numerics and `renderSvg` on `Spline` and `EulerSegment` are not part of this model.
- `TwoParamSpline.iterate` and `computeCurvatureDerivs` are unfinished in the source and are left out.
- `TwoCubics.raise` (the degree-raising conversion used only for display) and `makeCurvatureMap`, which only prints, are left out.
- Tridiag.Solve: the model requires the arrays to be distinct objects, where JavaScript would let the caller pass the same array twice.
- Splines.Spline.Solve: the per-point results `rTh`, `lTh`, `rAk`, `lAk` and `kBlend` are kept in a side table `derived`, one entry per control point, rather than written onto shared `ControlPoint` objects. Aliasing of control points between splines is not captured.
- Splines.Spline.Render: a tangent that was never solved is read as 0, where the source reads `undefined` and computes NaN. `Splines.Spline.Solve` sets every tangent, so this matters only before solving. Likewise a `kBlend` is undefined until `computeCurvatureBlending` first runs; the source's `!== null` test lets `undefined` through and passes NaN to `render4`, where the model passes no curvature (`None`). The method requires the curve family to render 3k - 1 points per segment for some k (`Splines.PieceCount`), so no other family can be rendered in the model; the source assumes this size without checking it.
- Splines.Spline: the curve family is a constructor parameter, where the source always builds `MyCurve`. `Spiro.SpiroCurve` is not a `CurveFamily` value: its operations can fail, so it is modelled separately and no spline is built over it.
- Tuner.SolveBisect: the bounds are explicit parameters, because the model has no default arguments (the source's are 0 and 1). `solve_bisect` has no live caller in the modelled code: the call in `getCenterPt` sits inside a block comment and passes 0.001 and 0.999, and the live code fixes t = 0.5.
- Tuner.MyMod: the divisor is required to be nonzero, because JavaScript's `%` by zero gives NaN.
- Poly.Polynomial.Deriv: requires at least one coefficient, because an empty polynomial makes the source allocate an array of length -1.
- Spiro.IntegSpiro12n: the sub-interval sum is accumulated in exact reals, so no reordering or rounding of the running sums is captured.
- Spiro.EulerSegment.Xy: its value is a composition of the supplied integral and transcendentals; beyond starting at the origin, no geometric property of it is claimed.
- Spiro: the series `integ_spiro_12` is passed to the integral as a parameter of type `Series`, so that the straight-line lemmas need only its zero case, proved by `Spiro.IntegSpiro12Straight`.
- Horner evaluation and the rotation by the tangent angle are exact in reals; their floating-point error is not modelled.

=== FILE: bezier.dfy ===
/**
 * `Vec2` and `CubicBez` of curves.js: cubic Bezier evaluation in the
 * Bernstein basis, its first and second derivatives, and de Casteljau
 * halving. Everything here is exact polynomial algebra over `real`.
 */
module Bezier {

  /** A 2-vector (curves.js `Vec2`). */
  datatype Vec2 = Vec2(x: real, y: real) {
    function Dot(other: Vec2): real {
      x * other.x + y * other.y
    }

    function Cross(other: Vec2): real {
      x * other.y - y * other.x
    }

    function Plus(other: Vec2): Vec2 {
      Vec2(x + other.x, y + other.y)
    }

    function Scale(k: real): Vec2 {
      Vec2(k * x, k * y)
    }
  }

  /**
   * A cubic Bezier. The source keeps the eight coordinates
   * [x0, y0, x1, y1, x2, y2, x3, y3] in a flat array; here they are the four
   * control points p0..p3 (so `c[2k], c[2k+1]` is `pk`).
   */
  datatype CubicBez = CubicBez(p0: Vec2, p1: Vec2, p2: Vec2, p3: Vec2) {

    /** The combination c0*p0 + c1*p1 + c2*p2 + c3*p3 (`weightsum`). */
    function WeightSum(c0: real, c1: real, c2: real, c3: real): Vec2 {
      Vec2(Comb(c0, c1, c2, c3, p0.x, p1.x, p2.x, p3.x),
           Comb(c0, c1, c2, c3, p0.y, p1.y, p2.y, p3.y))
    }

    /** Evaluation in the Bernstein basis (`eval`); the weights sum to 1, so a curve on one point stays there. */
    function Eval(t: real): (r: Vec2)
      ensures p0 == p1 == p2 == p3 ==> r == p0
    {
      BernConstant(p0.x, t);
      BernConstant(p0.y, t);
      Vec2(Bern(p0.x, p1.x, p2.x, p3.x, t), Bern(p0.y, p1.y, p2.y, p3.y, t))
    }

    /** First derivative (`deriv`): three times the first and the last leg at the two ends. */
    function Deriv(t: real): (r: Vec2)
      ensures t == 0.0 ==> r == Vec2(3.0 * (p1.x - p0.x), 3.0 * (p1.y - p0.y))
      ensures t == 1.0 ==> r == Vec2(3.0 * (p3.x - p2.x), 3.0 * (p3.y - p2.y))
    {
      Vec2(BernD(p0.x, p1.x, p2.x, p3.x, t), BernD(p0.y, p1.y, p2.y, p3.y, t))
    }

    /** Second derivative (`deriv2`): six times the second difference of the first or last three points at the ends. */
    function Deriv2(t: real): (r: Vec2)
      ensures t == 0.0 ==> r == Vec2(6.0 * (p0.x - 2.0 * p1.x + p2.x), 6.0 * (p0.y - 2.0 * p1.y + p2.y))
      ensures t == 1.0 ==> r == Vec2(6.0 * (p1.x - 2.0 * p2.x + p3.x), 6.0 * (p1.y - 2.0 * p2.y + p3.y))
    {
      Vec2(BernD2(p0.x, p1.x, p2.x, p3.x, t), BernD2(p0.y, p1.y, p2.y, p3.y, t))
    }

    /** The constant third derivative divided by 6: p3 - 3 p2 + 3 p1 - p0. */
    function Jerk(): Vec2 {
      WeightSum(-1.0, 3.0, -3.0, 1.0)
    }

    /** de Casteljau subdivision at t = 1/2, first half. */
    function LeftHalf(): CubicBez {
      CubicBez(
        p0,
        Vec2(0.5 * (p0.x + p1.x), 0.5 * (p0.y + p1.y)),
        Vec2(0.25 * (p0.x + 2.0 * p1.x + p2.x), 0.25 * (p0.y + 2.0 * p1.y + p2.y)),
        Vec2(0.125 * (p0.x + 3.0 * (p1.x + p2.x) + p3.x),
             0.125 * (p0.y + 3.0 * (p1.y + p2.y) + p3.y)))
    }

    /** de Casteljau subdivision at t = 1/2, second half. */
    function RightHalf(): CubicBez {
      CubicBez(
        Vec2(0.125 * (p0.x + 3.0 * (p1.x + p2.x) + p3.x),
             0.125 * (p0.y + 3.0 * (p1.y + p2.y) + p3.y)),
        Vec2(0.25 * (p1.x + 2.0 * p2.x + p3.x), 0.25 * (p1.y + 2.0 * p2.y + p3.y)),
        Vec2(0.5 * (p2.x + p3.x), 0.5 * (p2.y + p3.y)),
        p3)
    }
  }

  /** One coordinate of a weighted sum of four control points. */
  function Comb(c0: real, c1: real, c2: real, c3: real,
                a0: real, a1: real, a2: real, a3: real): real {
    c0 * a0 + c1 * a1 + c2 * a2 + c3 * a3
  }

  // ---------------------------------------------------------------------
  // One coordinate at a time: the identities below are proved for a single
  // coordinate and then lifted to points.

  function Bern(a0: real, a1: real, a2: real, a3: real, t: real): real {
    var mt := 1.0 - t;
    Comb(mt * mt * mt, 3.0 * mt * mt * t, 3.0 * mt * t * t, t * t * t, a0, a1, a2, a3)
  }

  /** The Bernstein weights sum to (1 - t + t)^3 = 1. */
  lemma BernConstant(a: real, t: real)
    ensures Bern(a, a, a, a, t) == a
  {
    var mt := 1.0 - t;
    assert mt * mt * mt + 3.0 * mt * mt * t + 3.0 * mt * t * t + t * t * t == (mt + t) * (mt + t) * (mt + t);
  }

  function BernD(a0: real, a1: real, a2: real, a3: real, t: real): real {
    var mt := 1.0 - t;
    var c0 := -3.0 * mt * mt;
    var c3 := 3.0 * t * t;
    Comb(c0, -6.0 * t * mt - c0, 6.0 * t * mt - c3, c3, a0, a1, a2, a3)
  }

  function BernD2(a0: real, a1: real, a2: real, a3: real, t: real): real {
    var mt := 1.0 - t;
    Comb(6.0 * mt, 6.0 - 18.0 * mt, 6.0 - 18.0 * t, 6.0 * t, a0, a1, a2, a3)
  }

  /** A cubic in the power basis, A + B t + C t^2 + D t^3. */
  function Cubic(A: real, B: real, C: real, D: real, t: real): real {
    A + B * t + C * (t * t) + D * (t * t * t)
  }

  /** The power-basis coefficient of t in a Bernstein cubic. */
  function PowB(a0: real, a1: real, a2: real, a3: real): real {
    3.0 * (a1 - a0)
  }

  /** The power-basis coefficient of t^2 in a Bernstein cubic (that of t^3 is the jerk combination). */
  function PowC(a0: real, a1: real, a2: real, a3: real): real {
    3.0 * (a2 - 2.0 * a1 + a0)
  }

  /** Power-basis form of the Bernstein sum, the pivot of every identity below. */
  lemma BernPower(a0: real, a1: real, a2: real, a3: real, t: real)
    ensures Bern(a0, a1, a2, a3, t)
         == Cubic(a0, PowB(a0, a1, a2, a3), PowC(a0, a1, a2, a3), Comb(-1.0, 3.0, -3.0, 1.0, a0, a1, a2, a3), t)
  {
    var mt := 1.0 - t;
    assert mt * mt * mt == 1.0 - 3.0 * t + 3.0 * (t * t) - t * t * t;
    assert 3.0 * mt * mt * t == 3.0 * t - 6.0 * (t * t) + 3.0 * (t * t * t);
    assert 3.0 * mt * t * t == 3.0 * (t * t) - 3.0 * (t * t * t);
  }

  lemma BernDPower(a0: real, a1: real, a2: real, a3: real, t: real)
    ensures BernD(a0, a1, a2, a3, t)
         == PowB(a0, a1, a2, a3) + 2.0 * PowC(a0, a1, a2, a3) * t + 3.0 * Comb(-1.0, 3.0, -3.0, 1.0, a0, a1, a2, a3) * (t * t)
  {
    var mt := 1.0 - t;
    assert -3.0 * mt * mt == -3.0 + 6.0 * t - 3.0 * (t * t);
    assert t * mt == t - t * t;
  }

  lemma BernD2Power(a0: real, a1: real, a2: real, a3: real, t: real)
    ensures BernD2(a0, a1, a2, a3, t)
         == 2.0 * PowC(a0, a1, a2, a3) + 6.0 * Comb(-1.0, 3.0, -3.0, 1.0, a0, a1, a2, a3) * t
  {
  }

  /** Taylor's formula for a cubic, exact. */
  lemma CubicShift(A: real, B: real, C: real, D: real, t: real, h: real)
    ensures Cubic(A, B, C, D, t + h)
         == Cubic(A, B, C, D, t) + h * (B + 2.0 * C * t + 3.0 * D * (t * t))
            + (h * h / 2.0) * (2.0 * C + 6.0 * D * t) + h * h * h * D
  {
    assert (t + h) * (t + h) == t * t + 2.0 * t * h + h * h;
    assert (t + h) * (t + h) * (t + h) == t * t * t + 3.0 * (t * t) * h + 3.0 * t * (h * h) + h * h * h;
  }

  /** Taylor's formula for a quadratic, exact. */
  lemma QuadShift(B: real, C: real, D: real, t: real, h: real)
    ensures B + 2.0 * C * (t + h) + 3.0 * D * ((t + h) * (t + h))
         == B + 2.0 * C * t + 3.0 * D * (t * t) + h * (2.0 * C + 6.0 * D * t) + 3.0 * h * h * D
  {
    assert (t + h) * (t + h) == t * t + 2.0 * t * h + h * h;
  }

  /** The cubic Taylor combination p + h d1 + (h^2 / 2) d2 + h^3 j. */
  function Taylor3(p: real, d1: real, d2: real, j: real, h: real): real {
    p + h * d1 + (h * h / 2.0) * d2 + h * h * h * j
  }

  /** The quadratic Taylor combination d + h d2 + 3 h^2 j. */
  function Taylor2(d: real, d2: real, j: real, h: real): real {
    d + h * d2 + 3.0 * h * h * j
  }

  /** Substitution step of the two Taylor lemmas, kept free of the Bernstein bodies. */
  lemma ShiftBySubstitution(P1: real, P0: real, D1: real, D2: real,
                            A: real, B: real, C: real, D: real, t: real, h: real)
    requires P1 == Cubic(A, B, C, D, t + h) && P0 == Cubic(A, B, C, D, t)
    requires D1 == B + 2.0 * C * t + 3.0 * D * (t * t) && D2 == 2.0 * C + 6.0 * D * t
    ensures P1 == Taylor3(P0, D1, D2, D, h)
  {
    CubicShift(A, B, C, D, t, h);
  }

  lemma QuadBySubstitution(Q1: real, Q0: real, D2: real, B: real, C: real, D: real, t: real, h: real)
    requires Q1 == B + 2.0 * C * (t + h) + 3.0 * D * ((t + h) * (t + h))
    requires Q0 == B + 2.0 * C * t + 3.0 * D * (t * t) && D2 == 2.0 * C + 6.0 * D * t
    ensures Q1 == Taylor2(Q0, D2, D, h)
  {
    QuadShift(B, C, D, t, h);
  }

  lemma BernTaylor(a0: real, a1: real, a2: real, a3: real, t: real, h: real)
    ensures Bern(a0, a1, a2, a3, t + h)
         == Taylor3(Bern(a0, a1, a2, a3, t), BernD(a0, a1, a2, a3, t), BernD2(a0, a1, a2, a3, t), Comb(-1.0, 3.0, -3.0, 1.0, a0, a1, a2, a3), h)
  {
    BernPower(a0, a1, a2, a3, t + h);
    BernPower(a0, a1, a2, a3, t);
    BernDPower(a0, a1, a2, a3, t);
    BernD2Power(a0, a1, a2, a3, t);
    ShiftBySubstitution(Bern(a0, a1, a2, a3, t + h), Bern(a0, a1, a2, a3, t),
                        BernD(a0, a1, a2, a3, t), BernD2(a0, a1, a2, a3, t), a0,
                        PowB(a0, a1, a2, a3), PowC(a0, a1, a2, a3),
                        Comb(-1.0, 3.0, -3.0, 1.0, a0, a1, a2, a3), t, h);
  }

  lemma BernDTaylor(a0: real, a1: real, a2: real, a3: real, t: real, h: real)
    ensures BernD(a0, a1, a2, a3, t + h)
         == Taylor2(BernD(a0, a1, a2, a3, t), BernD2(a0, a1, a2, a3, t), Comb(-1.0, 3.0, -3.0, 1.0, a0, a1, a2, a3), h)
  {
    BernDPower(a0, a1, a2, a3, t + h);
    BernDPower(a0, a1, a2, a3, t);
    BernD2Power(a0, a1, a2, a3, t);
    QuadBySubstitution(BernD(a0, a1, a2, a3, t + h), BernD(a0, a1, a2, a3, t),
                       BernD2(a0, a1, a2, a3, t),
                       PowB(a0, a1, a2, a3), PowC(a0, a1, a2, a3),
                       Comb(-1.0, 3.0, -3.0, 1.0, a0, a1, a2, a3), t, h);
  }

  /** Lifts a coordinatewise cubic Taylor step to points. */
  lemma TaylorLift(e1: Vec2, e0: Vec2, d1: Vec2, d2: Vec2, j: Vec2, h: real)
    requires e1.x == Taylor3(e0.x, d1.x, d2.x, j.x, h) && e1.y == Taylor3(e0.y, d1.y, d2.y, j.y, h)
    ensures e1 == e0.Plus(d1.Scale(h)).Plus(d2.Scale(h * h / 2.0)).Plus(j.Scale(h * h * h))
  {
  }

  /** Lifts a coordinatewise quadratic Taylor step to points. */
  lemma QuadLift(e1: Vec2, e0: Vec2, d: Vec2, j: Vec2, h: real)
    requires e1.x == Taylor2(e0.x, d.x, j.x, h) && e1.y == Taylor2(e0.y, d.y, j.y, h)
    ensures e1 == e0.Plus(d.Scale(h)).Plus(j.Scale(3.0 * h * h))
  {
  }

  /**
   * `deriv` and `deriv2` are the exact derivatives of `eval`: the cubic
   * Taylor expansion at any t holds with no remainder term.
   */
  lemma EvalTaylor(b: CubicBez, t: real, h: real)
    ensures b.Eval(t + h)
         == b.Eval(t).Plus(b.Deriv(t).Scale(h)).Plus(b.Deriv2(t).Scale(h * h / 2.0))
              .Plus(b.Jerk().Scale(h * h * h))
  {
    BernTaylor(b.p0.x, b.p1.x, b.p2.x, b.p3.x, t, h);
    BernTaylor(b.p0.y, b.p1.y, b.p2.y, b.p3.y, t, h);
    TaylorLift(b.Eval(t + h), b.Eval(t), b.Deriv(t), b.Deriv2(t), b.Jerk(), h);
  }

  /** `deriv2` is the exact derivative of `deriv`. */
  lemma DerivTaylor(b: CubicBez, t: real, h: real)
    ensures b.Deriv(t + h)
         == b.Deriv(t).Plus(b.Deriv2(t).Scale(h)).Plus(b.Jerk().Scale(3.0 * h * h))
  {
    BernDTaylor(b.p0.x, b.p1.x, b.p2.x, b.p3.x, t, h);
    BernDTaylor(b.p0.y, b.p1.y, b.p2.y, b.p3.y, t, h);
    QuadLift(b.Deriv(t + h), b.Deriv(t), b.Deriv2(t), b.Jerk(), h);
  }

  /** The curve interpolates its end control points. */
  lemma EvalEndpoints(b: CubicBez)
    ensures b.Eval(0.0) == b.p0 && b.Eval(1.0) == b.p3
  {
  }

  lemma BernLeft(a0: real, a1: real, a2: real, a3: real, t: real)
    ensures Bern(a0, 0.5 * (a0 + a1), 0.25 * (a0 + 2.0 * a1 + a2),
                 0.125 * (a0 + 3.0 * (a1 + a2) + a3), t)
         == Bern(a0, a1, a2, a3, t / 2.0)
  {
    BernPower(a0, 0.5 * (a0 + a1), 0.25 * (a0 + 2.0 * a1 + a2),
              0.125 * (a0 + 3.0 * (a1 + a2) + a3), t);
    BernPower(a0, a1, a2, a3, t / 2.0);
    var u := t / 2.0;
    assert u * u == (t * t) / 4.0;
    assert u * u * u == (t * t * t) / 8.0;
  }

  lemma BernRight(a0: real, a1: real, a2: real, a3: real, t: real)
    ensures Bern(0.125 * (a0 + 3.0 * (a1 + a2) + a3), 0.25 * (a1 + 2.0 * a2 + a3),
                 0.5 * (a2 + a3), a3, t)
         == Bern(a0, a1, a2, a3, 0.5 + t / 2.0)
  {
    BernPower(0.125 * (a0 + 3.0 * (a1 + a2) + a3), 0.25 * (a1 + 2.0 * a2 + a3),
              0.5 * (a2 + a3), a3, t);
    BernPower(a0, a1, a2, a3, 0.5 + t / 2.0);
    var u := 0.5 + t / 2.0;
    assert u * u == 0.25 + t / 2.0 + (t * t) / 4.0;
    assert u * u * u == 0.125 + 3.0 * t / 8.0 + 3.0 * (t * t) / 8.0 + (t * t * t) / 8.0;
  }

  /**
   * de Casteljau halving is exact: the left half traced over [0, 1] is the
   * original over [0, 1/2], the right half the original over [1/2, 1].
   */
  lemma HalvesReparametrize(b: CubicBez, t: real)
    ensures b.LeftHalf().Eval(t) == b.Eval(t / 2.0)
    ensures b.RightHalf().Eval(t) == b.Eval(0.5 + t / 2.0)
  {
    BernLeft(b.p0.x, b.p1.x, b.p2.x, b.p3.x, t);
    BernLeft(b.p0.y, b.p1.y, b.p2.y, b.p3.y, t);
    BernRight(b.p0.x, b.p1.x, b.p2.x, b.p3.x, t);
    BernRight(b.p0.y, b.p1.y, b.p2.y, b.p3.y, t);
  }

  /** The halves keep the original ends and meet at the curve's midpoint. */
  lemma HalvesMeet(b: CubicBez)
    ensures b.LeftHalf().p0 == b.p0 && b.RightHalf().p3 == b.p3
    ensures b.LeftHalf().p3 == b.RightHalf().p0 == b.Eval(0.5)
  {
  }
}

=== FILE: bezpaths.dfy ===
/**
 * `BezPath` and `HitTestResult` of docs/demo/bezpath.js: an append-only
 * list of path commands, its SVG rendering, and a nearest-segment hit test
 * that folds a running minimum over the path's line and curve pieces.
 */
module BezPaths {
  import opened Numerics

  /** One path command; `Mark` tags the following segments with an index. */
  datatype Cmd =
    | MoveTo(x: real, y: real)
    | LineTo(x: real, y: real)
    | CurveTo(x1: real, y1: real, x2: real, y2: real, x3: real, y3: real)
    | ClosePath
    | Mark(i: int)

  /** The SVG text of one command; `fmt` renders a number. */
  function Fragment(c: Cmd, fmt: real -> string): string {
    match c
    case MoveTo(x, y) => "M" + fmt(x) + " " + fmt(y)
    case LineTo(x, y) => "L" + fmt(x) + " " + fmt(y)
    case CurveTo(x1, y1, x2, y2, x3, y3) =>
      "C" + fmt(x1) + " " + fmt(y1) + " " + fmt(x2) + " " + fmt(y2) + " " + fmt(x3) + " " + fmt(y3)
    case ClosePath => "Z"
    case Mark(_) => ""
  }

  /** The fragments of all commands, in command order. */
  function Svg(cmds: seq<Cmd>, fmt: real -> string): string {
    if |cmds| == 0 then "" else Svg(cmds[..|cmds| - 1], fmt) + Fragment(cmds[|cmds| - 1], fmt)
  }

  lemma SvgLast(cmds: seq<Cmd>, fmt: real -> string)
    requires |cmds| > 0
    ensures Svg(cmds, fmt) == Svg(cmds[..|cmds| - 1], fmt) + Fragment(cmds[|cmds| - 1], fmt)
  {
  }

  /** Rendering distributes over concatenation of command lists. */
  lemma {:induction false} SvgAppend(a: seq<Cmd>, b: seq<Cmd>, fmt: real -> string)
    ensures Svg(a + b, fmt) == Svg(a, fmt) + Svg(b, fmt)
    decreases |b|
  {
    if |b| == 0 {
      assert a + b == a;
    } else {
      var b' := b[..|b| - 1];
      assert (a + b)[..|a + b| - 1] == a + b';
      assert (a + b)[|a + b| - 1] == b[|b| - 1];
      SvgLast(a + b, fmt);
      SvgLast(b, fmt);
      SvgAppend(a, b', fmt);
    }
  }

  /** Marks render as nothing; every other command renders to a non-empty fragment. */
  lemma FragmentShape(c: Cmd, fmt: real -> string)
    ensures c.Mark? <==> Fragment(c, fmt) == ""
    ensures c.MoveTo? ==> Fragment(c, fmt)[0] == 'M'
    ensures c.LineTo? ==> Fragment(c, fmt)[0] == 'L'
    ensures c.CurveTo? ==> Fragment(c, fmt)[0] == 'C'
    ensures c.ClosePath? ==> Fragment(c, fmt) == "Z"
  {
  }

  /** A list of marks alone renders as the empty string. */
  lemma {:induction false} MarksRenderEmpty(cmds: seq<Cmd>, fmt: real -> string)
    requires forall k :: 0 <= k < |cmds| ==> cmds[k].Mark?
    ensures Svg(cmds, fmt) == ""
  {
    if |cmds| > 0 {
      MarksRenderEmpty(cmds[..|cmds| - 1], fmt);
    }
  }

  class BezPath {
    var cmds: seq<Cmd>

    constructor()
      ensures cmds == []
    {
      cmds := [];
    }

    method MoveTo(x: real, y: real)
      modifies this
      ensures cmds == old(cmds) + [Cmd.MoveTo(x, y)]
    {
      cmds := cmds + [Cmd.MoveTo(x, y)];
    }

    method LineTo(x: real, y: real)
      modifies this
      ensures cmds == old(cmds) + [Cmd.LineTo(x, y)]
    {
      cmds := cmds + [Cmd.LineTo(x, y)];
    }

    method CurveTo(x1: real, y1: real, x2: real, y2: real, x3: real, y3: real)
      modifies this
      ensures cmds == old(cmds) + [Cmd.CurveTo(x1, y1, x2, y2, x3, y3)]
    {
      cmds := cmds + [Cmd.CurveTo(x1, y1, x2, y2, x3, y3)];
    }

    method ClosePath()
      modifies this
      ensures cmds == old(cmds) + [Cmd.ClosePath]
    {
      cmds := cmds + [Cmd.ClosePath];
    }

    method Mark(i: int)
      modifies this
      ensures cmds == old(cmds) + [Cmd.Mark(i)]
    {
      cmds := cmds + [Cmd.Mark(i)];
    }

    /** `renderSvg`: one fragment per command, marks contributing nothing. */
    method RenderSvg(fmt: real -> string) returns (path: string)
      ensures path == Svg(cmds, fmt)
    {
      path := "";
      var k := 0;
      while k < |cmds|
        invariant 0 <= k <= |cmds|
        invariant path == Svg(cmds[..k], fmt)
      {
        assert cmds[..k + 1][..k] == cmds[..k];
        match cmds[k] {
          case MoveTo(x, y) =>
            path := path + ("M" + fmt(x) + " " + fmt(y));
          case LineTo(x, y) =>
            path := path + ("L" + fmt(x) + " " + fmt(y));
          case CurveTo(x1, y1, x2, y2, x3, y3) =>
            path := path + ("C" + fmt(x1) + " " + fmt(y1) + " " + fmt(x2) + " " + fmt(y2)
                    + " " + fmt(x3) + " " + fmt(y3));
          case ClosePath =>
            path := path + "Z";
          case Mark(_) =>
        }
        k := k + 1;
      }
      assert cmds[..|cmds|] == cmds;
    }

    /**
     * `hitTest`: the nearest line or curve piece to (x, y), tagged with the
     * mark in force when the piece was drawn.
     */
    method HitTest(x: real, y: real, tr: Transcendentals) returns (result: HitTestResult)
      ensures fresh(result) && result.x == x && result.y == y
      ensures Best(result.bestDist, result.bestMark) == Hits(cmds, x, y, tr).best
    {
      result := new HitTestResult(x, y);
      var cur: Option<Point> := None;
      var curMark: Option<int> := None;
      var k := 0;
      while k < |cmds|
        invariant 0 <= k <= |cmds|
        invariant result.x == x && result.y == y
        invariant HitState(cur, curMark, Best(result.bestDist, result.bestMark)) == Hits(cmds[..k], x, y, tr)
        modifies result
      {
        assert cmds[..k + 1][..k] == cmds[..k];
        match cmds[k] {
          case MoveTo(px, py) =>
            cur := Some(Point(px, py));
          case LineTo(px, py) =>
            if cur.Some? {
              result.AccumLine(cur.value.x, cur.value.y, px, py, curMark, tr);
            }
            cur := Some(Point(px, py));
          case CurveTo(x1, y1, x2, y2, x3, y3) =>
            if cur.Some? {
              result.AccumCurve(cur.value.x, cur.value.y, x1, y1, x2, y2, x3, y3, curMark, tr);
            }
            cur := Some(Point(x3, y3));
          case ClosePath =>
          case Mark(i) =>
            curMark := Some(i);
        }
        k := k + 1;
      }
      assert cmds[..|cmds|] == cmds;
    }
  }

  datatype Point = Point(x: real, y: real)

  /** The best candidate seen so far: its distance and the mark it carried. */
  datatype Best = Best(dist: real, mark: Option<int>)

  /** `accumulate`: a candidate replaces the best only when strictly nearer. */
  function Offer(b: Best, dist: real, mark: Option<int>): (r: Best)
    ensures r.dist <= b.dist && r.dist <= dist
    ensures r.mark != b.mark ==> r.mark == mark && dist < b.dist
    ensures r == b || r == Best(dist, mark)
  {
    if dist < b.dist then Best(dist, mark) else b
  }

  /** The initial best of a fresh `HitTestResult`. */
  const Initial := Best(1e12, None)

  /** (h - p0) . (p1 - p0), the projection numerator of `accumLine`. */
  function Dotp(hx: real, hy: real, x0: real, y0: real, x1: real, y1: real): real {
    (hx - x0) * (x1 - x0) + (hy - y0) * (y1 - y0)
  }

  /** |p1 - p0|^2. */
  function LinDotp(x0: real, y0: real, x1: real, y1: real): real {
    (x1 - x0) * (x1 - x0) + (y1 - y0) * (y1 - y0)
  }

  /** (h - p0) x (p1 - p0), the signed area used for the perpendicular distance. */
  function Norm(hx: real, hy: real, x0: real, y0: real, x1: real, y1: real): real {
    (hx - x0) * (y1 - y0) - (hy - y0) * (x1 - x0)
  }

  /** Whether (hx, hy) projects strictly inside the segment (x0,y0)-(x1,y1). */
  predicate ProjectsInside(hx: real, hy: real, x0: real, y0: real, x1: real, y1: real) {
    0.0 < Dotp(hx, hy, x0, y0, x1, y1) < LinDotp(x0, y0, x1, y1)
  }

  /** Distance from (hx, hy) to the line through the segment. */
  function PerpDist(hx: real, hy: real, x0: real, y0: real, x1: real, y1: real, tr: Transcendentals): real {
    Abs(Quot(Norm(hx, hy, x0, y0, x1, y1), tr.sqrt(LinDotp(x0, y0, x1, y1))))
  }

  /**
   * The distance `accumLine` offers for the segment (x0,y0)-(x1,y1): the
   * nearer endpoint distance, or the perpendicular distance when the
   * projection of (hx, hy) falls strictly inside the segment.
   */
  function LineDist(hx: real, hy: real, x0: real, y0: real, x1: real, y1: real,
                    tr: Transcendentals): (r: real)
    ensures r <= tr.hypot(hx - x0, hy - y0) && r <= tr.hypot(hx - x1, hy - y1)
    ensures !ProjectsInside(hx, hy, x0, y0, x1, y1) ==>
              r == Min(tr.hypot(hx - x0, hy - y0), tr.hypot(hx - x1, hy - y1))
    ensures ProjectsInside(hx, hy, x0, y0, x1, y1) ==> r <= PerpDist(hx, hy, x0, y0, x1, y1, tr)
  {
    var rMin := Min(tr.hypot(hx - x0, hy - y0), tr.hypot(hx - x1, hy - y1));
    if ProjectsInside(hx, hy, x0, y0, x1, y1) then Min(rMin, PerpDist(hx, hy, x0, y0, x1, y1, tr))
    else rMin
  }

  /** Number of line pieces `accumCurve` splits a cubic into. */
  const CurveSteps := 32

  /** The parameter of the i-th sample of `accumCurve`, (i + 1) / 32. */
  function SampleT(i: int): real {
    (i + 1) as real * (1.0 / CurveSteps as real)
  }

  /** One coordinate of the cubic at t, in the nested form `accumCurve` uses. */
  function CubicAt(a0: real, a1: real, a2: real, a3: real, t: real): real {
    var mt := 1.0 - t;
    (a0 * mt * mt + 3.0 * (a1 * mt * t + a2 * t * t)) * mt + a3 * t * t * t
  }

  /** The i-th sample of `accumCurve`, one coordinate. */
  function Sample(a0: real, a1: real, a2: real, a3: real, i: int): real {
    CubicAt(a0, a1, a2, a3, SampleT(i))
  }

  /** The last sample (t = 1) is the curve's end point exactly. */
  lemma SampleEnd(a0: real, a1: real, a2: real, a3: real)
    ensures Sample(a0, a1, a2, a3, CurveSteps - 1) == a3
  {
  }

  /** The sample formula is the Bernstein form of the cubic. */
  lemma SampleIsBernstein(a0: real, a1: real, a2: real, a3: real, i: int)
    ensures var t := (i + 1) as real / 32.0;
      Sample(a0, a1, a2, a3, i)
        == (1.0 - t) * (1.0 - t) * (1.0 - t) * a0 + 3.0 * (1.0 - t) * (1.0 - t) * t * a1
           + 3.0 * (1.0 - t) * t * t * a2 + t * t * t * a3
  {
    assert SampleT(i) == (i + 1) as real / 32.0;
    BernsteinRegroup(a0, a1, a2, a3, SampleT(i), 1.0 - SampleT(i));
  }

  lemma BernsteinRegroup(a0: real, a1: real, a2: real, a3: real, t: real, mt: real)
    ensures (a0 * mt * mt + 3.0 * (a1 * mt * t + a2 * t * t)) * mt + a3 * t * t * t
         == mt * mt * mt * a0 + 3.0 * mt * mt * t * a1 + 3.0 * mt * t * t * a2 + t * t * t * a3
  {
  }

  /** The start of the i-th piece: the curve start, then the previous sample. */
  function PieceStart(p0: Point, p1: Point, p2: Point, p3: Point, i: int): Point {
    if i == 0 then p0
    else Point(Sample(p0.x, p1.x, p2.x, p3.x, i - 1), Sample(p0.y, p1.y, p2.y, p3.y, i - 1))
  }

  function PieceEnd(p0: Point, p1: Point, p2: Point, p3: Point, i: int): Point {
    Point(Sample(p0.x, p1.x, p2.x, p3.x, i), Sample(p0.y, p1.y, p2.y, p3.y, i))
  }

  /** The distance `accumLine` offers for the i-th piece of a cubic. */
  function PieceDist(hx: real, hy: real, p0: Point, p1: Point, p2: Point, p3: Point, i: int,
                     tr: Transcendentals): real {
    var s, e := PieceStart(p0, p1, p2, p3, i), PieceEnd(p0, p1, p2, p3, i);
    LineDist(hx, hy, s.x, s.y, e.x, e.y, tr)
  }

  /** The fold of `accumLine` over the first `k` pieces of a cubic. */
  function CurveFold(b: Best, hx: real, hy: real, p0: Point, p1: Point, p2: Point, p3: Point,
                     mark: Option<int>, tr: Transcendentals, k: nat): (r: Best)
    ensures r.dist <= b.dist
  {
    if k == 0 then b
    else Offer(CurveFold(b, hx, hy, p0, p1, p2, p3, mark, tr, k - 1), PieceDist(hx, hy, p0, p1, p2, p3, k - 1, tr), mark)
  }

  lemma CurveFoldStep(b: Best, hx: real, hy: real, p0: Point, p1: Point, p2: Point, p3: Point,
                      mark: Option<int>, tr: Transcendentals, i: nat)
    ensures var s, e := PieceStart(p0, p1, p2, p3, i), PieceEnd(p0, p1, p2, p3, i);
      CurveFold(b, hx, hy, p0, p1, p2, p3, mark, tr, i + 1)
        == Offer(CurveFold(b, hx, hy, p0, p1, p2, p3, mark, tr, i), LineDist(hx, hy, s.x, s.y, e.x, e.y, tr), mark)
  {
  }

  /** The sample point computed at step i of `accumCurve`'s loop. */
  method SamplePoint(x0: real, y0: real, x1: real, y1: real, x2: real, y2: real,
                     x3: real, y3: real, i: int) returns (x: real, y: real)
    ensures Point(x, y) == PieceEnd(Point(x0, y0), Point(x1, y1), Point(x2, y2), Point(x3, y3), i)
  {
    var dt := 1.0 / CurveSteps as real;
    var t := (i + 1) as real * dt;
    assert t == SampleT(i);
    x := CubicAt(x0, x1, x2, x3, t);
    y := CubicAt(y0, y1, y2, y3, t);
  }

  /** The pieces form a chain from the curve's start to its end. */
  lemma PiecesChain(p0: Point, p1: Point, p2: Point, p3: Point, i: int)
    requires 0 <= i < CurveSteps
    ensures PieceStart(p0, p1, p2, p3, 0) == p0
    ensures i + 1 < CurveSteps ==> PieceStart(p0, p1, p2, p3, i + 1) == PieceEnd(p0, p1, p2, p3, i)
    ensures PieceEnd(p0, p1, p2, p3, CurveSteps - 1) == p3
  {
    SampleEnd(p0.x, p1.x, p2.x, p3.x);
    SampleEnd(p0.y, p1.y, p2.y, p3.y);
  }

  /** The folded best is never worse than the start or any piece of the cubic. */
  lemma {:induction false} CurveFoldMin(b: Best, hx: real, hy: real, p0: Point, p1: Point, p2: Point,
                                        p3: Point, mark: Option<int>, tr: Transcendentals, k: nat)
    ensures var r := CurveFold(b, hx, hy, p0, p1, p2, p3, mark, tr, k);
      && r.dist <= b.dist
      && (forall i :: 0 <= i < k ==> r.dist <= PieceDist(hx, hy, p0, p1, p2, p3, i, tr))
  {
    if k > 0 {
      CurveFoldMin(b, hx, hy, p0, p1, p2, p3, mark, tr, k - 1);
    }
  }

  /** The folded best is the start, or one of the pieces' distances under the curve's mark. */
  lemma {:induction false} CurveFoldAttained(b: Best, hx: real, hy: real, p0: Point, p1: Point, p2: Point,
                                             p3: Point, mark: Option<int>, tr: Transcendentals, k: nat)
    ensures var r := CurveFold(b, hx, hy, p0, p1, p2, p3, mark, tr, k);
      r == b || exists i :: 0 <= i < k && r == Best(PieceDist(hx, hy, p0, p1, p2, p3, i, tr), mark)
  {
    if k > 0 {
      CurveFoldAttained(b, hx, hy, p0, p1, p2, p3, mark, tr, k - 1);
      var r := CurveFold(b, hx, hy, p0, p1, p2, p3, mark, tr, k);
      if r != CurveFold(b, hx, hy, p0, p1, p2, p3, mark, tr, k - 1) {
        assert r == Best(PieceDist(hx, hy, p0, p1, p2, p3, k - 1, tr), mark);
      }
    }
  }

  class HitTestResult {
    const x: real
    const y: real
    var bestDist: real
    var bestMark: Option<int>

    constructor(x: real, y: real)
      ensures this.x == x && this.y == y
      ensures Best(bestDist, bestMark) == Initial
    {
      this.x := x;
      this.y := y;
      bestDist := 1e12;
      bestMark := None;
    }

    /** `accumulate`. The point argument is unused by the source as well. */
    method Accumulate(dist: real, pt: Point, mark: Option<int>)
      modifies this
      ensures Best(bestDist, bestMark) == Offer(old(Best(bestDist, bestMark)), dist, mark)
    {
      if dist < bestDist {
        bestDist := dist;
        bestMark := mark;
      }
    }

    method AccumLine(x0: real, y0: real, x1: real, y1: real, mark: Option<int>, tr: Transcendentals)
      modifies this
      ensures Best(bestDist, bestMark)
           == Offer(old(Best(bestDist, bestMark)), LineDist(x, y, x0, y0, x1, y1, tr), mark)
    {
      var dx := x1 - x0;
      var dy := y1 - y0;
      var dotp := (x - x0) * dx + (y - y0) * dy;
      var linDotp := dx * dx + dy * dy;
      var r := tr.hypot(x - x0, y - y0);
      var rMin := r;
      r := tr.hypot(x - x1, y - y1);
      rMin := Min(rMin, r);
      assert dotp == Dotp(x, y, x0, y0, x1, y1) && linDotp == LinDotp(x0, y0, x1, y1);
      if dotp > 0.0 && dotp < linDotp {
        var norm := (x - x0) * dy - (y - y0) * dx;
        assert norm == Norm(x, y, x0, y0, x1, y1);
        r := Abs(Quot(norm, tr.sqrt(linDotp)));
        rMin := Min(rMin, r);
      }
      if rMin < bestDist {
        bestDist := rMin;
        bestMark := mark;
      }
    }

    method AccumCurve(x0: real, y0: real, x1: real, y1: real, x2: real, y2: real,
                      x3: real, y3: real, mark: Option<int>, tr: Transcendentals)
      modifies this
      ensures Best(bestDist, bestMark)
           == CurveFold(old(Best(bestDist, bestMark)), x, y, Point(x0, y0), Point(x1, y1),
                        Point(x2, y2), Point(x3, y3), mark, tr, CurveSteps)
    {
      var n := CurveSteps;
      var lastX := x0;
      var lastY := y0;
      ghost var b0 := Best(bestDist, bestMark);
      for i := 0 to n
        invariant Point(lastX, lastY) == PieceStart(Point(x0, y0), Point(x1, y1), Point(x2, y2), Point(x3, y3), i)
        invariant Best(bestDist, bestMark)
               == CurveFold(b0, x, y, Point(x0, y0), Point(x1, y1), Point(x2, y2), Point(x3, y3), mark, tr, i)
      {
        var px, py := SamplePoint(x0, y0, x1, y1, x2, y2, x3, y3, i);
        ghost var p0, p1, p2, p3 := Point(x0, y0), Point(x1, y1), Point(x2, y2), Point(x3, y3);
        assert PieceEnd(p0, p1, p2, p3, i) == PieceStart(p0, p1, p2, p3, i + 1);
        AccumLine(lastX, lastY, px, py, mark, tr);
        CurveFoldStep(b0, x, y, p0, p1, p2, p3, mark, tr, i);
        lastX := px;
        lastY := py;
      }
    }
  }

  /** What `hitTest` carries across commands. */
  datatype HitState = HitState(cur: Option<Point>, mark: Option<int>, best: Best)

  /**
   * One command of `hitTest`. A line or curve drawn before any moveto has an
   * undefined start in the source, which makes every distance NaN and so
   * never wins; here it offers no candidate.
   */
  function HitStep(s: HitState, c: Cmd, hx: real, hy: real, tr: Transcendentals): (r: HitState)
    ensures r.best.dist <= s.best.dist
    ensures (c.MoveTo? || c.LineTo?) ==> r.cur == Some(Point(c.x, c.y))
    ensures c.CurveTo? ==> r.cur == Some(Point(c.x3, c.y3))
    ensures (c.ClosePath? || c.Mark?) ==> r.cur == s.cur && r.best == s.best
    ensures r.mark == (if c.Mark? then Some(c.i) else s.mark)
  {
    match c
    case MoveTo(x, y) => HitState(Some(Point(x, y)), s.mark, s.best)
    case LineTo(x, y) =>
      var b := if s.cur.Some? then Offer(s.best, LineDist(hx, hy, s.cur.value.x, s.cur.value.y, x, y, tr), s.mark)
               else s.best;
      HitState(Some(Point(x, y)), s.mark, b)
    case CurveTo(x1, y1, x2, y2, x3, y3) =>
      var b := if s.cur.Some? then CurveFold(s.best, hx, hy, s.cur.value, Point(x1, y1), Point(x2, y2), Point(x3, y3),
                                             s.mark, tr, CurveSteps)
               else s.best;
      HitState(Some(Point(x3, y3)), s.mark, b)
    case ClosePath => s
    case Mark(i) => HitState(s.cur, Some(i), s.best)
  }

  /** The state after the commands in order, from no point, no mark and the initial best. */
  function Hits(cmds: seq<Cmd>, hx: real, hy: real, tr: Transcendentals): (r: HitState)
    ensures r.best.dist <= 1e12
  {
    if |cmds| == 0 then HitState(None, None, Initial)
    else HitStep(Hits(cmds[..|cmds| - 1], hx, hy, tr), cmds[|cmds| - 1], hx, hy, tr)
  }

  /** The mark in force after a prefix: the latest Mark command in it, if any. */
  function LastMark(cmds: seq<Cmd>): Option<int> {
    if |cmds| == 0 then None
    else if cmds[|cmds| - 1].Mark? then Some(cmds[|cmds| - 1].i)
    else LastMark(cmds[..|cmds| - 1])
  }

  /** Each segment is tagged with the most recent mark before it. */
  lemma {:induction false} HitsMark(cmds: seq<Cmd>, hx: real, hy: real, tr: Transcendentals)
    ensures Hits(cmds, hx, hy, tr).mark == LastMark(cmds)
  {
    if |cmds| > 0 {
      HitsMark(cmds[..|cmds| - 1], hx, hy, tr);
    }
  }

  /**
   * The distance found is at most that of every line drawn from a current
   * point, and at most that of every piece of every curve drawn from one.
   */
  lemma {:induction false} HitsMin(cmds: seq<Cmd>, hx: real, hy: real, tr: Transcendentals, k: nat)
    requires k < |cmds| && Hits(cmds[..k], hx, hy, tr).cur.Some?
    ensures var p, c, d := Hits(cmds[..k], hx, hy, tr).cur.value, cmds[k], Hits(cmds, hx, hy, tr).best.dist;
      && (c.LineTo? ==> d <= LineDist(hx, hy, p.x, p.y, c.x, c.y, tr))
      && (c.CurveTo? ==> forall i :: 0 <= i < CurveSteps ==>
            d <= PieceDist(hx, hy, p, Point(c.x1, c.y1), Point(c.x2, c.y2), Point(c.x3, c.y3), i, tr))
    decreases |cmds|
  {
    if k == |cmds| - 1 {
      assert cmds[..|cmds| - 1] == cmds[..k];
      var s, c := Hits(cmds[..k], hx, hy, tr), cmds[k];
      if c.CurveTo? {
        CurveFoldMin(s.best, hx, hy, s.cur.value, Point(c.x1, c.y1), Point(c.x2, c.y2), Point(c.x3, c.y3),
                     s.mark, tr, CurveSteps);
      }
    } else {
      assert cmds[..|cmds| - 1][..k] == cmds[..k];
      HitsMin(cmds[..|cmds| - 1], hx, hy, tr, k);
    }
  }

  /**
   * Command k offered the candidate b: it is a line, or a curve with a
   * piece i, drawn from a current point, b's distance is that line's or
   * piece's distance, and b's mark is the mark in force before command k.
   */
  ghost predicate Offered(cmds: seq<Cmd>, hx: real, hy: real, tr: Transcendentals, k: nat, b: Best)
    requires k < |cmds|
  {
    var s, c := Hits(cmds[..k], hx, hy, tr), cmds[k];
    && s.cur.Some?
    && b.mark == LastMark(cmds[..k])
    && ((c.LineTo? && b.dist == LineDist(hx, hy, s.cur.value.x, s.cur.value.y, c.x, c.y, tr))
        || (c.CurveTo? &&
            exists i :: 0 <= i < CurveSteps &&
              b.dist == PieceDist(hx, hy, s.cur.value, Point(c.x1, c.y1), Point(c.x2, c.y2), Point(c.x3, c.y3), i, tr)))
  }

  /** Whether command k offered b depends only on the commands up to k. */
  lemma OfferedPrefix(cmds: seq<Cmd>, n: nat, hx: real, hy: real, tr: Transcendentals, k: nat, b: Best)
    requires k < n <= |cmds|
    ensures Offered(cmds[..n], hx, hy, tr, k, b) == Offered(cmds, hx, hy, tr, k, b)
  {
    assert cmds[..n][..k] == cmds[..k];
  }

  /**
   * The best found is the initial one (distance 1e12, no mark), or the
   * distance of some line or curve piece the path draws, with the mark in
   * force before that command.
   */
  lemma {:induction false} HitsAttained(cmds: seq<Cmd>, hx: real, hy: real, tr: Transcendentals)
    ensures var b := Hits(cmds, hx, hy, tr).best;
      b == Initial || exists k :: 0 <= k < |cmds| && Offered(cmds, hx, hy, tr, k, b)
  {
    if |cmds| > 0 {
      var n := |cmds| - 1;
      var pre, c := cmds[..n], cmds[n];
      assert cmds[..n] == pre;
      HitsAttained(pre, hx, hy, tr);
      var s, b := Hits(pre, hx, hy, tr), Hits(cmds, hx, hy, tr).best;
      if b == s.best {
        if s.best != Initial {
          var k :| 0 <= k < n && Offered(pre, hx, hy, tr, k, s.best);
          OfferedPrefix(cmds, n, hx, hy, tr, k, b);
        }
      } else {
        HitsMark(pre, hx, hy, tr);
        if c.CurveTo? {
          CurveFoldAttained(s.best, hx, hy, s.cur.value, Point(c.x1, c.y1), Point(c.x2, c.y2), Point(c.x3, c.y3),
                            s.mark, tr, CurveSteps);
        }
        assert Offered(cmds, hx, hy, tr, n, b);
      }
    }
  }
}

=== FILE: blend_facts.dfy ===
/**
 * What `Spline.computeCurvatureBlending` decides, proved about its
 * specification `Splines.Blended`: which points get a blended curvature,
 * when it is 0, that nothing but `kBlend` changes, that blending twice is
 * blending once, and that the harmonic mean it takes lies between the two
 * curvatures it blends.
 */
module BlendFacts {
  import opened Numerics
  import opened Splines

  /** Blending changes `kBlend` only. */
  lemma BlendedKeepsSolve(tr: Transcendentals, pts: seq<ControlPoint>, closed: bool, d: seq<Derived>, p: int)
    requires |pts| == |d| && 0 <= p < |d|
    ensures var r := Blended(tr, pts, closed, d);
      && r[p].rTh == d[p].rTh && r[p].lTh == d[p].lTh && r[p].rAk == d[p].rAk && r[p].lAk == d[p].lAk
  {
  }

  /**
   * A point gets a blended curvature exactly when it lies on a segment, is
   * smooth, has a given incoming tangent and neither of its curvature
   * arctangents exceeds the reversal threshold.
   */
  lemma BlendedWhere(tr: Transcendentals, pts: seq<ControlPoint>, closed: bool, d: seq<Derived>, p: int)
    requires |pts| == |d| && 0 <= p < |d|
    ensures Blended(tr, pts, closed, d)[p].kBlend.Some?
      <==> p < Length(pts, closed) && pts[p].ty == Smooth && pts[p].lth.Some?
           && !Exceeds(d[p].rAk, BlendThresh(tr)) && !Exceeds(d[p].lAk, BlendThresh(tr))
  {
    var r := Blended(tr, pts, closed, d);
    assert r[p].kBlend == if p < Length(pts, closed) then BlendAt(tr, pts, d[p].rAk, d[p].lAk, p) else None;
  }

  /** Sides bending opposite ways, or a side never solved, blend to 0. */
  lemma BlendedOppositeIsZero(tr: Transcendentals, pts: seq<ControlPoint>, closed: bool, d: seq<Derived>, p: int)
    requires |pts| == |d| && 0 <= p < |d|
    requires Blended(tr, pts, closed, d)[p].kBlend.Some? && SignsDiffer(d[p].rAk, d[p].lAk)
    ensures Blended(tr, pts, closed, d)[p].kBlend == Some(0.0)
  {
    var r := Blended(tr, pts, closed, d);
    assert r[p].kBlend == if p < Length(pts, closed) then BlendAt(tr, pts, d[p].rAk, d[p].lAk, p) else None;
  }

  /** Blending reads only what solving records, so blending again changes nothing. */
  lemma BlendedIdempotent(tr: Transcendentals, pts: seq<ControlPoint>, closed: bool, d: seq<Derived>)
    requires |pts| == |d|
    ensures Blended(tr, pts, closed, Blended(tr, pts, closed, d)) == Blended(tr, pts, closed, d)
  {
    var r := Blended(tr, pts, closed, d);
    var r2 := Blended(tr, pts, closed, r);
    forall p | 0 <= p < |d|
      ensures r2[p] == r[p]
    {
      BlendedKeepsSolve(tr, pts, closed, d, p);
    }
  }

  /** The harmonic mean of a nonzero curvature with itself is that curvature. */
  lemma HarmonicMeanOfEqual(x: real)
    requires x != 0.0
    ensures HarmonicMean(x, x) == x
  {
    var h := 1.0 / x;
    assert h != 0.0;
    assert Quot(1.0, x) + Quot(1.0, x) == 2.0 * h;
    assert Quot(2.0, 2.0 * h) == 1.0 / h;
  }

  /** For positive x and y the harmonic mean is 2xy / (x + y). */
  lemma HarmonicMeanForm(x: real, y: real)
    requires x > 0.0 && y > 0.0
    ensures HarmonicMean(x, y) * (x + y) == 2.0 * x * y
  {
    var s := 1.0 / x + 1.0 / y;
    assert s * (x * y) == y + x;
    assert s > 0.0;
    assert HarmonicMean(x, y) == 2.0 / s;
    assert (2.0 / s) * s == 2.0;
  }

  /** A positive factor can be cancelled from both sides of an inequality. */
  lemma CancelPositive(a: real, b: real, c: real)
    requires c > 0.0 && a * c <= b * c
    ensures a <= b
  {
  }

  /** The harmonic mean of two positive curvatures lies between them. */
  lemma HarmonicMeanBetween(x: real, y: real)
    requires 0.0 < x <= y
    ensures x <= HarmonicMean(x, y) <= y
  {
    var h := HarmonicMean(x, y);
    HarmonicMeanForm(x, y);
    assert x * x <= x * y && x * y <= y * y;
    assert x * (x + y) <= h * (x + y);
    assert h * (x + y) <= y * (x + y);
    CancelPositive(x, h, x + y);
    CancelPositive(h, y, x + y);
  }

  /** The harmonic mean of two negative curvatures lies between them. */
  lemma HarmonicMeanBetweenNegative(x: real, y: real)
    requires y <= x < 0.0
    ensures y <= HarmonicMean(x, y) <= x
  {
    HarmonicMeanBetween(-x, -y);
    assert HarmonicMean(-x, -y) == -HarmonicMean(x, y);
  }
}

=== FILE: numerics.dfy ===
/**
 * Shared numeric vocabulary. Float64 values are modelled as exact `real`s.
 * The transcendental functions the JavaScript code calls through `Math`
 * (and the constant `Math.PI`) are not defined here: every operation that
 * needs them receives a `Transcendentals` record, so nothing is assumed
 * about them beyond what an individual lemma states as a hypothesis.
 */
module Numerics {

  /** The `Math` functions used by the curve code, left uninterpreted. */
  datatype Transcendentals = Transcendentals(
    pi: real,
    sin: real -> real,
    cos: real -> real,
    tan: real -> real,
    tanh: real -> real,
    atan: real -> real,
    atan2: (real, real) -> real,
    hypot: (real, real) -> real,
    sqrt: real -> real,
    // `mod2pi` of curves.js (normalise an angle to -pi..pi), kept abstract
    mod2pi: real -> real)

  datatype Option<+T> = None | Some(value: T)

  datatype Result<+T> = Ok(value: T) | Err(msg: string)

  function Abs(x: real): (r: real)
    ensures r >= 0.0 && (r == x || r == -x)
  {
    if x < 0.0 then -x else x
  }

  function Min(x: real, y: real): (r: real)
    ensures r <= x && r <= y && (r == x || r == y)
  {
    if x <= y then x else y
  }

  /** `Math.sign` on a finite number. */
  function Sign(x: real): (r: int)
    ensures r == -1 || r == 0 || r == 1
    ensures r == 0 <==> x == 0.0
    ensures r == 1 <==> x > 0.0
  {
    if x > 0.0 then 1 else if x < 0.0 then -1 else 0
  }

  /**
   * Division. IEEE division by zero yields an infinity or NaN, which the
   * model does not represent; the model yields 0 there and every property
   * that depends on a quotient is stated for a nonzero divisor.
   */
  function Quot(p: real, q: real): real {
    if q == 0.0 then 0.0 else p / q
  }

  /** A remainder in 0 .. n - 1 is the remainder. */
  lemma ModUnique(x: int, n: int, q: int, r: int)
    requires n > 0 && x == q * n + r && 0 <= r < n
    ensures x % n == r
  {
    var q', r' := x / n, x % n;
    assert (q - q') * n == r' - r;
    MulBound(q - q', n);
  }

  lemma MulBound(a: int, n: int)
    requires n > 0
    ensures a >= 1 ==> a * n >= n
    ensures a <= -1 ==> a * n <= -n
  {
  }
}

=== FILE: poly.dfy ===
/**
 * `Polynomial` and `hermite5` of curves.js. A polynomial is its coefficient
 * list, lowest degree first; the object is never changed after it is built,
 * so it is a value here.
 */
module Poly {

  /** x^k. */
  function Pow(x: real, k: nat): real {
    if k == 0 then 1.0 else Pow(x, k - 1) * x
  }

  /**
   * The value the coefficients denote, c[0] + c[1] x + ... + c[m-1] x^(m-1),
   * summed from the lowest term up (the order `eval` adds them in).
   */
  function Value(c: seq<real>, x: real): real {
    if |c| == 0 then 0.0 else Value(c[..|c| - 1], x) + c[|c| - 1] * Pow(x, |c| - 1)
  }

  /** The formal derivative: coefficient i is (i + 1) c[i + 1]. */
  function DerivCoeffs(c: seq<real>): (r: seq<real>)
    requires |c| >= 1
    ensures |r| == |c| - 1
  {
    seq(|c| - 1, i requires 0 <= i < |c| - 1 => (i + 1) as real * c[i + 1])
  }

  datatype Polynomial = Polynomial(c: seq<real>) {

    /** `eval`: accumulates the terms with a running power of x. */
    method Eval(x: real) returns (s: real)
      ensures s == Value(c, x)
    {
      var xi := 1.0;
      s := 0.0;
      var i := 0;
      while i < |c|
        invariant 0 <= i <= |c|
        invariant xi == Pow(x, i)
        invariant s == Value(c[..i], x)
      {
        assert c[..i + 1][..i] == c[..i];
        s := s + c[i] * xi;
        xi := xi * x;
        i := i + 1;
      }
      assert c[..|c|] == c;
    }

    /**
     * `deriv`. The source allocates an array of length |c| - 1, which raises
     * for the empty polynomial, hence the precondition.
     */
    method Deriv() returns (p: Polynomial)
      requires |c| >= 1
      ensures |p.c| == |c| - 1
      ensures forall i :: 0 <= i < |p.c| ==> p.c[i] == (i + 1) as real * c[i + 1]
      ensures p.c == DerivCoeffs(c)
    {
      var a := new real[|c| - 1];
      for i := 0 to a.Length
        invariant forall k :: 0 <= k < i ==> a[k] == (k + 1) as real * c[k + 1]
      {
        a[i] := (i + 1) as real * c[i + 1];
      }
      assert forall k :: 0 <= k < a.Length ==> a[..][k] == DerivCoeffs(c)[k];
      assert a[..] == DerivCoeffs(c);
      p := Polynomial(a[..]);
    }
  }

  /** The value at 0 is the constant coefficient. */
  lemma {:induction false} ValueAtZero(c: seq<real>)
    requires |c| >= 1
    ensures Value(c, 0.0) == c[0]
  {
    if |c| > 1 {
      ValueAtZero(c[..|c| - 1]);
    }
  }

  /** The value at 1 is the sum of the coefficients. */
  function Sum(c: seq<real>): real {
    if |c| == 0 then 0.0 else Sum(c[..|c| - 1]) + c[|c| - 1]
  }

  lemma PowOne(k: nat)
    ensures Pow(1.0, k) == 1.0
  {
  }

  lemma {:induction false} ValueAtOne(c: seq<real>)
    ensures Value(c, 1.0) == Sum(c)
  {
    if |c| > 0 {
      ValueAtOne(c[..|c| - 1]);
      PowOne(|c| - 1);
    }
  }

  /** The derivative at 0 is the linear coefficient. */
  lemma DerivAtZero(c: seq<real>)
    requires |c| >= 2
    ensures Value(DerivCoeffs(c), 0.0) == c[1]
  {
    ValueAtZero(DerivCoeffs(c));
  }

  lemma SumPrefixStep(c: seq<real>, k: nat)
    requires 0 < k <= |c|
    ensures Sum(c[..k]) == Sum(c[..k - 1]) + c[k - 1]
  {
    assert c[..k][..k - 1] == c[..k - 1];
  }

  /** Sum of a list of four to six coefficients, written out. */
  lemma SumShort(c: seq<real>)
    requires 4 <= |c| <= 6
    ensures Sum(c) == c[0] + c[1] + c[2] + c[3] + (if |c| > 4 then c[4] else 0.0)
                      + (if |c| > 5 then c[5] else 0.0)
  {
    SumPrefixStep(c, 1);
    SumPrefixStep(c, 2);
    SumPrefixStep(c, 3);
    SumPrefixStep(c, 4);
    if |c| > 4 {
      SumPrefixStep(c, 5);
    }
    if |c| > 5 {
      SumPrefixStep(c, 6);
    }
    assert c[..|c|] == c;
  }

  /**
   * The quintic Hermite interpolant through (0, x0) and (1, x1) with the
   * given first (v) and second (a) derivatives at the two ends.
   */
  function Hermite5(x0: real, x1: real, v0: real, v1: real, a0: real, a1: real): (p: Polynomial)
    ensures |p.c| == 6
  {
    Polynomial([x0,
      v0,
      0.5 * a0,
      -10.0 * x0 + 10.0 * x1 - 6.0 * v0 - 4.0 * v1 - 1.5 * a0 + 0.5 * a1,
      15.0 * x0 - 15.0 * x1 + 8.0 * v0 + 7.0 * v1 + 1.5 * a0 - a1,
      -6.0 * x0 + 6.0 * x1 - 3.0 * v0 - 3.0 * v1 + -0.5 * a0 + 0.5 * a1])
  }

  /** `hermite5` meets all six of its end conditions. */
  lemma Hermite5Interpolates(x0: real, x1: real, v0: real, v1: real, a0: real, a1: real)
    ensures var c := Hermite5(x0, x1, v0, v1, a0, a1).c;
      && Value(c, 0.0) == x0 && Value(c, 1.0) == x1
      && Value(DerivCoeffs(c), 0.0) == v0 && Value(DerivCoeffs(c), 1.0) == v1
      && Value(DerivCoeffs(DerivCoeffs(c)), 0.0) == a0
      && Value(DerivCoeffs(DerivCoeffs(c)), 1.0) == a1
  {
    var c := Hermite5(x0, x1, v0, v1, a0, a1).c;
    var d1 := DerivCoeffs(c);
    var d2 := DerivCoeffs(d1);
    ValueAtZero(c);
    ValueAtZero(d1);
    ValueAtZero(d2);
    ValueAtOne(c);
    ValueAtOne(d1);
    ValueAtOne(d2);
    SumShort(c);
    SumShort(d1);
    SumShort(d2);
    assert d1[0] == c[1] && d1[1] == 2.0 * c[2] && d1[2] == 3.0 * c[3];
    assert d1[3] == 4.0 * c[4] && d1[4] == 5.0 * c[5];
    assert d2[0] == d1[1] && d2[1] == 2.0 * d1[2] && d2[2] == 3.0 * d1[3] && d2[3] == 4.0 * d1[4];
  }
}

=== FILE: render_facts.dfy ===
/**
 * The command structure `Spline.render` emits, proved about its
 * specification `Splines.RenderCmds`: an empty spline gives an empty path,
 * otherwise a moveto to the first point comes first; segment i contributes
 * its mark and then (n + 1) / 3 curvetos for the n points `render4` gives
 * it, the last ending on the segment's end point; marks appear in segment
 * order; a closepath comes last exactly for a closed spline.
 */
module RenderFacts {
  import opened Numerics
  import opened Bezier
  import opened TwoParam
  import opened Splines
  import BezPaths

  /** A command that a segment may contribute: a mark or a curveto. */
  predicate SegmentCmd(c: BezPaths.Cmd) {
    c.Mark? || c.CurveTo?
  }

  /** The mark numbers of a command list, in order. */
  function MarkIds(cmds: seq<BezPaths.Cmd>): (r: seq<int>)
    ensures |r| <= |cmds|
  {
    if |cmds| == 0 then []
    else (if cmds[0].Mark? then [cmds[0].i] else []) + MarkIds(cmds[1..])
  }

  lemma {:induction false} MarkIdsAppend(a: seq<BezPaths.Cmd>, b: seq<BezPaths.Cmd>)
    ensures MarkIds(a + b) == MarkIds(a) + MarkIds(b)
    decreases |a|
  {
    if |a| == 0 {
      assert a + b == b;
    } else {
      assert (a + b)[0] == a[0];
      assert (a + b)[1..] == a[1..] + b;
      MarkIdsAppend(a[1..], b);
      var head := if a[0].Mark? then [a[0].i] else [];
      assert MarkIds(a) == head + MarkIds(a[1..]);
      assert MarkIds(a + b) == head + (MarkIds(a[1..]) + MarkIds(b));
    }
  }

  /** Curvetos are all curvetos: one per six coordinates, the last ending on the last two. */
  lemma {:induction false} CurvetosShape(c: seq<real>)
    requires Wrap(|c|, 6) == 0
    ensures var r := Curvetos(c);
      && 6 * |r| == |c|
      && (forall k :: 0 <= k < |r| ==> r[k].CurveTo?)
      && MarkIds(r) == []
      && (|c| > 0 ==> r[|r| - 1].x3 == c[|c| - 2] && r[|r| - 1].y3 == c[|c| - 1])
    decreases |c|
  {
    if |c| > 0 {
      assert Wrap(|c|, 6) == Wrap(|c| - 6, 6);
      var rest := c[6..];
      CurvetosShape(rest);
      var head := [BezPaths.Cmd.CurveTo(c[0], c[1], c[2], c[3], c[4], c[5])];
      assert Curvetos(c) == head + Curvetos(rest);
      MarkIdsAppend(head, Curvetos(rest));
      assert MarkIds(head) == [];
    }
  }

  /**
   * Segment i: its mark, then one curveto per three of the n points
   * `render4` gives it (n + 1 of them counting the end point), the last
   * ending on the segment's end point.
   */
  lemma SegCmdsShape(curve: CurveFamily, tr: Transcendentals, pts: seq<ControlPoint>, d: seq<Derived>, i: nat)
    requires 0 < |pts| == |d| && PieceCount(curve)
    ensures var r, n := SegCmds(curve, tr, pts, d, i), |SegLocal(curve, tr, pts, d, i)|;
      && 3 * (|r| - 1) == n + 1
      && r[0] == BezPaths.Cmd.Mark(i)
      && (forall k :: 1 <= k < |r| ==> r[k].CurveTo?)
      && MarkIds(r) == [i]
      && r[|r| - 1].x3 == Pt(pts, i + 1, 0).pt.x && r[|r| - 1].y3 == Pt(pts, i + 1, 0).pt.y
  {
    var local := SegLocal(curve, tr, pts, d, i);
    var c := SegCoords(curve, tr, pts, d, i);
    assert |c| == 2 * |local| + 2;
    assert Wrap(|local|, 3) == 2;
    CoordsInSixes(|local|);
    CurvetosShape(c);
    var mark := [BezPaths.Cmd.Mark(i)];
    MarkIdsAppend(mark, Curvetos(c));
  }

  /** Segment k, for every k < n, holds exactly the mark k, among marks and curvetos only. */
  ghost predicate SegsShaped(seg: nat -> seq<BezPaths.Cmd>, n: nat) {
    forall k: nat :: k < n ==>
      MarkIds(seg(k)) == [k] && forall j :: 0 <= j < |seg(k)| ==> SegmentCmd(seg(k)[j])
  }

  /** Concatenating such segments 0 .. i - 1 gives marks 0 .. i - 1 in order. */
  lemma {:induction false} SegsUpToMarks(seg: nat -> seq<BezPaths.Cmd>, i: nat)
    requires SegsShaped(seg, i)
    ensures var r := SegsUpTo(seg, i);
      && MarkIds(r) == seq(i, k => k)
      && forall k :: 0 <= k < |r| ==> SegmentCmd(r[k])
  {
    if i > 0 {
      SegsUpToMarks(seg, i - 1);
      var a, b := SegsUpTo(seg, i - 1), seg(i - 1);
      assert SegsUpTo(seg, i) == a + b;
      MarkIdsAppend(a, b);
      assert seq(i - 1, k => k) + [i - 1] == seq(i, k => k);
      forall k | 0 <= k < |a + b|
        ensures SegmentCmd((a + b)[k])
      {
        if k >= |a| {
          assert (a + b)[k] == b[k - |a|];
        }
      }
    }
  }

  /** The segments' commands hold marks 0 .. i - 1 in order, and nothing but marks and curvetos. */
  lemma SegsUpToShape(curve: CurveFamily, tr: Transcendentals, pts: seq<ControlPoint>, d: seq<Derived>, i: nat)
    requires 0 < |pts| == |d| && PieceCount(curve)
    ensures var r := SegsUpTo(SegFn(curve, tr, pts, d), i);
      && MarkIds(r) == seq(i, k => k)
      && forall k :: 0 <= k < |r| ==> SegmentCmd(r[k])
  {
    var seg := SegFn(curve, tr, pts, d);
    forall k: nat | k < i
      ensures MarkIds(seg(k)) == [k] && forall j :: 0 <= j < |seg(k)| ==> SegmentCmd(seg(k)[j])
    {
      SegCmdsShape(curve, tr, pts, d, k);
      assert seg(k) == SegCmds(curve, tr, pts, d, k);
    }
    SegsUpToMarks(seg, i);
  }

  /**
   * `render` on an empty spline emits nothing. Otherwise it emits a moveto
   * to the first control point, then segments 0 .. length - 1, each marked
   * with its number, in order, and ends with a closepath exactly when the
   * spline is closed; no other command is a moveto or closepath.
   */
  lemma RenderShape(curve: CurveFamily, tr: Transcendentals, pts: seq<ControlPoint>, closed: bool, d: seq<Derived>)
    requires |pts| == |d| && PieceCount(curve)
    ensures var r := RenderCmds(curve, tr, pts, closed, d);
      && (|pts| == 0 <==> r == [])
      && (|pts| > 0 ==>
            && r[0] == BezPaths.Cmd.MoveTo(pts[0].pt.x, pts[0].pt.y)
            && MarkIds(r) == seq(Length(pts, closed), k => k)
            && (r[|r| - 1] == BezPaths.Cmd.ClosePath <==> closed)
            && forall k :: 0 < k < |r| - (if closed then 1 else 0) ==> SegmentCmd(r[k]))
  {
    if |pts| > 0 {
      var r := RenderCmds(curve, tr, pts, closed, d);
      var len := Length(pts, closed);
      var segs := SegsUpTo(SegFn(curve, tr, pts, d), len);
      var head := [BezPaths.Cmd.MoveTo(pts[0].pt.x, pts[0].pt.y)];
      var tail := if closed then [BezPaths.Cmd.ClosePath] else [];
      SegsUpToShape(curve, tr, pts, d, len);
      assert r == head + segs + tail;
      MarkIdsAppend(head, segs);
      MarkIdsAppend(head + segs, tail);
      assert MarkIds(head) == [] && MarkIds(tail) == [];
      forall k | 0 < k < |r| - |tail|
        ensures SegmentCmd(r[k])
      {
        assert r[k] == segs[k - 1];
      }
      if !closed && |segs| > 0 {
        assert r[|r| - 1] == segs[|segs| - 1];
      }
    }
  }
}

=== FILE: solve_facts.dfy ===
/**
 * What `Spline.solve` leaves on the control points, proved about its
 * specification `Splines.Solved`: every segment gets a tangent at both ends,
 * a straight segment gets its chord angle at both ends, given tangents are
 * honoured, and a smooth point inside a run gets one tangent on both sides.
 * Positions are counted from the start index, as `solve` counts them.
 */
module SolveFacts {
  import opened Numerics
  import opened Bezier
  import opened TwoParam
  import opened Splines

  /** Recording segment k sets the outgoing tangent at its start and the incoming one at its end, and no others. */
  lemma WriteSegSets(pts: seq<ControlPoint>, start: nat,
                     d: seq<Derived>, h: int, ths: seq<real>, aks: seq<Aks>, k: int, x: nat)
    requires 0 < |pts| == |d| && 0 <= h <= k && k + 1 - h < |ths| && k - h < |aks| && x < |d|
    ensures var r, p, q := WriteSeg(pts, start, d, h, ths, aks, k), Ix(|pts|, k, start), Ix(|pts|, k + 1, start);
      && r[x].rTh == (if x == p then Some(ths[k - h]) else d[x].rTh)
      && r[x].lTh == (if x == q then Some(ths[k + 1 - h]) else d[x].lTh)
  {
  }

  /** Later segments of a curved run do not touch the outgoing tangent of an earlier point. */
  lemma {:induction false} WriteSegsKeepR(pts: seq<ControlPoint>, start: nat,
                                          d: seq<Derived>, h: int, ths: seq<real>, aks: seq<Aks>, k: int, m: int, t: int)
    requires 0 < |pts| == |d| && start < |pts| && 0 <= h <= k && m - h + 1 == |ths| && m - h == |aks|
    requires 0 <= t < k && m <= |pts|
    ensures WriteSegs(pts, start, d, h, ths, aks, k, m)[Ix(|pts|, t, start)].rTh == d[Ix(|pts|, t, start)].rTh
    decreases m - k
  {
    if k < m {
      IxInjective(|pts|, t, k, start);
      WriteSegSets(pts, start, d, h, ths, aks, k, Ix(|pts|, t, start));
      WriteSegsKeepR(pts, start, WriteSeg(pts, start, d, h, ths, aks, k), h, ths, aks, k + 1, m, t);
    }
  }

  /** Segments k .. m - 1 of a curved run do not touch the incoming tangent of a point at or before k. */
  lemma {:induction false} WriteSegsKeepL(pts: seq<ControlPoint>, start: nat,
                                          d: seq<Derived>, h: int, ths: seq<real>, aks: seq<Aks>, k: int, m: int, t: int)
    requires 0 < |pts| == |d| && start < |pts| && 0 <= h <= k && m - h + 1 == |ths| && m - h == |aks|
    requires 0 <= t <= k && m < t + |pts| && m <= |pts|
    ensures WriteSegs(pts, start, d, h, ths, aks, k, m)[Ix(|pts|, t, start)].lTh == d[Ix(|pts|, t, start)].lTh
    decreases m - k
  {
    if k < m {
      IxInjective(|pts|, t, k + 1, start);
      WriteSegSets(pts, start, d, h, ths, aks, k, Ix(|pts|, t, start));
      WriteSegsKeepL(pts, start, WriteSeg(pts, start, d, h, ths, aks, k), h, ths, aks, k + 1, m, t);
    }
  }

  /** Each point s of segments k .. m - 1 ends with the run's tangent for s as its outgoing tangent. */
  lemma {:induction false} WriteSegsR(pts: seq<ControlPoint>, start: nat,
                                      d: seq<Derived>, h: int, ths: seq<real>, aks: seq<Aks>, k: int, m: int, s: int)
    requires 0 < |pts| == |d| && start < |pts| && 0 <= h <= k && m - h + 1 == |ths| && m - h == |aks|
    requires k <= s < m <= |pts|
    ensures WriteSegs(pts, start, d, h, ths, aks, k, m)[Ix(|pts|, s, start)].rTh == Some(ths[s - h])
    decreases m - k
  {
    var d' := WriteSeg(pts, start, d, h, ths, aks, k);
    if s == k {
      WriteSegSets(pts, start, d, h, ths, aks, k, Ix(|pts|, k, start));
      WriteSegsKeepR(pts, start, d', h, ths, aks, k + 1, m, k);
    } else {
      WriteSegsR(pts, start, d', h, ths, aks, k + 1, m, s);
    }
  }

  /** Each point s of segments k .. m - 1 after the first ends with the run's tangent for s as its incoming tangent. */
  lemma {:induction false} WriteSegsL(pts: seq<ControlPoint>, start: nat,
                                      d: seq<Derived>, h: int, ths: seq<real>, aks: seq<Aks>, k: int, m: int, s: int)
    requires 0 < |pts| == |d| && start < |pts| && 0 <= h <= k && m - h + 1 == |ths| && m - h == |aks|
    requires k < s <= m <= |pts|
    ensures WriteSegs(pts, start, d, h, ths, aks, k, m)[Ix(|pts|, s, start)].lTh == Some(ths[s - h])
    decreases m - k
  {
    var d' := WriteSeg(pts, start, d, h, ths, aks, k);
    if s == k + 1 {
      WriteSegSets(pts, start, d, h, ths, aks, k, Ix(|pts|, k + 1, start));
      WriteSegsKeepL(pts, start, d', h, ths, aks, k + 1, m, k + 1);
    } else {
      WriteSegsL(pts, start, d', h, ths, aks, k + 1, m, s);
    }
  }

  /** The tangent the run with head h gives its point k: the chord angle of a straight segment, else the solver's. */
  function RunVal(tr: Transcendentals, solve: RunSolver, pts: seq<ControlPoint>, closed: bool, start: nat,
                  h: int, k: int): real
    requires OnePerPoint(solve)
    requires 0 < |pts| && start < |pts| && 0 <= h < Length(pts, closed)
    requires h <= k <= Break(pts, closed, start, h + 1)
  {
    if Straight(pts, closed, start, h) then SegChordAngle(tr, pts, start, h)
    else RunThs(solve, pts, closed, start, h)[k - h]
  }

  /** A straight segment is a run of its own. */
  lemma StraightBreak(pts: seq<ControlPoint>, closed: bool, start: nat, h: int)
    requires 0 < |pts| && start < |pts| && 0 <= h < Length(pts, closed)
    requires Straight(pts, closed, start, h)
    ensures Break(pts, closed, start, h + 1) == h + 1
  {
  }

  /** The run with head h gives each of its points but the last its outgoing tangent. */
  lemma WriteRunR(curve: CurveFamily, tr: Transcendentals, solve: RunSolver, pts: seq<ControlPoint>, closed: bool, start: nat,
                  d: seq<Derived>, h: int, k: int)
    requires OnePerPoint(solve)
    requires 0 < |pts| == |d| && start < |pts| && 0 <= h < Length(pts, closed)
    requires h <= k < Break(pts, closed, start, h + 1)
    ensures WriteRun(curve, tr, solve, pts, closed, start, d, h)[Ix(|pts|, k, start)].rTh
      == Some(RunVal(tr, solve, pts, closed, start, h, k))
  {
    if Straight(pts, closed, start, h) {
      StraightBreak(pts, closed, start, h);
    } else {
      var m := Break(pts, closed, start, h + 1);
      WriteSegsR(pts, start, d, h, RunThs(solve, pts, closed, start, h),
                 RunAks(curve, tr, RunPts(pts, start, h, m), RunThs(solve, pts, closed, start, h)), h, m, k);
    }
  }

  /** The run with head h gives each of its points but the first its incoming tangent. */
  lemma WriteRunL(curve: CurveFamily, tr: Transcendentals, solve: RunSolver, pts: seq<ControlPoint>, closed: bool, start: nat,
                  d: seq<Derived>, h: int, k: int)
    requires OnePerPoint(solve)
    requires 0 < |pts| == |d| && start < |pts| && 0 <= h < Length(pts, closed)
    requires h < k <= Break(pts, closed, start, h + 1)
    ensures WriteRun(curve, tr, solve, pts, closed, start, d, h)[Ix(|pts|, k, start)].lTh
      == Some(RunVal(tr, solve, pts, closed, start, h, k))
  {
    if Straight(pts, closed, start, h) {
      StraightBreak(pts, closed, start, h);
    } else {
      var m := Break(pts, closed, start, h + 1);
      WriteSegsL(pts, start, d, h, RunThs(solve, pts, closed, start, h),
                 RunAks(curve, tr, RunPts(pts, start, h, m), RunThs(solve, pts, closed, start, h)), h, m, k);
    }
  }

  /** The run with head h leaves the outgoing tangents of earlier points alone. */
  lemma WriteRunKeepR(curve: CurveFamily, tr: Transcendentals, solve: RunSolver, pts: seq<ControlPoint>, closed: bool, start: nat,
                      d: seq<Derived>, h: int, t: int)
    requires OnePerPoint(solve)
    requires 0 < |pts| == |d| && start < |pts| && 0 <= t < h < Length(pts, closed)
    ensures WriteRun(curve, tr, solve, pts, closed, start, d, h)[Ix(|pts|, t, start)].rTh == d[Ix(|pts|, t, start)].rTh
  {
    IxInjective(|pts|, t, h, start);
    if !Straight(pts, closed, start, h) {
      var m := Break(pts, closed, start, h + 1);
      WriteSegsKeepR(pts, start, d, h, RunThs(solve, pts, closed, start, h),
                 RunAks(curve, tr, RunPts(pts, start, h, m), RunThs(solve, pts, closed, start, h)), h, m, t);
    }
  }

  /** The run with head h leaves the incoming tangents of its head and earlier points (bar the first) alone. */
  lemma WriteRunKeepL(curve: CurveFamily, tr: Transcendentals, solve: RunSolver, pts: seq<ControlPoint>, closed: bool, start: nat,
                      d: seq<Derived>, h: int, t: int)
    requires OnePerPoint(solve)
    requires 0 < |pts| == |d| && start < |pts| && 1 <= t <= h < Length(pts, closed)
    ensures WriteRun(curve, tr, solve, pts, closed, start, d, h)[Ix(|pts|, t, start)].lTh == d[Ix(|pts|, t, start)].lTh
  {
    IxInjective(|pts|, t, h + 1, start);
    if !Straight(pts, closed, start, h) {
      var m := Break(pts, closed, start, h + 1);
      WriteSegsKeepL(pts, start, d, h, RunThs(solve, pts, closed, start, h),
                 RunAks(curve, tr, RunPts(pts, start, h, m), RunThs(solve, pts, closed, start, h)), h, m, t);
    }
  }

  /** Solving from head h on leaves the outgoing tangents of points before h alone. */
  lemma {:induction false} SolveFromKeepR(curve: CurveFamily, tr: Transcendentals, solve: RunSolver, pts: seq<ControlPoint>, closed: bool,
                                          start: nat, d: seq<Derived>, h: int, t: int)
    requires OnePerPoint(solve)
    requires 0 < |pts| == |d| && start < |pts| && 0 <= t < h
    ensures SolveFrom(curve, tr, solve, pts, closed, start, d, h)[Ix(|pts|, t, start)].rTh == d[Ix(|pts|, t, start)].rTh
    decreases Length(pts, closed) - h
  {
    if h < Length(pts, closed) {
      WriteRunKeepR(curve, tr, solve, pts, closed, start, d, h, t);
      SolveFromKeepR(curve, tr, solve, pts, closed, start, WriteRun(curve, tr, solve, pts, closed, start, d, h),
                     Break(pts, closed, start, h + 1), t);
    }
  }

  /** Solving from head h on leaves the incoming tangents of points 1 .. h alone. */
  lemma {:induction false} SolveFromKeepL(curve: CurveFamily, tr: Transcendentals, solve: RunSolver, pts: seq<ControlPoint>, closed: bool,
                                          start: nat, d: seq<Derived>, h: int, t: int)
    requires OnePerPoint(solve)
    requires 0 < |pts| == |d| && start < |pts| && 1 <= t <= h
    ensures SolveFrom(curve, tr, solve, pts, closed, start, d, h)[Ix(|pts|, t, start)].lTh == d[Ix(|pts|, t, start)].lTh
    decreases Length(pts, closed) - h
  {
    if h < Length(pts, closed) {
      WriteRunKeepL(curve, tr, solve, pts, closed, start, d, h, t);
      SolveFromKeepL(curve, tr, solve, pts, closed, start, WriteRun(curve, tr, solve, pts, closed, start, d, h),
                     Break(pts, closed, start, h + 1), t);
    }
  }

  /** The head of the run that contains segment k, when the runs are cut from head h on. */
  function RunHead(pts: seq<ControlPoint>, closed: bool, start: nat, h: int, k: int): (r: int)
    requires 0 < |pts| && start < |pts| && 0 <= h <= k < Length(pts, closed)
    ensures h <= r <= k < Break(pts, closed, start, r + 1)
    decreases k - h
  {
    var b := Break(pts, closed, start, h + 1);
    if k < b then h else RunHead(pts, closed, start, b, k)
  }

  /** The tangent with which point k is left: the value given to it by the run holding segment k. */
  function OutVal(tr: Transcendentals, solve: RunSolver, pts: seq<ControlPoint>, closed: bool, start: nat,
                  h: int, k: int): real
    requires OnePerPoint(solve)
    requires 0 < |pts| && start < |pts| && 0 <= h <= k < Length(pts, closed)
  {
    RunVal(tr, solve, pts, closed, start, RunHead(pts, closed, start, h, k), k)
  }

  /** After solving from h on, point k has the outgoing tangent that its run gives it. */
  lemma {:induction false} SolveFromR(curve: CurveFamily, tr: Transcendentals, solve: RunSolver, pts: seq<ControlPoint>, closed: bool,
                                      start: nat, d: seq<Derived>, h: int, k: int)
    requires OnePerPoint(solve)
    requires 0 < |pts| == |d| && start < |pts| && 0 <= h <= k < Length(pts, closed)
    ensures SolveFrom(curve, tr, solve, pts, closed, start, d, h)[Ix(|pts|, k, start)].rTh
      == Some(OutVal(tr, solve, pts, closed, start, h, k))
    decreases k - h
  {
    var b := Break(pts, closed, start, h + 1);
    var d' := WriteRun(curve, tr, solve, pts, closed, start, d, h);
    if k < b {
      SolveFromKeepR(curve, tr, solve, pts, closed, start, d', b, k);
      WriteRunR(curve, tr, solve, pts, closed, start, d, h, k);
    } else {
      SolveFromR(curve, tr, solve, pts, closed, start, d', b, k);
    }
  }

  /** The tangent with which point k is entered: the value given to it by the run holding segment k - 1. */
  function InVal(tr: Transcendentals, solve: RunSolver, pts: seq<ControlPoint>, closed: bool, start: nat,
                 h: int, k: int): real
    requires OnePerPoint(solve)
    requires 0 < |pts| && start < |pts| && 0 <= h < k <= Length(pts, closed)
  {
    RunVal(tr, solve, pts, closed, start, RunHead(pts, closed, start, h, k - 1), k)
  }

  /** After solving from h on, point k has the incoming tangent that the run of segment k - 1 gives it. */
  lemma {:induction false} SolveFromL(curve: CurveFamily, tr: Transcendentals, solve: RunSolver, pts: seq<ControlPoint>, closed: bool,
                                      start: nat, d: seq<Derived>, h: int, k: int)
    requires OnePerPoint(solve)
    requires 0 < |pts| == |d| && start < |pts| && 0 <= h < k <= Length(pts, closed)
    ensures SolveFrom(curve, tr, solve, pts, closed, start, d, h)[Ix(|pts|, k, start)].lTh
      == Some(InVal(tr, solve, pts, closed, start, h, k))
    decreases k - h
  {
    var b := Break(pts, closed, start, h + 1);
    var d' := WriteRun(curve, tr, solve, pts, closed, start, d, h);
    if k <= b {
      SolveFromKeepL(curve, tr, solve, pts, closed, start, d', b, k);
      WriteRunL(curve, tr, solve, pts, closed, start, d, h, k);
    } else {
      SolveFromL(curve, tr, solve, pts, closed, start, d', b, k);
    }
  }

  /** A break point after h heads its own run. */
  lemma {:induction false} RunHeadAtBreak(pts: seq<ControlPoint>, closed: bool, start: nat, h: int, k: int)
    requires 0 < |pts| && start < |pts| && 0 <= h <= k < Length(pts, closed)
    requires k == h || IsBreak(Pt(pts, k, start))
    ensures RunHead(pts, closed, start, h, k) == k
    decreases k - h
  {
    var b := Break(pts, closed, start, h + 1);
    BreakIsFirst(pts, closed, start, h + 1);
    if k >= b {
      RunHeadAtBreak(pts, closed, start, b, k);
    }
  }

  /** A point that is not a break lies inside the run of the segment before it. */
  lemma {:induction false} RunHeadInside(pts: seq<ControlPoint>, closed: bool, start: nat, h: int, k: int)
    requires 0 < |pts| && start < |pts| && 0 <= h < k < Length(pts, closed)
    requires !IsBreak(Pt(pts, k, start))
    ensures RunHead(pts, closed, start, h, k) == RunHead(pts, closed, start, h, k - 1)
    decreases k - h
  {
    var b := Break(pts, closed, start, h + 1);
    BreakIsFirst(pts, closed, start, h + 1);
    if k > b {
      RunHeadInside(pts, closed, start, b, k);
    }
  }

  /** A straight segment at a run head gives both its ends its chord angle. */
  lemma StraightRun(tr: Transcendentals, solve: RunSolver, pts: seq<ControlPoint>, closed: bool, start: nat, k: int)
    requires OnePerPoint(solve)
    requires 0 < |pts| && start < |pts| && 0 <= k < Length(pts, closed)
    requires k == 0 || IsBreak(Pt(pts, k, start))
    requires Straight(pts, closed, start, k)
    ensures OutVal(tr, solve, pts, closed, start, 0, k) == SegChordAngle(tr, pts, start, k)
    ensures InVal(tr, solve, pts, closed, start, 0, k + 1) == SegChordAngle(tr, pts, start, k)
  {
    RunHeadAtBreak(pts, closed, start, 0, k);
  }

  /** A point inside a run is left with the value it is entered with. */
  lemma InsideRun(tr: Transcendentals, solve: RunSolver, pts: seq<ControlPoint>, closed: bool, start: nat, k: int)
    requires OnePerPoint(solve)
    requires 0 < |pts| && start < |pts| && 0 < k < Length(pts, closed) && !IsBreak(Pt(pts, k, start))
    ensures OutVal(tr, solve, pts, closed, start, 0, k) == InVal(tr, solve, pts, closed, start, 0, k)
  {
    RunHeadInside(pts, closed, start, 0, k);
  }

  /** A run's head keeps a given outgoing tangent. */
  lemma RunValStartPin(tr: Transcendentals, solve: RunSolver, pts: seq<ControlPoint>, closed: bool, start: nat, h: int)
    requires OnePerPoint(solve) && HonoursPins(solve)
    requires 0 < |pts| && start < |pts| && 0 <= h < Length(pts, closed) && Pt(pts, h, start).rth.Some?
    ensures RunVal(tr, solve, pts, closed, start, h, h) == Pt(pts, h, start).rth.value
  {
    var m := Break(pts, closed, start, h + 1);
    assert |RunPts(pts, start, h, m)| >= 2;
  }

  /** A run's end keeps a given incoming tangent. */
  lemma RunValEndPin(tr: Transcendentals, solve: RunSolver, pts: seq<ControlPoint>, closed: bool, start: nat, h: int)
    requires OnePerPoint(solve) && HonoursPins(solve)
    requires 0 < |pts| && start < |pts| && 0 <= h < Length(pts, closed)
    requires Pt(pts, Break(pts, closed, start, h + 1), start).lth.Some?
    ensures var m := Break(pts, closed, start, h + 1);
      RunVal(tr, solve, pts, closed, start, h, m) == Pt(pts, m, start).lth.value
  {
    var m := Break(pts, closed, start, h + 1);
    assert |RunPts(pts, start, h, m)| >= 2;
  }

  /** A break point after the head of a run is the end of that run. */
  lemma BreakEndsRun(pts: seq<ControlPoint>, closed: bool, start: nat, h: int, k: int)
    requires 0 < |pts| && start < |pts| && 0 <= h < k <= Length(pts, closed)
    requires k <= Break(pts, closed, start, h + 1) && IsBreak(Pt(pts, k, start))
    ensures k == Break(pts, closed, start, h + 1)
  {
    BreakIsFirst(pts, closed, start, h + 1);
  }

  /** A point with a given incoming tangent gets it from the run that ends there. */
  lemma RunValAtPinnedEnd(tr: Transcendentals, solve: RunSolver, pts: seq<ControlPoint>, closed: bool, start: nat, k: int)
    requires OnePerPoint(solve) && HonoursPins(solve)
    requires 0 < |pts| && start < |pts| && 1 <= k <= Length(pts, closed) && Pt(pts, k, start).lth.Some?
    ensures RunVal(tr, solve, pts, closed, start, RunHead(pts, closed, start, 0, k - 1), k) == Pt(pts, k, start).lth.value
  {
    var h := RunHead(pts, closed, start, 0, k - 1);
    BreakEndsRun(pts, closed, start, h, k);
    RunValEndPin(tr, solve, pts, closed, start, h);
  }

  /** After `solve`, point k has the outgoing tangent that its run gives it. */
  lemma SolvedOut(curve: CurveFamily, tr: Transcendentals, solve: RunSolver, pts: seq<ControlPoint>, closed: bool,
                  d: seq<Derived>, k: int)
    requires OnePerPoint(solve)
    requires 0 < |pts| == |d| && 0 <= k < Length(pts, closed)
    ensures var start := StartOf(pts, closed);
      Solved(curve, tr, solve, pts, closed, d)[Ix(|pts|, k, start)].rTh
      == Some(OutVal(tr, solve, pts, closed, start, 0, k))
  {
    SolveFromR(curve, tr, solve, pts, closed, StartOf(pts, closed), d, 0, k);
  }

  /** After `solve`, point k has the incoming tangent that the run of segment k - 1 gives it. */
  lemma SolvedIn(curve: CurveFamily, tr: Transcendentals, solve: RunSolver, pts: seq<ControlPoint>, closed: bool,
                 d: seq<Derived>, k: int)
    requires OnePerPoint(solve)
    requires 0 < |pts| == |d| && 0 < k <= Length(pts, closed)
    ensures var start := StartOf(pts, closed);
      Solved(curve, tr, solve, pts, closed, d)[Ix(|pts|, k, start)].lTh
      == Some(InVal(tr, solve, pts, closed, start, 0, k))
  {
    SolveFromL(curve, tr, solve, pts, closed, StartOf(pts, closed), d, 0, k);
  }

  /** Every segment k of a solved spline has an outgoing tangent at its start and an incoming one at its end. */
  lemma SolvedTangents(curve: CurveFamily, tr: Transcendentals, solve: RunSolver, pts: seq<ControlPoint>, closed: bool,
                       d: seq<Derived>, k: int)
    requires OnePerPoint(solve)
    requires 0 < |pts| == |d| && 0 <= k < Length(pts, closed)
    ensures var r, start := Solved(curve, tr, solve, pts, closed, d), StartOf(pts, closed);
      r[Ix(|pts|, k, start)].rTh.Some? && r[Ix(|pts|, k + 1, start)].lTh.Some?
  {
    SolvedOut(curve, tr, solve, pts, closed, d, k);
    SolvedIn(curve, tr, solve, pts, closed, d, k + 1);
  }

  /** A straight segment at a run head ends up with its chord angle at both ends. */
  lemma SolvedStraight(curve: CurveFamily, tr: Transcendentals, solve: RunSolver, pts: seq<ControlPoint>, closed: bool,
                       d: seq<Derived>, k: int)
    requires OnePerPoint(solve)
    requires 0 < |pts| == |d| && 0 <= k < Length(pts, closed)
    requires k == 0 || IsBreak(Pt(pts, k, StartOf(pts, closed)))
    requires Straight(pts, closed, StartOf(pts, closed), k)
    ensures var r, start := Solved(curve, tr, solve, pts, closed, d), StartOf(pts, closed);
      && r[Ix(|pts|, k, start)].rTh == Some(SegChordAngle(tr, pts, start, k))
      && r[Ix(|pts|, k + 1, start)].lTh == Some(SegChordAngle(tr, pts, start, k))
  {
    StraightRun(tr, solve, pts, closed, StartOf(pts, closed), k);
    SolvedOut(curve, tr, solve, pts, closed, d, k);
    SolvedIn(curve, tr, solve, pts, closed, d, k + 1);
  }

  /** A given outgoing tangent at a run head is kept. */
  lemma SolvedStartPin(curve: CurveFamily, tr: Transcendentals, solve: RunSolver, pts: seq<ControlPoint>, closed: bool,
                       d: seq<Derived>, k: int)
    requires OnePerPoint(solve)
    requires 0 < |pts| == |d| && 0 <= k < Length(pts, closed)
    requires k == 0 || IsBreak(Pt(pts, k, StartOf(pts, closed)))
    requires HonoursPins(solve) && Pt(pts, k, StartOf(pts, closed)).rth.Some?
    ensures var r, start := Solved(curve, tr, solve, pts, closed, d), StartOf(pts, closed);
      r[Ix(|pts|, k, start)].rTh == Pt(pts, k, start).rth
  {
    var start := StartOf(pts, closed);
    RunHeadAtBreak(pts, closed, start, 0, k);
    SolvedOut(curve, tr, solve, pts, closed, d, k);
    RunValStartPin(tr, solve, pts, closed, start, k);
  }

  /** A given incoming tangent is kept. */
  lemma SolvedEndPin(curve: CurveFamily, tr: Transcendentals, solve: RunSolver, pts: seq<ControlPoint>, closed: bool,
                     d: seq<Derived>, k: int)
    requires OnePerPoint(solve)
    requires 0 < |pts| == |d| && 1 <= k <= Length(pts, closed)
    requires HonoursPins(solve) && Pt(pts, k, StartOf(pts, closed)).lth.Some?
    ensures var r, start := Solved(curve, tr, solve, pts, closed, d), StartOf(pts, closed);
      r[Ix(|pts|, k, start)].lTh == Pt(pts, k, start).lth
  {
    SolvedIn(curve, tr, solve, pts, closed, d, k);
    RunValAtPinnedEnd(tr, solve, pts, closed, StartOf(pts, closed), k);
  }

  /** A smooth point inside a run leaves with the tangent it arrives with. */
  lemma SolvedSmooth(curve: CurveFamily, tr: Transcendentals, solve: RunSolver, pts: seq<ControlPoint>, closed: bool,
                     d: seq<Derived>, k: int)
    requires OnePerPoint(solve)
    requires 0 < |pts| == |d| && 0 < k < Length(pts, closed)
    requires !IsBreak(Pt(pts, k, StartOf(pts, closed)))
    ensures var r, start := Solved(curve, tr, solve, pts, closed, d), StartOf(pts, closed);
      r[Ix(|pts|, k, start)].rTh == r[Ix(|pts|, k, start)].lTh
  {
    InsideRun(tr, solve, pts, closed, StartOf(pts, closed), k);
    SolvedOut(curve, tr, solve, pts, closed, d, k);
    SolvedIn(curve, tr, solve, pts, closed, d, k);
  }
}

=== FILE: spiro.dfy ===
/**
 * Euler-spiral segments (spiro.js): the series integrator and its
 * subdivided form, the rule choosing between them, the fit of a spiral to
 * two end tangents (mean curvature wrapped into -2pi .. 2pi, curvature
 * slope by at most ten secant steps), the segment's tangent and end
 * curvatures, and the spiral curve family's rendering into control points.
 *
 * The series `IntegSpiro12` is defined in full, but everything built on it
 * takes the series as a parameter `series: Series` (its instance being
 * `IntegSpiro12`), and what a property needs of it is stated as a
 * hypothesis that `IntegSpiro12` is proved to meet.
 */
module Spiro {
  import opened Numerics
  import opened Bezier
  import opened TwoParam
  import opened Poly

  /** An integral pair: the chord's x and y for a unit arclength. */
  datatype Uv = Uv(u: real, v: real) {
    function Plus(o: Uv): Uv {
      Uv(u + o.u, v + o.v)
    }

    function Scale(c: real): Uv {
      Uv(u * c, v * c)
    }

    /** Turned by the angle whose cosine and sine are c and s. */
    function Rotated(c: real, s: real): Uv {
      Uv(c * u - s * v, c * v + s * u)
    }
  }

  /** The shape of integ_spiro_12: curvature coefficients to an integral pair. */
  type Series = (real, real, real, real) -> Uv

  // ---------------------------------------------------------------------
  // Integration

  /**
   * The power series of integ_spiro_12: the end point of a unit-length
   * curve with tangent angle k0 s + k1 s^2/2 + k2 s^3/6 + k3 s^4/24 over
   * s in -0.5 .. 0.5, through order 10.
   */
  function IntegSpiro12(k0: real, k1: real, k2: real, k3: real): Uv {
    var t1_1 := k0;
    var t1_2 := 0.5 * k1;
    var t1_3 := (1.0 / 6.0) * k2;
    var t1_4 := (1.0 / 24.0) * k3;
    var t2_2 := t1_1 * t1_1;
    var t2_3 := 2.0 * (t1_1 * t1_2);
    var t2_4 := 2.0 * (t1_1 * t1_3) + t1_2 * t1_2;
    var t2_5 := 2.0 * (t1_1 * t1_4 + t1_2 * t1_3);
    var t2_6 := 2.0 * (t1_2 * t1_4) + t1_3 * t1_3;
    var t2_7 := 2.0 * (t1_3 * t1_4);
    var t2_8 := t1_4 * t1_4;
    var t3_4 := t2_2 * t1_2 + t2_3 * t1_1;
    var t3_6 := t2_2 * t1_4 + t2_3 * t1_3 + t2_4 * t1_2 + t2_5 * t1_1;
    var t3_8 := t2_4 * t1_4 + t2_5 * t1_3 + t2_6 * t1_2 + t2_7 * t1_1;
    var t3_10 := t2_6 * t1_4 + t2_7 * t1_3 + t2_8 * t1_2;
    var t4_4 := t2_2 * t2_2;
    var t4_5 := 2.0 * (t2_2 * t2_3);
    var t4_6 := 2.0 * (t2_2 * t2_4) + t2_3 * t2_3;
    var t4_7 := 2.0 * (t2_2 * t2_5 + t2_3 * t2_4);
    var t4_8 := 2.0 * (t2_2 * t2_6 + t2_3 * t2_5) + t2_4 * t2_4;
    var t4_9 := 2.0 * (t2_2 * t2_7 + t2_3 * t2_6 + t2_4 * t2_5);
    var t4_10 := 2.0 * (t2_2 * t2_8 + t2_3 * t2_7 + t2_4 * t2_6) + t2_5 * t2_5;
    var t5_6 := t4_4 * t1_2 + t4_5 * t1_1;
    var t5_8 := t4_4 * t1_4 + t4_5 * t1_3 + t4_6 * t1_2 + t4_7 * t1_1;
    var t5_10 := t4_6 * t1_4 + t4_7 * t1_3 + t4_8 * t1_2 + t4_9 * t1_1;
    var t6_6 := t4_4 * t2_2;
    var t6_7 := t4_4 * t2_3 + t4_5 * t2_2;
    var t6_8 := t4_4 * t2_4 + t4_5 * t2_3 + t4_6 * t2_2;
    var t6_9 := t4_4 * t2_5 + t4_5 * t2_4 + t4_6 * t2_3 + t4_7 * t2_2;
    var t6_10 := t4_4 * t2_6 + t4_5 * t2_5 + t4_6 * t2_4 + t4_7 * t2_3 + t4_8 * t2_2;
    var t7_8 := t6_6 * t1_2 + t6_7 * t1_1;
    var t7_10 := t6_6 * t1_4 + t6_7 * t1_3 + t6_8 * t1_2 + t6_9 * t1_1;
    var t8_8 := t6_6 * t2_2;
    var t8_9 := t6_6 * t2_3 + t6_7 * t2_2;
    var t8_10 := t6_6 * t2_4 + t6_7 * t2_3 + t6_8 * t2_2;
    var t9_10 := t8_8 * t1_2 + t8_9 * t1_1;
    var t10_10 := t8_8 * t2_2;
    var u := 1.0
      - ((1.0 / 24.0) * t2_2 + (1.0 / 160.0) * t2_4 + (1.0 / 896.0) * t2_6 + (1.0 / 4608.0) * t2_8)
      + ((1.0 / 1920.0) * t4_4 + (1.0 / 10752.0) * t4_6 + (1.0 / 55296.0) * t4_8 + (1.0 / 270336.0) * t4_10)
      - ((1.0 / 322560.0) * t6_6 + (1.0 / 1658880.0) * t6_8 + (1.0 / 8110080.0) * t6_10)
      + ((1.0 / 92897280.0) * t8_8 + (1.0 / 454164480.0) * t8_10)
      - 2.4464949595157930e-11 * t10_10;
    var v := (1.0 / 12.0) * t1_2 + (1.0 / 80.0) * t1_4
      - ((1.0 / 480.0) * t3_4 + (1.0 / 2688.0) * t3_6 + (1.0 / 13824.0) * t3_8 + (1.0 / 67584.0) * t3_10)
      + ((1.0 / 53760.0) * t5_6 + (1.0 / 276480.0) * t5_8 + (1.0 / 1351680.0) * t5_10)
      - ((1.0 / 11612160.0) * t7_8 + (1.0 / 56770560.0) * t7_10)
      + 2.4464949595157932e-10 * t9_10;
    Uv(u, v)
  }

  /** What a series must give for a straight segment: the unit chord. */
  predicate StraightUnit(series: Series) {
    series(0.0, 0.0, 0.0, 0.0) == Uv(1.0, 0.0)
  }

  /** A straight segment: the series of integ_spiro_12 gives the unit chord. */
  lemma IntegSpiro12Straight()
    ensures IntegSpiro12(0.0, 0.0, 0.0, 0.0) == Uv(1.0, 0.0)
  {
  }

  /** So integ_spiro_12 meets the straight-segment hypothesis of the lemmas below. */
  lemma IntegSpiro12IsStraightUnit()
    ensures StraightUnit(IntegSpiro12)
  {
    IntegSpiro12Straight();
  }

  /** The midpoint of sub-interval i when -0.5 .. 0.5 is cut into n pieces. */
  function SubMid(n: nat, i: nat): real
    requires n > 0
  {
    var ds := 1.0 / n as real;
    0.5 * ds - 0.5 + (i as real) * ds
  }

  /** The sub-intervals of width 1/n around the midpoints tile -0.5 .. 0.5, in order. */
  lemma SubIntervalsTile(n: nat, i: nat)
    requires n > 0 && i + 1 < n
    ensures SubMid(n, 0) - 0.5 / n as real == -0.5
    ensures SubMid(n, n - 1) + 0.5 / n as real == 0.5
    ensures SubMid(n, i + 1) - SubMid(n, i) == 1.0 / n as real
  {
    var ds := 1.0 / n as real;
    assert (n as real) * ds == 1.0;
    assert 0.5 / n as real == 0.5 * ds;
  }

  lemma SubMidNext(n: nat, i: nat)
    requires n > 0
    ensures SubMid(n, i + 1) == SubMid(n, i) + 1.0 / n as real
  {
  }

  /** Nested evaluation c[0] + s (c[1] + s (c[2] + ...)), the form the sub-interval code writes its polynomials in. */
  function Horner(cs: seq<real>, s: real): real {
    if |cs| == 0 then 0.0 else cs[0] + s * Horner(cs[1..], s)
  }

  /** Nested evaluation at 0 is the constant coefficient. */
  lemma HornerAtZero(cs: seq<real>)
    requires |cs| > 0
    ensures Horner(cs, 0.0) == cs[0]
  {
  }

  /** All-zero coefficients evaluate to zero. */
  lemma {:induction false} HornerOfZeros(cs: seq<real>, s: real)
    requires forall j :: 0 <= j < |cs| ==> cs[j] == 0.0
    ensures Horner(cs, s) == 0.0
    decreases |cs|
  {
    if |cs| > 0 {
      HornerOfZeros(cs[1..], s);
    }
  }

  /**
   * Sub-interval contribution: the series on the curve re-centred at
   * midpoint s and scaled to width ds, rotated by the tangent angle at s.
   */
  function SubTerm(tr: Transcendentals, series: Series, k0: real, k1: real, k2: real, k3: real,
                   ds: real, s: real): Uv {
    var c0, c1, c2, c3 := k0 * ds, k1 * ds, k2 * ds, k3 * ds;
    var km0 := Horner([c0, c1, 0.5 * c2, (1.0 / 6.0) * c3], s);
    var km1 := Horner([c1, c2, 0.5 * c3], s) * ds;
    var km2 := Horner([c2, c3], s) * Pow(ds, 2);
    var km3 := c3 * Pow(ds, 3);
    var uv := series(km0, km1, km2, km3);
    var th := Horner([0.0, k0, 0.5 * k1, (1.0 / 6.0) * k2, (1.0 / 24.0) * k3], s);
    uv.Rotated(tr.cos(th), tr.sin(th))
  }

  /** The sum of the first i sub-interval contributions. */
  function SubSum(tr: Transcendentals, series: Series, k0: real, k1: real, k2: real, k3: real,
                  n: nat, i: nat): Uv
    requires n > 0
  {
    if i == 0 then Uv(0.0, 0.0)
    else
      SubSum(tr, series, k0, k1, k2, k3, n, i - 1).Plus(SubTerm(tr, series, k0, k1, k2, k3, 1.0 / n as real, SubMid(n, i - 1)))
  }

  /** integ_spiro_12n: all n contributions, scaled by the width 1/n. */
  function IntegSpiro12nSpec(tr: Transcendentals, series: Series, k0: real, k1: real, k2: real, k3: real,
                             n: nat): Uv
    requires n > 0
  {
    SubSum(tr, series, k0, k1, k2, k3, n, n).Scale(1.0 / n as real)
  }

  /** The loop of integ_spiro_12n: n sub-interval calls, s advancing by 1/n from the first midpoint. */
  method IntegSpiro12n(tr: Transcendentals, series: Series, k0: real, k1: real, k2: real, k3: real, n: nat)
    returns (r: Uv)
    requires n > 0
    ensures r == IntegSpiro12nSpec(tr, series, k0, k1, k2, k3, n)
  {
    var ds := 1.0 / n as real;
    var x := 0.0;
    var y := 0.0;
    var s := 0.5 * ds - 0.5;
    for i := 0 to n
      invariant Uv(x, y) == SubSum(tr, series, k0, k1, k2, k3, n, i)
      invariant s == SubMid(n, i)
    {
      var d := SubTerm(tr, series, k0, k1, k2, k3, ds, s);
      x := x + d.u;
      y := y + d.v;
      SubMidNext(n, i);
      s := s + ds;
    }
    r := Uv(x * ds, y * ds);
  }

  /** With a single sub-interval the subdivided integral is the series itself. */
  lemma IntegSpiro12nOne(tr: Transcendentals, series: Series, k0: real, k1: real, k2: real, k3: real)
    requires tr.cos(0.0) == 1.0 && tr.sin(0.0) == 0.0
    ensures IntegSpiro12nSpec(tr, series, k0, k1, k2, k3, 1) == series(k0, k1, k2, k3)
  {
    assert 1.0 / 1 as real == 1.0;
    assert SubMid(1, 0) == 0.0;
    PowOne(2);
    PowOne(3);
    var c0, c1, c2, c3 := k0 * 1.0, k1 * 1.0, k2 * 1.0, k3 * 1.0;
    assert Horner([c0, c1, 0.5 * c2, (1.0 / 6.0) * c3], 0.0) == k0;
    assert Horner([c1, c2, 0.5 * c3], 0.0) * 1.0 == k1;
    assert Horner([c2, c3], 0.0) * Pow(1.0, 2) == k2;
    assert c3 * Pow(1.0, 3) == k3;
    assert Horner([0.0, k0, 0.5 * k1, (1.0 / 6.0) * k2, (1.0 / 24.0) * k3], 0.0) == 0.0;
    var d := SubTerm(tr, series, k0, k1, k2, k3, 1.0, 0.0);
    assert d == series(k0, k1, k2, k3).Rotated(1.0, 0.0);
    assert SubSum(tr, series, k0, k1, k2, k3, 1, 1) == Uv(0.0, 0.0).Plus(d);
  }

  /** Each straight sub-interval contributes its share of the unit chord. */
  lemma {:induction false} SubSumStraight(tr: Transcendentals, series: Series, n: nat, i: nat)
    requires n > 0 && tr.cos(0.0) == 1.0 && tr.sin(0.0) == 0.0 && StraightUnit(series)
    ensures SubSum(tr, series, 0.0, 0.0, 0.0, 0.0, n, i) == Uv(i as real, 0.0)
  {
    if i > 0 {
      SubSumStraight(tr, series, n, i - 1);
      var s, ds := SubMid(n, i - 1), 1.0 / n as real;
      HornerOfZeros([0.0 * ds, 0.0 * ds, 0.5 * (0.0 * ds), (1.0 / 6.0) * (0.0 * ds)], s);
      HornerOfZeros([0.0 * ds, 0.0 * ds, 0.5 * (0.0 * ds)], s);
      HornerOfZeros([0.0 * ds, 0.0 * ds], s);
      HornerOfZeros([0.0, 0.0, 0.5 * 0.0, (1.0 / 6.0) * 0.0, (1.0 / 24.0) * 0.0], s);
      assert SubTerm(tr, series, 0.0, 0.0, 0.0, 0.0, ds, s) == Uv(1.0, 0.0);
    }
  }

  /** A straight segment integrates to the unit chord for any number of sub-intervals. */
  lemma IntegSpiro12nStraight(tr: Transcendentals, series: Series, n: nat)
    requires n > 0 && tr.cos(0.0) == 1.0 && tr.sin(0.0) == 0.0 && StraightUnit(series)
    ensures IntegSpiro12nSpec(tr, series, 0.0, 0.0, 0.0, 0.0, n) == Uv(1.0, 0.0)
  {
    SubSumStraight(tr, series, n, n);
    assert (n as real) * (1.0 / n as real) == 1.0;
  }

  /** The bend for which the series alone is accurate enough: an Euler spiral with 0.2 k0^2 + |k1| < 1. */
  predicate SeriesSuffices(k0: real, k1: real, k2: real, k3: real) {
    k2 == 0.0 && k3 == 0.0 && 0.2 * k0 * k0 + Abs(k1) < 1.0
  }

  /** The number of sub-intervals used past that bend. */
  const Subdivisions: nat := 4

  /** integ_spiro: the series when it suffices, otherwise four sub-intervals. */
  function IntegSpiro(tr: Transcendentals, series: Series, k0: real, k1: real, k2: real, k3: real): (r: Uv)
    ensures SeriesSuffices(k0, k1, k2, k3) ==> r == series(k0, k1, k2, k3)
    ensures !SeriesSuffices(k0, k1, k2, k3) ==> r == IntegSpiro12nSpec(tr, series, k0, k1, k2, k3, Subdivisions)
  {
    if k2 == 0.0 && k3 == 0.0 then
      var estErrRaw := 0.2 * k0 * k0 + Abs(k1);
      if estErrRaw < 1.0 then series(k0, k1, k2, k3)
      else IntegSpiro12nSpec(tr, series, k0, k1, k2, k3, Subdivisions)
    else IntegSpiro12nSpec(tr, series, k0, k1, k2, k3, Subdivisions)
  }

  /**
   * The Euler-spiral case of integ_spiro (k2 = k3 = 0), the only one the
   * fit, the segment and the curve family use. They take it as a parameter
   * `integ: Integral`, whose instance is `EulerIntegral(tr, IntegSpiro12)`.
   */
  type Integral = (real, real) -> Uv

  function EulerIntegral(tr: Transcendentals, series: Series): Integral {
    (k0, k1) => IntegSpiro(tr, series, k0, k1, 0.0, 0.0)
  }

  /** The Euler integral of a straight segment is the unit chord, given the series' straight case. */
  lemma EulerIntegralStraight(tr: Transcendentals, series: Series)
    requires StraightUnit(series)
    ensures EulerIntegral(tr, series)(0.0, 0.0) == Uv(1.0, 0.0)
  {
    assert SeriesSuffices(0.0, 0.0, 0.0, 0.0);
  }

  // ---------------------------------------------------------------------
  // fit_euler

  lemma DivShift(a: real, p: real)
    requires p > 0.0
    ensures (a - p) / p == a / p - 1.0
  {
    assert (a - p) / p == a / p - p / p;
  }

  /** The first wrapping loop: down by 4 pi while above 2 pi. */
  function WrapAbove(tr: Transcendentals, k: real): real
    requires tr.pi > 0.0
    decreases (k / (4.0 * tr.pi)).Floor
  {
    if k > 2.0 * tr.pi then
      DivShift(k, 4.0 * tr.pi);
      WrapAbove(tr, k - 4.0 * tr.pi)
    else k
  }

  /** The second wrapping loop: up by 4 pi while below -2 pi. */
  function WrapBelow(tr: Transcendentals, k: real): real
    requires tr.pi > 0.0
    decreases (-k / (4.0 * tr.pi)).Floor
  {
    if k < -2.0 * tr.pi then
      DivShift(-k, 4.0 * tr.pi);
      WrapBelow(tr, k + 4.0 * tr.pi)
    else k
  }

  /** The mean curvature k0 that fit_euler uses for th0 + th1 = x. */
  function WrapK0(tr: Transcendentals, x: real): real
    requires tr.pi > 0.0
  {
    WrapBelow(tr, WrapAbove(tr, x))
  }

  lemma {:induction false} WrapAboveFacts(tr: Transcendentals, k: real) returns (m: int)
    requires tr.pi > 0.0
    ensures WrapAbove(tr, k) <= 2.0 * tr.pi
    ensures WrapAbove(tr, k) == k + 4.0 * tr.pi * (m as real)
    ensures k > 2.0 * tr.pi ==> WrapAbove(tr, k) > -2.0 * tr.pi
    ensures k <= 2.0 * tr.pi ==> WrapAbove(tr, k) == k
    decreases (k / (4.0 * tr.pi)).Floor
  {
    if k > 2.0 * tr.pi {
      DivShift(k, 4.0 * tr.pi);
      var m' := WrapAboveFacts(tr, k - 4.0 * tr.pi);
      m := m' - 1;
    } else {
      m := 0;
    }
  }

  lemma {:induction false} WrapBelowFacts(tr: Transcendentals, k: real) returns (m: int)
    requires tr.pi > 0.0
    ensures WrapBelow(tr, k) >= -2.0 * tr.pi
    ensures WrapBelow(tr, k) == k + 4.0 * tr.pi * (m as real)
    ensures k < -2.0 * tr.pi ==> WrapBelow(tr, k) < 2.0 * tr.pi
    ensures k >= -2.0 * tr.pi ==> WrapBelow(tr, k) == k
    decreases (-k / (4.0 * tr.pi)).Floor
  {
    if k < -2.0 * tr.pi {
      DivShift(-k, 4.0 * tr.pi);
      var m' := WrapBelowFacts(tr, k + 4.0 * tr.pi);
      m := m' + 1;
    } else {
      m := 0;
    }
  }

  /**
   * The wrapped mean curvature lies in -2 pi .. 2 pi and differs from
   * th0 + th1 by a whole number m of 4 pi turns; inside that range it is
   * th0 + th1 itself.
   */
  lemma WrapK0Range(tr: Transcendentals, x: real) returns (m: int)
    requires tr.pi > 0.0
    ensures -2.0 * tr.pi <= WrapK0(tr, x) <= 2.0 * tr.pi
    ensures WrapK0(tr, x) == x + 4.0 * tr.pi * (m as real)
    ensures -2.0 * tr.pi <= x <= 2.0 * tr.pi ==> WrapK0(tr, x) == x
  {
    var a := WrapAboveFacts(tr, x);
    var b := WrapBelowFacts(tr, WrapAbove(tr, x));
    m := a + b;
  }

  /** The two wrapping loops of fit_euler. */
  method WrapMeanCurvature(tr: Transcendentals, x: real) returns (k0: real)
    requires tr.pi > 0.0
    ensures k0 == WrapK0(tr, x)
  {
    k0 := x;
    while k0 > 2.0 * tr.pi
      invariant WrapAbove(tr, k0) == WrapAbove(tr, x)
      decreases (k0 / (4.0 * tr.pi)).Floor
    {
      DivShift(k0, 4.0 * tr.pi);
      k0 := k0 - 4.0 * tr.pi;
    }
    ghost var above := k0;
    while k0 < -2.0 * tr.pi
      invariant WrapBelow(tr, k0) == WrapBelow(tr, above)
      decreases (-k0 / (4.0 * tr.pi)).Floor
    {
      DivShift(-k0, 4.0 * tr.pi);
      k0 := k0 + 4.0 * tr.pi;
    }
  }

  /** The number of secant steps fit_euler allows. */
  const FitIterations: nat := 10

  /** The residual below which fit_euler stops. */
  const FitTolerance: real := 1e-9

  /** The residual in net turning for curvature slope k1: the wanted th1 - th0 against what the spiral gives. */
  function FitError(tr: Transcendentals, integ: Integral, th0: real, th1: real, k0: real, k1: real): real {
    var xy := integ(k0, k1);
    (th1 - th0) - (0.25 * k1 - 2.0 * tr.atan2(xy.v, xy.u))
  }

  predicate Converged(tr: Transcendentals, integ: Integral, th0: real, th1: real, k0: real, k1: real) {
    Abs(FitError(tr, integ, th0, th1, k0, k1)) < FitTolerance
  }

  /** The cubic first guess for the curvature slope. */
  function SeedSlope(tr: Transcendentals, k0: real, err: real): real
    requires tr.pi > 0.0
  {
    var c := (0.5 / tr.pi) * k0;
    6.0 * (1.0 - c * c * c) * err
  }

  /** The secant iteration's state: the slope guess, the previous guess and the previous residual. */
  datatype Secant = Secant(k1: real, k1Old: real, errOld: real) {
    /** One secant step, given the residual e at k1 (a zero denominator gives a zero step). */
    function Step(e: real): Secant {
      Secant(k1 + Quot((k1Old - k1) * e, e - errOld), k1, e)
    }
  }

  /** The secant state after i steps, none of them stopping. */
  function SecantIterate(tr: Transcendentals, integ: Integral, th0: real, th1: real, k0: real, i: nat): Secant
    requires tr.pi > 0.0
  {
    if i == 0 then Secant(SeedSlope(tr, k0, th1 - th0), 0.0, th1 - th0)
    else
      var st := SecantIterate(tr, integ, th0, th1, k0, i - 1);
      st.Step(FitError(tr, integ, th0, th1, k0, st.k1))
  }

  /** The fitted spiral: its curvature coefficients, chord length and chord angle. */
  datatype EulerParams = EulerParams(k0: real, k1: real, chord: real, chth: real)

  /** The parameters for k0 and k1, chord and chord angle from the spiral's integral. */
  function ParamsAt(tr: Transcendentals, integ: Integral, k0: real, k1: real): EulerParams {
    var xy := integ(k0, k1);
    EulerParams(k0, k1, tr.hypot(xy.u, xy.v), tr.atan2(xy.v, xy.u))
  }

  /** The secant search from step i on: the first converged step, or failure after the last. */
  function SecantSearch(tr: Transcendentals, integ: Integral, th0: real, th1: real, k0: real, i: nat): Result<EulerParams>
    requires tr.pi > 0.0
    decreases FitIterations - i
  {
    if i >= FitIterations then Err("fit_euler diverges")
    else
      var k1 := SecantIterate(tr, integ, th0, th1, k0, i).k1;
      if Converged(tr, integ, th0, th1, k0, k1) then Ok(ParamsAt(tr, integ, k0, k1))
      else SecantSearch(tr, integ, th0, th1, k0, i + 1)
  }

  /** What fit_euler returns, or the failure it throws. */
  function FitEulerSpec(tr: Transcendentals, integ: Integral, th0: real, th1: real): Result<EulerParams>
    requires tr.pi > 0.0
  {
    SecantSearch(tr, integ, th0, th1, WrapK0(tr, th0 + th1), 0)
  }

  /**
   * One turn of the secant loop from state st, the state after i steps: a
   * converged residual ends the search with this slope; otherwise the search
   * goes on from the next state, st stepped by the residual.
   */
  lemma SecantTurn(tr: Transcendentals, integ: Integral, th0: real, th1: real, k0: real, i: nat, st: Secant)
    requires tr.pi > 0.0 && i < FitIterations && st == SecantIterate(tr, integ, th0, th1, k0, i)
    ensures var e := FitError(tr, integ, th0, th1, k0, st.k1);
      && (Abs(e) < FitTolerance ==> SecantSearch(tr, integ, th0, th1, k0, i) == Ok(ParamsAt(tr, integ, k0, st.k1)))
      && (Abs(e) >= FitTolerance ==>
            && SecantSearch(tr, integ, th0, th1, k0, i) == SecantSearch(tr, integ, th0, th1, k0, i + 1)
            && SecantIterate(tr, integ, th0, th1, k0, i + 1) == Secant(st.Step(e).k1, st.k1, e))
  {
  }

  /** fit_euler: wrap the mean curvature, seed the slope, then at most ten secant steps. */
  method FitEuler(tr: Transcendentals, integ: Integral, th0: real, th1: real) returns (r: Result<EulerParams>)
    requires tr.pi > 0.0
    ensures r == FitEulerSpec(tr, integ, th0, th1)
  {
    var k0 := WrapMeanCurvature(tr, th0 + th1);
    var k1 := SeedSlope(tr, k0, th1 - th0);
    var i, xy;
    i, k1, xy := SecantLoop(tr, integ, th0, th1, k0, k1);
    if i == FitIterations {
      return Err("fit_euler diverges");
    }
    var chord := tr.hypot(xy.u, xy.v);
    var chth := tr.atan2(xy.v, xy.u);
    r := Ok(EulerParams(k0, k1, chord, chth));
  }

  /**
   * The secant loop of fit_euler from the seed slope: it stops at the first
   * step whose residual is below the tolerance (i < 10, with that slope and
   * its integral), or after ten steps (i = 10), exactly as the search does.
   */
  method SecantLoop(tr: Transcendentals, integ: Integral, th0: real, th1: real, k0: real, seed: real)
    returns (i: nat, k1: real, xy: Uv)
    requires tr.pi > 0.0 && seed == SeedSlope(tr, k0, th1 - th0)
    ensures i <= FitIterations
    ensures i == FitIterations ==> SecantSearch(tr, integ, th0, th1, k0, 0) == Err("fit_euler diverges")
    ensures i < FitIterations ==>
      xy == integ(k0, k1) && SecantSearch(tr, integ, th0, th1, k0, 0) == Ok(ParamsAt(tr, integ, k0, k1))
  {
    var k1Old := 0.0;
    var errorOld := th1 - th0;
    k1 := seed;
    xy := Uv(0.0, 0.0);
    i := 0;
    while i < FitIterations
      invariant 0 <= i <= FitIterations
      invariant Secant(k1, k1Old, errorOld) == SecantIterate(tr, integ, th0, th1, k0, i)
      invariant SecantSearch(tr, integ, th0, th1, k0, 0) == SecantSearch(tr, integ, th0, th1, k0, i)
    {
      xy := integ(k0, k1);
      var error := (th1 - th0) - (0.25 * k1 - 2.0 * tr.atan2(xy.v, xy.u));
      SecantTurn(tr, integ, th0, th1, k0, i, Secant(k1, k1Old, errorOld));
      if Abs(error) < FitTolerance {
        return;
      }
      var newK1 := Secant(k1, k1Old, errorOld).Step(error).k1;
      k1Old := k1;
      errorOld := error;
      k1 := newK1;
      i := i + 1;
    }
  }

  /** Secant step q brings the residual below the tolerance. */
  predicate ConvergesAt(tr: Transcendentals, integ: Integral, th0: real, th1: real, k0: real, q: nat)
    requires tr.pi > 0.0
  {
    Converged(tr, integ, th0, th1, k0, SecantIterate(tr, integ, th0, th1, k0, q).k1)
  }

  /**
   * The search from step i fails exactly when none of the steps i .. 9
   * converges; when it succeeds it returns the first step j that does,
   * with the chord and chord angle of that spiral.
   */
  lemma {:induction false} SecantSearchOutcome(tr: Transcendentals, integ: Integral, th0: real, th1: real, k0: real, i: nat)
    returns (j: nat)
    requires tr.pi > 0.0
    ensures var r := SecantSearch(tr, integ, th0, th1, k0, i);
      && (r.Err? <==> forall q :: i <= q < FitIterations ==> !ConvergesAt(tr, integ, th0, th1, k0, q))
      && (r.Ok? ==>
            && i <= j < FitIterations
            && ConvergesAt(tr, integ, th0, th1, k0, j)
            && r.value == ParamsAt(tr, integ, k0, SecantIterate(tr, integ, th0, th1, k0, j).k1)
            && forall q :: i <= q < j ==> !ConvergesAt(tr, integ, th0, th1, k0, q))
    decreases FitIterations - i
  {
    if i >= FitIterations {
      j := i;
    } else if ConvergesAt(tr, integ, th0, th1, k0, i) {
      j := i;
    } else {
      j := SecantSearchOutcome(tr, integ, th0, th1, k0, i + 1);
      assert SecantSearch(tr, integ, th0, th1, k0, i) == SecantSearch(tr, integ, th0, th1, k0, i + 1);
      ghost var stop := if SecantSearch(tr, integ, th0, th1, k0, i).Ok? then j else FitIterations;
      forall q | i <= q < stop
        ensures !ConvergesAt(tr, integ, th0, th1, k0, q)
      {
        if q > i {
          assert i + 1 <= q < stop;
        }
      }
    }
  }

  /**
   * fit_euler succeeds exactly when one of its ten secant steps brings the
   * residual below 1e-9, returning the wrapped k0 and the first such slope.
   */
  lemma FitEulerOutcome(tr: Transcendentals, integ: Integral, th0: real, th1: real) returns (j: nat)
    requires tr.pi > 0.0
    ensures var r, k0 := FitEulerSpec(tr, integ, th0, th1), WrapK0(tr, th0 + th1);
      && (r.Err? <==> forall q :: 0 <= q < FitIterations ==> !ConvergesAt(tr, integ, th0, th1, k0, q))
      && (r.Ok? ==>
            && j < FitIterations
            && r.value.k0 == k0
            && r.value.k1 == SecantIterate(tr, integ, th0, th1, k0, j).k1
            && Converged(tr, integ, th0, th1, k0, r.value.k1))
  {
    j := SecantSearchOutcome(tr, integ, th0, th1, WrapK0(tr, th0 + th1), 0);
  }

  /**
   * A straight segment: with atan2(0, 1) = 0 and hypot(1, 0) = 1, the fit of
   * two zero tangents stops at the first step with k0 = k1 = 0 and a unit
   * chord along the x axis.
   */
  lemma FitEulerStraight(tr: Transcendentals, integ: Integral)
    requires tr.pi > 0.0 && integ(0.0, 0.0) == Uv(1.0, 0.0)
    requires tr.atan2(0.0, 1.0) == 0.0 && tr.hypot(1.0, 0.0) == 1.0
    ensures FitEulerSpec(tr, integ, 0.0, 0.0) == Ok(EulerParams(0.0, 0.0, 1.0, 0.0))
  {
    var _ := WrapK0Range(tr, 0.0);
    assert SecantIterate(tr, integ, 0.0, 0.0, 0.0, 0).k1 == 0.0;
    assert Converged(tr, integ, 0.0, 0.0, 0.0, 0.0);
  }

  // ---------------------------------------------------------------------
  // EulerSegment

  /** The curvatures at the two ends of a segment. */
  datatype EndCurvatures = EndCurvatures(k0: real, k1: real)

  /** A fitted spiral segment with its tangent angle at the midpoint. */
  datatype EulerSegment = EulerSegment(params: EulerParams, thmid: real) {
    /** The tangent angle at parameter t, measured as spiro measures it. */
    function Th(t: real): real {
      var u := t - 0.5;
      thmid + (0.5 * params.k1 * u + params.k0) * u
    }

    /** How fast Th turns at t: the curvature, linear in t. */
    function ThSlope(t: real): real {
      params.k1 * (t - 0.5) + params.k0
    }

    /**
     * The curvatures at the ends, scaled by the chord: their mean is
     * k0 chord and their difference k1 chord; each is the turning rate of
     * Th at that end times the chord.
     */
    function KEndpoints(): (r: EndCurvatures)
      ensures r.k0 + r.k1 == 2.0 * params.k0 * params.chord
      ensures r.k1 - r.k0 == params.k1 * params.chord
      ensures r.k0 == ThSlope(0.0) * params.chord && r.k1 == ThSlope(1.0) * params.chord
    {
      EndCurvatures((params.k0 - 0.5 * params.k1) * params.chord, (params.k0 + 0.5 * params.k1) * params.chord)
    }

    /** The point at parameter t on the segment drawn with chord (0, 0) - (1, 0); it starts at the origin. */
    function Xy(tr: Transcendentals, integ: Integral, t: real): (r: Vec2)
      ensures t == 0.0 ==> r == Vec2(0.0, 0.0)
    {
      var thm := Th(t * 0.5);
      var k0 := params.k0;
      var k1 := params.k1;
      var uv := integ((k0 + k1 * 0.5 * (t - 1.0)) * t, k1 * t * t);
      var s := Quot(t, params.chord) * tr.sin(thm);
      var c := Quot(t, params.chord) * tr.cos(thm);
      var turned := uv.Rotated(c, s);
      Vec2(turned.u, -turned.v)
    }
  }

  /** The segment the constructor builds from a fit: Th(0) = -th0 and Th turns by k0 from end to end. */
  function SegmentOf(th0: real, p: EulerParams): (s: EulerSegment)
    ensures s.Th(0.0) == -th0 && s.Th(1.0) == p.k0 - th0
  {
    EulerSegment(p, 0.5 * p.k0 - 0.125 * p.k1 - th0)
  }

  /** Th at the middle is thmid, and Th is exactly quadratic with turning rate ThSlope. */
  lemma ThTaylor(s: EulerSegment, t: real, h: real)
    ensures s.Th(0.5) == s.thmid
    ensures s.Th(t + h) == s.Th(t) + h * s.ThSlope(t) + 0.5 * s.params.k1 * h * h
  {
  }

  /** The segment `new EulerSegment(th0, th1)` builds, or the fit's failure. */
  function EulerSegmentFor(tr: Transcendentals, integ: Integral, th0: real, th1: real): Result<EulerSegment>
    requires tr.pi > 0.0
  {
    match FitEulerSpec(tr, integ, th0, th1)
    case Ok(p) => Ok(SegmentOf(th0, p))
    case Err(e) => Err(e)
  }

  /** `new EulerSegment(th0, th1)`. */
  method NewEulerSegment(tr: Transcendentals, integ: Integral, th0: real, th1: real) returns (r: Result<EulerSegment>)
    requires tr.pi > 0.0
    ensures r == EulerSegmentFor(tr, integ, th0, th1)
  {
    var params := FitEuler(tr, integ, th0, th1);
    if params.Err? {
      return Err(params.msg);
    }
    var thmid := 0.5 * params.value.k0 - 0.125 * params.value.k1 - th0;
    r := Ok(EulerSegment(params.value, thmid));
  }

  // ---------------------------------------------------------------------
  // SpiroCurve

  /** The number of cubic pieces a spiral segment is drawn with. */
  const RenderPieces: nat := 5

  /** The handle leaving point xy at tangent angle th, at distance d. */
  function LeadHandle(tr: Transcendentals, xy: Vec2, d: real, th: real): Vec2 {
    Vec2(xy.x + d * tr.cos(th), xy.y - d * tr.sin(th))
  }

  /** The handle arriving at point xy at tangent angle th, at distance d. */
  function TrailHandle(tr: Transcendentals, xy: Vec2, d: real, th: real): Vec2 {
    Vec2(xy.x - d * tr.cos(th), xy.y + d * tr.sin(th))
  }

  /** A piece from xy0 at angle th0 to xy1 at angle th1: its start point unless it is the first, and its two handles. */
  function PieceOf(tr: Transcendentals, first: bool, xy0: Vec2, th0: real, xy1: Vec2, th1: real, d: real): (r: seq<Vec2>)
    ensures |r| == if first then 2 else 3
    ensures !first ==> r[0] == xy0
  {
    (if first then [] else [xy0]) + [LeadHandle(tr, xy0, d, th0), TrailHandle(tr, xy1, d, th1)]
  }

  /** The length of the handles when a segment of the given chord is drawn with n pieces. */
  function HandleLength(n: nat, chord: real): real {
    Quot(1.0, (n as real) * 3.0 * chord)
  }

  /** The segment as a curve: the point at each parameter. */
  function SegCurve(tr: Transcendentals, integ: Integral, seg: EulerSegment): real -> Vec2 {
    t => seg.Xy(tr, integ, t)
  }

  /** The segment's tangent angle at each parameter. */
  function SegAngle(seg: EulerSegment): real -> real {
    t => seg.Th(t)
  }

  /** Piece i of n along a curve with tangent angles `angle`: from parameter i/n to (i + 1)/n. */
  function PiecePoints(tr: Transcendentals, curve: real -> Vec2, angle: real -> real, d: real, n: nat, i: nat): seq<Vec2>
    requires n > 0
  {
    var t := (i as real) / (n as real);
    var t1 := t + 1.0 / (n as real);
    PieceOf(tr, i == 0, curve(t), angle(t), curve(t1), angle(t1), d)
  }

  /** The points of pieces 0 .. i - 1. */
  function RenderPoints(tr: Transcendentals, curve: real -> Vec2, angle: real -> real, d: real, n: nat, i: nat): seq<Vec2>
    requires n > 0
  {
    if i == 0 then [] else RenderPoints(tr, curve, angle, d, n, i - 1) + PiecePoints(tr, curve, angle, d, n, i - 1)
  }

  /** i pieces give 3i - 1 points. */
  lemma {:induction false} RenderPointsLength(tr: Transcendentals, curve: real -> Vec2, angle: real -> real, d: real, n: nat, i: nat)
    requires n > 0
    ensures |RenderPoints(tr, curve, angle, d, n, i)| == if i == 0 then 0 else 3 * i - 1
  {
    if i > 0 {
      RenderPointsLength(tr, curve, angle, d, n, i - 1);
    }
  }

  /** Drawing more pieces only appends. */
  lemma {:induction false} RenderPointsPrefix(tr: Transcendentals, curve: real -> Vec2, angle: real -> real, d: real, n: nat, i: nat, m: nat)
    requires n > 0 && i <= m
    ensures RenderPoints(tr, curve, angle, d, n, i) <= RenderPoints(tr, curve, angle, d, n, m)
    decreases m
  {
    if i < m {
      RenderPointsPrefix(tr, curve, angle, d, n, i, m - 1);
    }
  }

  /**
   * Point 3i - 1 is on the curve: the join at parameter i/n between pieces
   * i - 1 and i; the two points after it are the handles of piece i, along
   * the tangent at i/n and (i + 1)/n.
   */
  lemma RenderJoins(tr: Transcendentals, curve: real -> Vec2, angle: real -> real, d: real, n: nat, m: nat, i: nat)
    requires n > 0 && 1 <= i < m
    ensures var r, t, t1 := RenderPoints(tr, curve, angle, d, n, m), (i as real) / (n as real), (i as real) / (n as real) + 1.0 / (n as real);
      && 3 * i + 1 < |r|
      && r[3 * i - 1] == curve(t)
      && r[3 * i] == LeadHandle(tr, curve(t), d, angle(t))
      && r[3 * i + 1] == TrailHandle(tr, curve(t1), d, angle(t1))
  {
    RenderPointsPrefix(tr, curve, angle, d, n, i + 1, m);
    RenderPointsLength(tr, curve, angle, d, n, i);
    RenderPointsLength(tr, curve, angle, d, n, m);
    var pre := RenderPoints(tr, curve, angle, d, n, i);
    var piece := PiecePoints(tr, curve, angle, d, n, i);
    assert RenderPoints(tr, curve, angle, d, n, i + 1) == pre + piece;
    assert (pre + piece)[|pre|] == piece[0];
    assert (pre + piece)[|pre| + 1] == piece[1];
    assert (pre + piece)[|pre| + 2] == piece[2];
  }

  /** The first point of a drawing is the first handle, leaving the curve's start along its tangent there. */
  lemma RenderStarts(tr: Transcendentals, curve: real -> Vec2, angle: real -> real, d: real, n: nat, m: nat)
    requires n > 0 && m > 0
    ensures var r := RenderPoints(tr, curve, angle, d, n, m);
      |r| > 0 && r[0] == LeadHandle(tr, curve(0.0), d, angle(0.0))
  {
    RenderPointsPrefix(tr, curve, angle, d, n, 1, m);
    assert RenderPoints(tr, curve, angle, d, n, 1) == PiecePoints(tr, curve, angle, d, n, 0);
  }

  /**
   * The loop of `render`: for each of the n pieces along the curve, its
   * start point (after the first) and its two handles, d along the tangents
   * at its ends.
   */
  method DrawPieces(tr: Transcendentals, curve: real -> Vec2, angle: real -> real, d: real, n: nat) returns (result: seq<Vec2>)
    requires n > 0
    ensures result == RenderPoints(tr, curve, angle, d, n, n)
  {
    result := [];
    for i := 0 to n
      invariant result == RenderPoints(tr, curve, angle, d, n, i)
    {
      var t := (i as real) / (n as real);
      var t1 := t + 1.0 / (n as real);
      var xy0 := curve(t);
      var xy1 := curve(t1);
      var th0 := angle(t);
      var th1 := angle(t1);
      assert PiecePoints(tr, curve, angle, d, n, i) == PieceOf(tr, i == 0, xy0, th0, xy1, th1, d);
      ghost var before := result;
      if i != 0 {
        result := result + [xy0];
      }
      result := result + [LeadHandle(tr, xy0, d, th0), TrailHandle(tr, xy1, d, th1)];
      assert result == before + PieceOf(tr, i == 0, xy0, th0, xy1, th1, d);
    }
  }

  /**
   * The spiral curve family (`SpiroCurve`), with the Math functions and the
   * Euler-spiral integral it draws with.
   */
  datatype SpiroCurve = SpiroCurve(tr: Transcendentals, integ: Integral) {
    predicate Valid() {
      tr.pi > 0.0
    }

    /** A fitted segment drawn with n pieces. */
    function DrawSegment(seg: EulerSegment, n: nat): seq<Vec2>
      requires n > 0
    {
      RenderPoints(tr, SegCurve(tr, integ, seg), SegAngle(seg), HandleLength(n, seg.params.chord), n, n)
    }

    /** What `render` returns: 3 * 5 - 1 points, or the fit's failure. */
    function RenderSpec(th0: real, th1: real): Result<seq<Vec2>>
      requires Valid()
    {
      match EulerSegmentFor(tr, integ, th0, th1)
      case Ok(seg) => Ok(DrawSegment(seg, RenderPieces))
      case Err(e) => Err(e)
    }

    /** `computeCurvature`: the arctangents of the end curvatures of the fitted segment. */
    method ComputeCurvature(th0: real, th1: real) returns (r: Result<Aks>)
      requires Valid()
      ensures r.Ok? <==> FitEulerSpec(tr, integ, th0, th1).Ok?
      ensures r.Ok? ==>
        var e := SegmentOf(th0, FitEulerSpec(tr, integ, th0, th1).value).KEndpoints();
        r.value == Aks(tr.atan(e.k0), tr.atan(e.k1))
    {
      var seg := NewEulerSegment(tr, integ, th0, th1);
      if seg.Err? {
        return Err(seg.msg);
      }
      var kEndpoints := seg.value.KEndpoints();
      var ak0 := tr.atan(kEndpoints.k0);
      var ak1 := tr.atan(kEndpoints.k1);
      r := Ok(Aks(ak0, ak1));
    }

    /** `endpointTangent`: the spiral's end tangents need no correction. */
    function EndpointTangent(th: real): (r: real)
      ensures r == th
    {
      th
    }

    /** `render`: five cubic pieces along the fitted segment. */
    method Render(th0: real, th1: real) returns (r: Result<seq<Vec2>>)
      requires Valid()
      ensures r == RenderSpec(th0, th1)
    {
      var seg := NewEulerSegment(tr, integ, th0, th1);
      if seg.Err? {
        return Err(seg.msg);
      }
      var n := RenderPieces;
      var curve, angle := SegCurve(tr, integ, seg.value), SegAngle(seg.value);
      var result := DrawPieces(tr, curve, angle, HandleLength(n, seg.value.params.chord), n);
      r := Ok(result);
    }

    /** `render4`: the end curvatures are ignored. */
    method Render4(th0: real, th1: real, k0: Option<real>, k1: Option<real>) returns (r: Result<seq<Vec2>>)
      requires Valid()
      ensures r == RenderSpec(th0, th1)
    {
      r := Render(th0, th1);
    }
  }

  /** A successful render has 14 points, 3n - 1 for its n = 5 pieces, as the curve family contract asks. */
  lemma RenderSize(c: SpiroCurve, th0: real, th1: real)
    requires c.Valid() && c.RenderSpec(th0, th1).Ok?
    ensures |c.RenderSpec(th0, th1).value| == 3 * RenderPieces - 1 == 14
  {
    var seg := EulerSegmentFor(c.tr, c.integ, th0, th1).value;
    RenderPointsLength(c.tr, SegCurve(c.tr, c.integ, seg), SegAngle(seg), HandleLength(RenderPieces, seg.params.chord), RenderPieces, RenderPieces);
  }
}

=== FILE: splines.dfy ===
/**
 * `Spline` and `ControlPoint` of curves.js: a sequence of control points,
 * each a corner or smooth, possibly with given tangents, is cut into runs at
 * corners and at points with a given incoming tangent; each curved run is
 * solved as a `TwoParamSpline`, and the solved tangents and curvatures are
 * recorded per control point.
 */
module Splines {
  import opened Numerics
  import opened Bezier
  import opened TwoParam
  import BezPaths

  datatype PointType = Corner | Smooth

  /** A control point with its optional given incoming (`lth`) and outgoing (`rth`) tangents. */
  datatype ControlPoint = ControlPoint(pt: Vec2, ty: PointType, lth: Option<real>, rth: Option<real>)

  /**
   * What solving and blending record on a control point: the solved tangent
   * and the curvature arctangent on each side, and the blended curvature.
   * `None` is a field the source has not assigned (or has set to null).
   */
  datatype Derived = Derived(rTh: Option<real>, lTh: Option<real>, rAk: Option<real>, lAk: Option<real>,
                             kBlend: Option<real>)

  const Unsolved: Derived := Derived(None, None, None, None, None)

  /** `x % n` for a nonnegative x, as repeated subtraction (see `WrapIsMod`). */
  function Wrap(x: int, n: nat): (r: nat)
    requires n > 0 && x >= 0
    ensures r < n
    decreases x
  {
    if x < n then x else Wrap(x - n, n)
  }

  /** Repeated subtraction is the remainder that `%` computes. */
  lemma {:induction false} WrapIsMod(x: int, n: nat)
    requires n > 0 && x >= 0
    ensures Wrap(x, n) == x % n
    decreases x
  {
    if x < n {
      ModUnique(x, n, 0, x);
    } else {
      WrapIsMod(x - n, n);
      var q := (x - n) / n;
      ModUnique(x, n, q + 1, (x - n) % n);
    }
  }

  /** The array index `pt(i, start)` reads: `(i + start + length) % length`. */
  function Ix(n: nat, i: int, start: int): nat
    requires n > 0 && i + start + n >= 0
  {
    Wrap(i + start + n, n)
  }

  function Pt(pts: seq<ControlPoint>, i: int, start: int): ControlPoint
    requires |pts| > 0 && i + start + |pts| >= 0
  {
    pts[Ix(|pts|, i, start)]
  }

  /** Within one turn past `start` the index is plain, within the next it wraps once. */
  lemma IxWraps(n: nat, i: int, start: int)
    requires n > 0 && 0 <= i + start < 2 * n
    ensures Ix(n, i, start) == if i + start < n then i + start else i + start - n
  {
    var x := i + start + n;
    assert Wrap(x, n) == Wrap(x - n, n);
    if x - n >= n {
      assert Wrap(x - n, n) == Wrap(x - 2 * n, n);
    }
  }

  /** Distinct positions less than one turn apart read distinct control points. */
  lemma IxInjective(n: nat, a: int, b: int, start: int)
    requires n > 0 && 0 <= a + start && b + start < 2 * n && a < b < a + n
    ensures Ix(n, a, start) != Ix(n, b, start)
  {
    IxWraps(n, a, start);
    IxWraps(n, b, start);
  }

  /** Number of segments: one fewer than points for an open path. */
  function Length(pts: seq<ControlPoint>, closed: bool): int {
    |pts| - (if closed then 0 else 1)
  }

  /** Where a run of smooth points must end: a corner or a given incoming tangent. */
  predicate IsBreak(cp: ControlPoint) {
    cp.ty == Corner || cp.lth.Some?
  }

  /** The first break point at or after i, or |pts| when there is none. */
  function FirstBreak(pts: seq<ControlPoint>, i: nat): (r: nat)
    requires i <= |pts|
    ensures i <= r <= |pts|
    ensures r < |pts| ==> IsBreak(pts[r])
    ensures forall k :: i <= k < r ==> !IsBreak(pts[k])
    decreases |pts| - i
  {
    if i == |pts| then |pts| else if IsBreak(pts[i]) then i else FirstBreak(pts, i + 1)
  }

  /** `startIx`: a closed path starts at its first break point, if any. */
  function StartOf(pts: seq<ControlPoint>, closed: bool): (r: nat)
    ensures r == 0 || r < |pts|
  {
    if closed && FirstBreak(pts, 0) < |pts| then FirstBreak(pts, 0) else 0
  }

  /** `StartOf` is the first break of a closed path, and 0 otherwise. */
  lemma StartOfFirstBreak(pts: seq<ControlPoint>, closed: bool)
    ensures var r := StartOf(pts, closed);
      && (!closed ==> r == 0)
      && (closed && r > 0 ==> IsBreak(pts[r]) && forall k :: 0 <= k < r ==> !IsBreak(pts[k]))
      && (closed && r == 0 && |pts| > 0 ==> IsBreak(pts[0]) || forall k :: 0 <= k < |pts| ==> !IsBreak(pts[k]))
  {
  }

  /**
   * The end m of the run whose first segment ends at j: the first break
   * point from j on, or the last point.
   */
  function Break(pts: seq<ControlPoint>, closed: bool, start: nat, j: int): (m: int)
    requires 0 < |pts| && start < |pts| && 1 <= j <= Length(pts, closed)
    ensures j <= m <= Length(pts, closed)
    decreases Length(pts, closed) - j
  {
    if j == Length(pts, closed) || IsBreak(Pt(pts, j, start)) then j else Break(pts, closed, start, j + 1)
  }

  /** The run end is the first break point from j on (or the last point). */
  lemma {:induction false} BreakIsFirst(pts: seq<ControlPoint>, closed: bool, start: nat, j: int)
    requires 0 < |pts| && start < |pts| && 1 <= j <= Length(pts, closed)
    ensures var m := Break(pts, closed, start, j);
      && (m == Length(pts, closed) || IsBreak(Pt(pts, m, start)))
      && forall t :: j <= t < m ==> !IsBreak(Pt(pts, t, start))
    decreases Length(pts, closed) - j
  {
    if !(j == Length(pts, closed) || IsBreak(Pt(pts, j, start))) {
      BreakIsFirst(pts, closed, start, j + 1);
    }
  }

  /** A segment drawn as a straight line: no given tangent at either end, and nothing smooth after it. */
  predicate Straight(pts: seq<ControlPoint>, closed: bool, start: nat, h: int)
    requires 0 < |pts| && start < |pts| && 0 <= h < Length(pts, closed)
  {
    (h + 1 == Length(pts, closed) || Pt(pts, h + 1, start).ty == Corner)
    && Pt(pts, h, start).rth.None? && Pt(pts, h + 1, start).lth.None?
  }

  /** The points of the run from h to m. */
  function RunPts(pts: seq<ControlPoint>, start: nat, h: int, m: int): (r: seq<Vec2>)
    requires 0 < |pts| && 0 <= h <= m
    ensures |r| == m - h + 1
  {
    seq(m - h + 1, t requires 0 <= t <= m - h => Pt(pts, h + t, start).pt)
  }

  /** Direction of the chord of segment h. */
  function SegChordAngle(tr: Transcendentals, pts: seq<ControlPoint>, start: nat, h: int): real
    requires 0 < |pts| && 0 <= h
  {
    var a, b := Pt(pts, h, start).pt, Pt(pts, h + 1, start).pt;
    tr.atan2(b.y - a.y, b.x - a.x)
  }

  /**
   * What a curved run is handed to: the run's points and its given start and
   * end tangents in, one tangent per point out.
   */
  type RunSolver = (seq<Vec2>, Option<real>, Option<real>) -> seq<real>

  /** A run solver answers with one tangent per point. */
  ghost predicate OnePerPoint(solve: RunSolver) {
    forall rp, st, et :: |solve(rp, st, et)| == |rp|
  }

  /**
   * The run solver of `solve`: a `TwoParamSpline` seeded by `initialThs` and
   * relaxed by `NumIter` sweeps of `iterDumb`. Runs always have two points or
   * more; the shorter case only makes the function total.
   */
  function TwoParamSolver(curve: CurveFamily, tr: Transcendentals): RunSolver {
    (rp: seq<Vec2>, st: Option<real>, et: Option<real>) =>
      if |rp| < 2 then seq(|rp|, _ => 0.0) else SolveRun(curve, tr, rp, st, et)
  }

  /** A run solver returns the given end tangents at the ends of the run. */
  ghost predicate HonoursPins(solve: RunSolver)
    requires OnePerPoint(solve)
  {
    forall rp: seq<Vec2>, st: Option<real>, et: Option<real> | |rp| >= 2 ::
      && (st.Some? ==> solve(rp, st, et)[0] == st.value)
      && (et.Some? ==> solve(rp, st, et)[|rp| - 1] == et.value)
  }

  /** The `TwoParamSpline` solver keeps pinned end tangents. */
  lemma TwoParamSolverPins(curve: CurveFamily, tr: Transcendentals)
    ensures OnePerPoint(TwoParamSolver(curve, tr)) && HonoursPins(TwoParamSolver(curve, tr))
  {
    forall rp: seq<Vec2>, st: Option<real>, et: Option<real> | |rp| >= 2
      ensures && (st.Some? ==> TwoParamSolver(curve, tr)(rp, st, et)[0] == st.value)
              && (et.Some? ==> TwoParamSolver(curve, tr)(rp, st, et)[|rp| - 1] == et.value)
    {
      SolveRunPins(curve, tr, rp, st, et);
    }
  }

  /** The solved tangents of the curved run with head h. */
  function RunThs(solve: RunSolver, pts: seq<ControlPoint>, closed: bool, start: nat, h: int): (r: seq<real>)
    requires 0 < |pts| && start < |pts| && 0 <= h < Length(pts, closed)
  {
    var m := Break(pts, closed, start, h + 1);
    solve(RunPts(pts, start, h, m), Pt(pts, h, start).rth, Pt(pts, m, start).lth)
  }

  function SetRTh(d: seq<Derived>, p: nat, v: real): (r: seq<Derived>)
    requires p < |d|
    ensures |r| == |d|
  {
    d[p := d[p].(rTh := Some(v))]
  }

  function SetLTh(d: seq<Derived>, p: nat, v: real): (r: seq<Derived>)
    requires p < |d|
    ensures |r| == |d|
  {
    d[p := d[p].(lTh := Some(v))]
  }

  function SetRAk(d: seq<Derived>, p: nat, v: real): (r: seq<Derived>)
    requires p < |d|
    ensures |r| == |d|
  {
    d[p := d[p].(rAk := Some(v))]
  }

  function SetLAk(d: seq<Derived>, p: nat, v: real): (r: seq<Derived>)
    requires p < |d|
    ensures |r| == |d|
  {
    d[p := d[p].(lAk := Some(v))]
  }

  /** The curvature arctangents `curve` gives segment j of a run, from the run's solved tangents. */
  function SegAks(curve: CurveFamily, tr: Transcendentals, rp: seq<Vec2>, ths: seq<real>, j: nat): Aks
    requires j + 1 < |rp| && |ths| == |rp|
  {
    var a := SegThsOf(tr, rp, ths, j);
    curve.computeCurvature(a.th0, a.th1)
  }

  /** The curvature arctangents of every segment of a run, in order. */
  function RunAks(curve: CurveFamily, tr: Transcendentals, rp: seq<Vec2>, ths: seq<real>): (r: seq<Aks>)
    requires 0 < |rp| == |ths|
    ensures |r| == |ths| - 1
  {
    seq(|ths| - 1, j requires 0 <= j < |ths| - 1 => SegAks(curve, tr, rp, ths, j))
  }

  /**
   * What a curved run with head h records for its segment k: tangents at both
   * ends from `ths`, curvatures at both ends from `aks`, both indexed from h.
   */
  function WriteSeg(pts: seq<ControlPoint>, start: nat, d: seq<Derived>, h: int, ths: seq<real>, aks: seq<Aks>,
                    k: int): (r: seq<Derived>)
    requires 0 < |pts| == |d| && 0 <= h <= k && k + 1 - h < |ths| && k - h < |aks|
    ensures |r| == |d|
  {
    var p, q := Ix(|pts|, k, start), Ix(|pts|, k + 1, start);
    var a := aks[k - h];
    SetLAk(SetRAk(SetLTh(SetRTh(d, p, ths[k - h]), q, ths[k + 1 - h]), p, a.ak0), q, a.ak1)
  }

  /** Segments k .. m - 1 of a curved run recorded in order. */
  function WriteSegs(pts: seq<ControlPoint>, start: nat, d: seq<Derived>, h: int, ths: seq<real>, aks: seq<Aks>,
                     k: int, m: int): (r: seq<Derived>)
    requires 0 < |pts| == |d| && 0 <= h <= k && m - h + 1 == |ths| && m - h == |aks|
    ensures |r| == |d|
    decreases m - k
  {
    if k >= m then d
    else WriteSegs(pts, start, WriteSeg(pts, start, d, h, ths, aks, k), h, ths, aks, k + 1, m)
  }

  /** What the run with head h records. */
  function WriteRun(curve: CurveFamily, tr: Transcendentals, solve: RunSolver, pts: seq<ControlPoint>, closed: bool,
                    start: nat, d: seq<Derived>, h: int): (r: seq<Derived>)
    requires OnePerPoint(solve)
    requires 0 < |pts| == |d| && start < |pts| && 0 <= h < Length(pts, closed)
    ensures |r| == |d|
  {
    if Straight(pts, closed, start, h) then
      var th := SegChordAngle(tr, pts, start, h);
      SetLTh(SetRTh(d, Ix(|pts|, h, start), th), Ix(|pts|, h + 1, start), th)
    else
      var m := Break(pts, closed, start, h + 1);
      var ths := RunThs(solve, pts, closed, start, h);
      WriteSegs(pts, start, d, h, ths, RunAks(curve, tr, RunPts(pts, start, h, m), ths), h, m)
  }

  /** `solve` from the run with head h on. */
  function SolveFrom(curve: CurveFamily, tr: Transcendentals, solve: RunSolver, pts: seq<ControlPoint>, closed: bool,
                     start: nat, d: seq<Derived>, h: int): (r: seq<Derived>)
    requires OnePerPoint(solve)
    requires |pts| == |d| && start < |pts| && 0 <= h
    ensures |r| == |d|
    decreases Length(pts, closed) - h
  {
    if h >= Length(pts, closed) then d
    else
      SolveFrom(curve, tr, solve, pts, closed, start, WriteRun(curve, tr, solve, pts, closed, start, d, h),
                Break(pts, closed, start, h + 1))
  }

  /** What `solve` records. */
  function Solved(curve: CurveFamily, tr: Transcendentals, solve: RunSolver, pts: seq<ControlPoint>, closed: bool,
                  d: seq<Derived>): (r: seq<Derived>)
    requires OnePerPoint(solve)
    requires |pts| == |d|
    ensures |r| == |d|
  {
    if |pts| == 0 then d else SolveFrom(curve, tr, solve, pts, closed, StartOf(pts, closed), d, 0)
  }

  /** One run of `solve`: record the run with head h, continue from its end. */
  lemma SolveFromStep(curve: CurveFamily, tr: Transcendentals, solve: RunSolver, pts: seq<ControlPoint>, closed: bool,
                      start: nat, d: seq<Derived>, h: int)
    requires OnePerPoint(solve)
    requires 0 < |pts| == |d| && start < |pts| && 0 <= h < Length(pts, closed)
    ensures SolveFrom(curve, tr, solve, pts, closed, start, d, h)
      == SolveFrom(curve, tr, solve, pts, closed, start, WriteRun(curve, tr, solve, pts, closed, start, d, h),
                   Break(pts, closed, start, h + 1))
  {
  }

  /** A curved run records the tangents its solver returns for its own points. */
  lemma WriteRunCurved(curve: CurveFamily, tr: Transcendentals, pts: seq<ControlPoint>, closed: bool, start: nat,
                       d: seq<Derived>, h: int, rp: seq<Vec2>, ths: seq<real>)
    requires 0 < |pts| == |d| && start < |pts| && 0 <= h < Length(pts, closed)
    requires !Straight(pts, closed, start, h)
    requires rp == RunPts(pts, start, h, Break(pts, closed, start, h + 1))
    requires ths == SolveRun(curve, tr, rp, Pt(pts, h, start).rth, Pt(pts, Break(pts, closed, start, h + 1), start).lth)
    ensures WriteSegs(pts, start, d, h, ths, RunAks(curve, tr, rp, ths), h, Break(pts, closed, start, h + 1))
      == WriteRun(curve, tr, TwoParamSolver(curve, tr), pts, closed, start, d, h)
  {
  }

  /** Point i counted from index 0, as `computeCurvatureBlending` and `render` count, is `pts[i]`. */
  lemma IxFromZero(n: nat, i: int)
    requires 0 <= i < n
    ensures Ix(n, i, 0) == i
  {
    IxWraps(n, i, 0);
  }

  /** `chordLen(i)`: length of the chord from point i to point i + 1, counted from index 0. */
  function ChordLenAt(tr: Transcendentals, pts: seq<ControlPoint>, i: int): real
    requires |pts| > 0 && i + |pts| >= 0
  {
    var a, b := Pt(pts, i, 0).pt, Pt(pts, i + 1, 0).pt;
    tr.hypot(b.x - a.x, b.y - a.y)
  }

  /** Chord i runs from point i to point i + 1, and the last one closes back to point 0. */
  lemma ChordLenBetween(tr: Transcendentals, pts: seq<ControlPoint>, i: int)
    requires 0 <= i < |pts|
    ensures var j := if i + 1 < |pts| then i + 1 else 0;
      ChordLenAt(tr, pts, i) == tr.hypot(pts[j].pt.x - pts[i].pt.x, pts[j].pt.y - pts[i].pt.y)
  {
    IxWraps(|pts|, i, 0);
    IxWraps(|pts|, i + 1, 0);
  }

  /** `Math.PI / 2 - 1e-6`: a curvature arctangent beyond it marks a reversal, which is not blended. */
  function BlendThresh(tr: Transcendentals): real {
    tr.pi / 2.0 - 0.000001
  }

  /** `Math.abs(a) > thresh`; an unset field reads as NaN, which exceeds nothing. */
  predicate Exceeds(a: Option<real>, thresh: real) {
    a.Some? && Abs(a.value) > thresh
  }

  /** `Math.sign(a) != Math.sign(b)`; an unset field has sign NaN, which differs from every sign. */
  predicate SignsDiffer(a: Option<real>, b: Option<real>) {
    a.None? || b.None? || Sign(a.value) != Sign(b.value)
  }

  /** `2 / (1 / x + 1 / y)`. */
  function HarmonicMean(x: real, y: real): real {
    Quot(2.0, Quot(1.0, x) + Quot(1.0, y))
  }

  /**
   * The `kBlend` that `computeCurvatureBlending` gives point i, from its
   * curvature arctangents: nothing unless the point is smooth with a given
   * incoming tangent and neither side is a reversal; 0 when the sides bend
   * opposite ways; else the harmonic mean of the two curvatures. The
   * outgoing side is divided by the incoming chord and the incoming side by
   * the outgoing chord, as in curves.js.
   */
  function BlendAt(tr: Transcendentals, pts: seq<ControlPoint>, rAk: Option<real>, lAk: Option<real>, i: int): Option<real>
    requires 0 <= i < |pts|
  {
    var cp := pts[i];
    if !(cp.ty == Smooth && cp.lth.Some?) then None
    else if Exceeds(rAk, BlendThresh(tr)) || Exceeds(lAk, BlendThresh(tr)) then None
    else if SignsDiffer(rAk, lAk) then Some(0.0)
    else
      var rK := Quot(tr.tan(rAk.value), ChordLenAt(tr, pts, i - 1));
      var lK := Quot(tr.tan(lAk.value), ChordLenAt(tr, pts, i));
      Some(HarmonicMean(rK, lK))
  }

  /** What `computeCurvatureBlending` leaves: every `kBlend` reset, then set at the points of the segments. */
  function Blended(tr: Transcendentals, pts: seq<ControlPoint>, closed: bool, d: seq<Derived>): (r: seq<Derived>)
    requires |pts| == |d|
    ensures |r| == |d|
  {
    seq(|d|, p requires 0 <= p < |d| =>
      d[p].(kBlend := if p < Length(pts, closed) then BlendAt(tr, pts, d[p].rAk, d[p].lAk, p) else None))
  }

  /** A solved tangent as `render` reads it; an unset one is taken as 0. */
  function TangentOr0(th: Option<real>): real {
    if th.Some? then th.value else 0.0
  }

  /** The local-to-absolute map of a segment: the chord (dx, dy) from p0 is the local unit x axis. */
  function Place(p0: Vec2, dx: real, dy: real, q: Vec2): Vec2 {
    Vec2(p0.x + dx * q.x - dy * q.y, p0.y + dy * q.x + dx * q.y)
  }

  /** The local origin lands on the segment's start and the local unit point on its end. */
  lemma PlaceEnds(p0: Vec2, dx: real, dy: real)
    ensures Place(p0, dx, dy, Vec2(0.0, 0.0)) == p0
    ensures Place(p0, dx, dy, Vec2(1.0, 0.0)) == Vec2(p0.x + dx, p0.y + dy)
  {
  }

  /** The coordinates of the placed points, x then y for each. */
  function PlacedCoords(p0: Vec2, dx: real, dy: real, qs: seq<Vec2>): (r: seq<real>)
    ensures |r| == 2 * |qs|
  {
    if |qs| == 0 then []
    else
      var a := Place(p0, dx, dy, qs[|qs| - 1]);
      PlacedCoords(p0, dx, dy, qs[..|qs| - 1]) + [a.x, a.y]
  }

  /** The placing loop of `render`: each local point, rotated and scaled by (dx, dy) and moved to p0, as x then y. */
  method PlaceAll(p0: Vec2, dx: real, dy: real, qs: seq<Vec2>) returns (c: seq<real>)
    ensures c == PlacedCoords(p0, dx, dy, qs)
  {
    c := [];
    for j := 0 to |qs|
      invariant c == PlacedCoords(p0, dx, dy, qs[..j])
    {
      ghost var c0 := c;
      var q := qs[j];
      var u := p0.x + dx * q.x - dy * q.y;
      var v := p0.y + dy * q.x + dx * q.y;
      c := c + [u];
      c := c + [v];
      assert qs[..j + 1][..j] == qs[..j] && qs[..j + 1][j] == q;
      assert Place(p0, dx, dy, q) == Vec2(u, v);
      assert c == c0 + [u, v];
    }
    assert qs[..|qs|] == qs;
  }

  /** A blended curvature scaled to a segment of the given chord length; no blend gives none. */
  function EndCurvature(kBlend: Option<real>, chord: real): (r: Option<real>)
    ensures r.Some? <==> kBlend.Some?
  {
    if kBlend.Some? then Some(kBlend.value * chord) else None
  }

  /** The interior control points `render4` gives segment i (from index 0), in the segment's local frame. */
  function SegLocal(curve: CurveFamily, tr: Transcendentals, pts: seq<ControlPoint>, d: seq<Derived>, i: int): seq<Vec2>
    requires 0 < |pts| == |d| && 0 <= i
  {
    var p, q := Ix(|pts|, i, 0), Ix(|pts|, i + 1, 0);
    var a, b := pts[p].pt, pts[q].pt;
    var dx, dy := b.x - a.x, b.y - a.y;
    var chth := tr.atan2(dy, dx);
    var chord := tr.hypot(dy, dx);
    var th0 := tr.mod2pi(TangentOr0(d[p].rTh) - chth);
    var th1 := tr.mod2pi(chth - TangentOr0(d[q].lTh));
    var k0 := EndCurvature(d[p].kBlend, chord);
    var k1 := EndCurvature(d[q].kBlend, chord);
    curve.render4(th0, th1, k0, k1)
  }

  /** The flat coordinate list `c` of segment i: the placed interior points, then the end point. */
  function SegCoords(curve: CurveFamily, tr: Transcendentals, pts: seq<ControlPoint>, d: seq<Derived>, i: int): (c: seq<real>)
    requires 0 < |pts| == |d| && 0 <= i
  {
    var a, b := Pt(pts, i, 0).pt, Pt(pts, i + 1, 0).pt;
    PlacedCoords(a, b.x - a.x, b.y - a.y, SegLocal(curve, tr, pts, d, i)) + [b.x, b.y]
  }

  /** One curveto per six coordinates of c, in order; fewer than six left over give none. */
  function Curvetos(c: seq<real>): (r: seq<BezPaths.Cmd>)
    decreases |c|
  {
    if |c| < 6 then []
    else [BezPaths.Cmd.CurveTo(c[0], c[1], c[2], c[3], c[4], c[5])] + Curvetos(c[6..])
  }

  /** The curveto loop of `render`: one curveto per six coordinates of c. */
  method EmitCurvetos(path: BezPaths.BezPath, c: seq<real>)
    requires Wrap(|c|, 6) == 0
    modifies path
    ensures path.cmds == old(path.cmds) + Curvetos(c)
  {
    var j := 0;
    while j < |c|
      invariant 0 <= j <= |c| && Wrap(|c| - j, 6) == 0
      invariant old(path.cmds) + Curvetos(c) == path.cmds + Curvetos(c[j..])
      decreases |c| - j
    {
      assert Wrap(|c| - j, 6) == Wrap(|c| - j - 6, 6);
      path.CurveTo(c[j], c[j + 1], c[j + 2], c[j + 3], c[j + 4], c[j + 5]);
      assert c[j..][6..] == c[j + 6..];
      j := j + 6;
    }
  }

  /** `curve.render4` meets the `TwoParamCurve` contract: 3n - 1 interior points for n cubic pieces. */
  ghost predicate PieceCount(curve: CurveFamily) {
    forall th0: real, th1: real, k0: Option<real>, k1: Option<real> :: Wrap(|curve.render4(th0, th1, k0, k1)|, 3) == 2
  }

  /** With 3n - 1 interior points, the coordinate list of a segment splits into whole curvetos. */
  lemma CoordsInSixes(len: nat)
    requires Wrap(len, 3) == 2
    ensures Wrap(2 * len + 2, 6) == 0
  {
    WrapIsMod(len, 3);
    WrapIsMod(2 * len + 2, 6);
    var a := len / 3;
    assert 2 * len + 2 == 6 * (a + 1) + 0;
    ModUnique(2 * len + 2, 6, a + 1, 0);
  }

  /** What `render` emits for segment i: its mark, then one curveto per six coordinates. */
  function SegCmds(curve: CurveFamily, tr: Transcendentals, pts: seq<ControlPoint>, d: seq<Derived>, i: int): seq<BezPaths.Cmd>
    requires 0 < |pts| == |d| && 0 <= i
  {
    [BezPaths.Cmd.Mark(i)] + Curvetos(SegCoords(curve, tr, pts, d, i))
  }

  /** The commands of segments 0 .. i - 1, in order, those of segment k being seg(k). */
  function SegsUpTo(seg: nat -> seq<BezPaths.Cmd>, i: nat): seq<BezPaths.Cmd> {
    if i == 0 then [] else SegsUpTo(seg, i - 1) + seg(i - 1)
  }

  /** The commands of each segment of a path. */
  function SegFn(curve: CurveFamily, tr: Transcendentals, pts: seq<ControlPoint>, d: seq<Derived>): nat -> seq<BezPaths.Cmd>
    requires 0 < |pts| == |d|
  {
    (k: nat) => if 0 < |pts| == |d| then SegCmds(curve, tr, pts, d, k) else []
  }

  /** seg gives the commands of each segment (stated so that only a mention of a segment's commands unfolds them). */
  ghost predicate SegsMatch(seg: nat -> seq<BezPaths.Cmd>, curve: CurveFamily, tr: Transcendentals, pts: seq<ControlPoint>, d: seq<Derived>)
    requires 0 < |pts| == |d|
  {
    forall k: nat {:trigger SegCmds(curve, tr, pts, d, k)} :: seg(k) == SegCmds(curve, tr, pts, d, k)
  }

  lemma SegFnMatches(curve: CurveFamily, tr: Transcendentals, pts: seq<ControlPoint>, d: seq<Derived>)
    requires 0 < |pts| == |d|
    ensures SegsMatch(SegFn(curve, tr, pts, d), curve, tr, pts, d)
  {
  }

  /** What `render` emits: a moveto to the first point, every segment, a closepath for a closed path. */
  function RenderCmds(curve: CurveFamily, tr: Transcendentals, pts: seq<ControlPoint>, closed: bool, d: seq<Derived>): seq<BezPaths.Cmd>
    requires |pts| == |d|
  {
    if |pts| == 0 then []
    else
      [BezPaths.Cmd.MoveTo(pts[0].pt.x, pts[0].pt.y)] + SegsUpTo(SegFn(curve, tr, pts, d), Length(pts, closed))
        + (if closed then [BezPaths.Cmd.ClosePath] else [])
  }

  class Spline {
    const ctrlPts: seq<ControlPoint>
    const isClosed: bool
    const curve: CurveFamily
    const tr: Transcendentals
    /** The fields `solve` and `computeCurvatureBlending` set on each control point. */
    var derived: seq<Derived>

    ghost predicate Valid()
      reads this
    {
      |derived| == |ctrlPts|
    }

    constructor(ctrlPts: seq<ControlPoint>, isClosed: bool, curve: CurveFamily, tr: Transcendentals)
      ensures this.ctrlPts == ctrlPts && this.isClosed == isClosed && this.curve == curve && this.tr == tr
      ensures Valid() && forall p :: 0 <= p < |derived| ==> derived[p] == Unsolved
    {
      this.ctrlPts := ctrlPts;
      this.isClosed := isClosed;
      this.curve := curve;
      this.tr := tr;
      derived := seq(|ctrlPts|, _ => Unsolved);
    }

    /** `startIx`. */
    method StartIx() returns (r: nat)
      ensures r == StartOf(ctrlPts, isClosed)
    {
      if !isClosed {
        return 0;
      }
      var i := 0;
      while i < |ctrlPts|
        invariant 0 <= i <= |ctrlPts|
        invariant FirstBreak(ctrlPts, 0) == FirstBreak(ctrlPts, i)
        decreases |ctrlPts| - i
      {
        var pt := ctrlPts[i];
        if pt.ty == Corner || pt.lth.Some? {
          return i;
        }
        i := i + 1;
      }
      return 0;
    }

    /** `solve`. */
    method Solve()
      requires Valid()
      modifies this
      ensures Valid() && derived == Solved(curve, tr, TwoParamSolver(curve, tr), ctrlPts, isClosed, old(derived))
    {
      var start := StartIx();
      var length := |ctrlPts| - (if isClosed then 0 else 1);
      var i := 0;
      while i < length
        invariant Valid() && 0 <= i
        invariant i < length ==> start < |ctrlPts|
        invariant Solved(curve, tr, TwoParamSolver(curve, tr), ctrlPts, isClosed, old(derived))
          == (if |ctrlPts| == 0 then derived
              else SolveFrom(curve, tr, TwoParamSolver(curve, tr), ctrlPts, isClosed, start, derived, i))
        decreases length - i
      {
        SolveFromStep(curve, tr, TwoParamSolver(curve, tr), ctrlPts, isClosed, start, derived, i);
        i := SolveRunAt(start, i);
      }
    }

    /** One turn of the loop of `solve`: the run with head i is recorded; returns its end. */
    method SolveRunAt(start: nat, i: int) returns (m: int)
      requires Valid() && start < |ctrlPts| && 0 <= i < Length(ctrlPts, isClosed)
      modifies this
      ensures Valid() && m == Break(ctrlPts, isClosed, start, i + 1)
      ensures derived == WriteRun(curve, tr, TwoParamSolver(curve, tr), ctrlPts, isClosed, start, old(derived), i)
    {
      var length := |ctrlPts| - (if isClosed then 0 else 1);
      var ptI := Pt(ctrlPts, i, start);
      var ptI1 := Pt(ctrlPts, i + 1, start);
      if (i + 1 == length || ptI1.ty == Corner) && ptI.rth.None? && ptI1.lth.None? {
        var dx := ptI1.pt.x - ptI.pt.x;
        var dy := ptI1.pt.y - ptI.pt.y;
        var th := tr.atan2(dy, dx);
        derived := SetRTh(derived, Ix(|ctrlPts|, i, start), th);
        derived := SetLTh(derived, Ix(|ctrlPts|, i + 1, start), th);
        m := i + 1;
      } else {
        var j := SolveCurveRun(start, i);
        m := j - 1;
      }
    }

    /** The curved-run branch of `solve`: solves the run with head i and records it. */
    method SolveCurveRun(start: nat, i: int) returns (j: int)
      requires Valid() && start < |ctrlPts| && 0 <= i < Length(ctrlPts, isClosed)
      requires !Straight(ctrlPts, isClosed, start, i)
      modifies this
      ensures Valid() && j == Break(ctrlPts, isClosed, start, i + 1) + 1
      ensures derived == WriteRun(curve, tr, TwoParamSolver(curve, tr), ctrlPts, isClosed, start, old(derived), i)
    {
      var innerPts, m := CollectRun(start, i);
      var ths := SolveInner(curve, tr, innerPts, Pt(ctrlPts, i, start).rth, Pt(ctrlPts, m, start).lth);
      WriteRunCurved(curve, tr, ctrlPts, isClosed, start, derived, i, innerPts, ths);
      WriteCurveRun(start, i, m, innerPts, ths);
      j := m + 1;
    }

    /** `computeCurvatureBlending`: reset every `kBlend`, then blend at the points of the segments. */
    method ComputeCurvatureBlending()
      requires Valid()
      modifies this
      ensures Valid() && derived == Blended(tr, ctrlPts, isClosed, old(derived))
    {
      for p := 0 to |derived|
        invariant Valid()
        invariant forall q :: 0 <= q < p ==> derived[q] == old(derived)[q].(kBlend := None)
        invariant forall q :: p <= q < |derived| ==> derived[q] == old(derived)[q]
      {
        derived := derived[p := derived[p].(kBlend := None)];
      }
      var length := |ctrlPts| - (if isClosed then 0 else 1);
      var i := 0;
      while i < length
        invariant Valid() && 0 <= i <= (if length < 0 then 0 else length)
        invariant forall q :: 0 <= q < |derived| && q < i ==>
          derived[q] == old(derived)[q].(kBlend := BlendAt(tr, ctrlPts, old(derived)[q].rAk, old(derived)[q].lAk, q))
        invariant forall q :: i <= q < |derived| ==> derived[q] == old(derived)[q].(kBlend := None)
        decreases length - i
      {
        BlendPoint(i);
        i := i + 1;
      }
      assert forall q | 0 <= q < |derived| :: derived[q] == Blended(tr, ctrlPts, isClosed, old(derived))[q];
    }

    /** One turn of the blending loop of `computeCurvatureBlending`: point i, whose `kBlend` is reset. */
    method BlendPoint(i: int)
      requires Valid() && 0 <= i < |ctrlPts| && derived[i].kBlend.None?
      modifies this
      ensures Valid()
      ensures derived == old(derived)[i := old(derived)[i].(kBlend := BlendAt(tr, ctrlPts, old(derived)[i].rAk, old(derived)[i].lAk, i))]
    {
      IxFromZero(|ctrlPts|, i);
      var x := Ix(|ctrlPts|, i, 0);
      var cp, dv := Pt(ctrlPts, i, 0), derived[x];
      if cp.ty == Smooth && cp.lth.Some? {
        var thresh := tr.pi / 2.0 - 0.000001;
        if (dv.rAk.Some? && Abs(dv.rAk.value) > thresh) || (dv.lAk.Some? && Abs(dv.lAk.value) > thresh) {
          return;
        }
        if dv.rAk.None? || dv.lAk.None? || Sign(dv.rAk.value) != Sign(dv.lAk.value) {
          derived := derived[x := dv.(kBlend := Some(0.0))];
        } else {
          var rK := Quot(tr.tan(dv.rAk.value), ChordLenAt(tr, ctrlPts, i - 1));
          var lK := Quot(tr.tan(dv.lAk.value), ChordLenAt(tr, ctrlPts, i));
          derived := derived[x := dv.(kBlend := Some(Quot(2.0, Quot(1.0, rK) + Quot(1.0, lK))))];
        }
      }
    }

    /** `render`: a new path holding a moveto, each segment's mark and curvetos, and a closepath if closed. */
    method Render() returns (path: BezPaths.BezPath)
      requires Valid() && PieceCount(curve)
      ensures fresh(path) && path.cmds == RenderCmds(curve, tr, ctrlPts, isClosed, derived)
    {
      path := new BezPaths.BezPath();
      if |ctrlPts| == 0 {
        return;
      }
      var pt0 := ctrlPts[0];
      path.MoveTo(pt0.pt.x, pt0.pt.y);
      ghost var head := [BezPaths.Cmd.MoveTo(pt0.pt.x, pt0.pt.y)];
      assert path.cmds == head;
      ghost var seg := SegFn(curve, tr, ctrlPts, derived);
      SegFnMatches(curve, tr, ctrlPts, derived);
      RenderSegments(path, seg);
      ghost var body := head + SegsUpTo(seg, Length(ctrlPts, isClosed));
      assert path.cmds == body;
      if isClosed {
        path.ClosePath();
        assert path.cmds == body + [BezPaths.Cmd.ClosePath];
      } else {
        assert body + [] == body;
      }
    }

    /** The loop of `render` over the segments, seg(k) being the commands of segment k. */
    method RenderSegments(path: BezPaths.BezPath, ghost seg: nat -> seq<BezPaths.Cmd>)
      requires Valid() && 0 < |ctrlPts| && PieceCount(curve) && SegsMatch(seg, curve, tr, ctrlPts, derived)
      modifies path
      ensures path.cmds == old(path.cmds) + SegsUpTo(seg, Length(ctrlPts, isClosed))
    {
      var d := derived;
      var length := |ctrlPts| - (if isClosed then 0 else 1);
      var i := 0;
      while i < length
        invariant 0 <= i <= length
        invariant path.cmds == old(path.cmds) + SegsUpTo(seg, i)
        decreases length - i
      {
        RenderSegment(path, i, d, seg);
        i := i + 1;
      }
    }

    /** One turn of the loop of `render`: the mark and the curvetos of segment i, read from d, the current `derived`. */
    method RenderSegment(path: BezPaths.BezPath, i: nat, d: seq<Derived>, ghost seg: nat -> seq<BezPaths.Cmd>)
      requires Valid() && 0 < |ctrlPts| && PieceCount(curve) && d == derived && SegsMatch(seg, curve, tr, ctrlPts, d)
      modifies path
      ensures path.cmds == old(path.cmds) + seg(i)
    {
      path.Mark(i);
      var c := SegmentCoords(i);
      CoordsInSixes(|SegLocal(curve, tr, ctrlPts, d, i)|);
      EmitCurvetos(path, c);
      assert seg(i) == SegCmds(curve, tr, ctrlPts, d, i);
    }

    /** The coordinate list `c` of segment i: `render4`'s points placed on the chord, then the end point. */
    method SegmentCoords(i: nat) returns (c: seq<real>)
      requires Valid() && 0 < |ctrlPts|
      ensures c == SegCoords(curve, tr, ctrlPts, derived, i)
    {
      var x, y := Ix(|ctrlPts|, i, 0), Ix(|ctrlPts|, i + 1, 0);
      var ptI, ptI1 := Pt(ctrlPts, i, 0), Pt(ctrlPts, i + 1, 0);
      var dx, dy := ptI1.pt.x - ptI.pt.x, ptI1.pt.y - ptI.pt.y;
      var chth := tr.atan2(dy, dx);
      var chord := tr.hypot(dy, dx);
      var th0 := tr.mod2pi(TangentOr0(derived[x].rTh) - chth);
      var th1 := tr.mod2pi(chth - TangentOr0(derived[y].lTh));
      var k0 := EndCurvature(derived[x].kBlend, chord);
      var k1 := EndCurvature(derived[y].kBlend, chord);
      var render := curve.render4(th0, th1, k0, k1);
      assert render == SegLocal(curve, tr, ctrlPts, derived, i);
      c := PlaceAll(ptI.pt, dx, dy, render);
      c := c + [ptI1.pt.x, ptI1.pt.y];
    }

    /** The points of the run with head i: up to the next break point m, or the last point. */
    method CollectRun(start: nat, i: int) returns (innerPts: seq<Vec2>, m: int)
      requires start < |ctrlPts| && 0 <= i < Length(ctrlPts, isClosed)
      ensures m == Break(ctrlPts, isClosed, start, i + 1) && innerPts == RunPts(ctrlPts, start, i, m)
    {
      var length := |ctrlPts| - (if isClosed then 0 else 1);
      ghost var b := Break(ctrlPts, isClosed, start, i + 1);
      innerPts := [Pt(ctrlPts, i, start).pt];
      var j := i + 1;
      while j < length + 1
        invariant i + 1 <= j <= length + 1
        invariant innerPts == RunPts(ctrlPts, start, i, j - 1)
        invariant j <= length ==> Break(ctrlPts, isClosed, start, j) == b
        invariant j == length + 1 ==> b == length
        decreases length + 1 - j
      {
        var ptJ := Pt(ctrlPts, j, start);
        innerPts := innerPts + [ptJ.pt];
        j := j + 1;
        if ptJ.ty == Corner || ptJ.lth.Some? {
          break;
        }
      }
      m := j - 1;
    }

    /** The write loop of a curved run: tangents and curvatures of segments i .. m - 1. */
    method WriteCurveRun(start: nat, i: int, m: int, rp: seq<Vec2>, ths: seq<real>)
      requires Valid() && 0 < |ctrlPts| && 0 <= i < m && m - i + 1 == |rp| == |ths|
      modifies this
      ensures Valid() && derived == WriteSegs(ctrlPts, start, old(derived), i, ths, RunAks(curve, tr, rp, ths), i, m)
    {
      ghost var aks := RunAks(curve, tr, rp, ths);
      var k := i;
      while k < m
        invariant i <= k <= m && Valid()
        invariant WriteSegs(ctrlPts, start, derived, i, ths, aks, k, m)
          == WriteSegs(ctrlPts, start, old(derived), i, ths, aks, i, m)
      {
        var segThs := SegThsOf(tr, rp, ths, k - i);
        var a := curve.computeCurvature(segThs.th0, segThs.th1);
        assert a == aks[k - i];
        WriteSegAt(start, i, k, ths, aks, a);
        k := k + 1;
      }
    }

    /** One pass of that loop: tangents of segment k from `ths`, its curvatures `a`. */
    method WriteSegAt(start: nat, h: int, k: int, ths: seq<real>, ghost aks: seq<Aks>, a: Aks)
      requires Valid() && 0 < |ctrlPts| && 0 <= h <= k && k + 1 - h < |ths| && k - h < |aks| && a == aks[k - h]
      modifies this
      ensures Valid() && derived == WriteSeg(ctrlPts, start, old(derived), h, ths, aks, k)
    {
      var p, q := Ix(|ctrlPts|, k, start), Ix(|ctrlPts|, k + 1, start);
      derived := SetRTh(derived, p, ths[k - h]);
      derived := SetLTh(derived, q, ths[k + 1 - h]);
      derived := SetRAk(derived, p, a.ak0);
      derived := SetLAk(derived, q, a.ak1);
    }
  }
}

=== FILE: tridiag.dfy ===
/**
 * `tridiag` of curves.js: the Thomas algorithm for the tridiagonal system
 *
 *   a[i] x[i-1] + b[i] x[i] + c[i] x[i+1] = d[i],   0 <= i < n,
 *
 * where n is the length of x. It overwrites b and d during forward
 * elimination and then fills x by back substitution.
 */
module Tridiag {
  import opened Numerics

  /** The coefficients of a system of n rows (the arrays may be longer; c[n - 1] is never read, so c needs only n - 1 entries). */
  datatype System = System(a: seq<real>, b: seq<real>, c: seq<real>, d: seq<real>)

  ghost predicate Fits(s: System, n: nat) {
    |s.a| >= n && |s.b| >= n && |s.c| >= n - 1 && |s.d| >= n
  }

  /** v - m w: one elimination or substitution update. */
  function Reduce(v: real, m: real, w: real): real {
    v - m * w
  }

  /** Multiplier of row i in the elimination: a[i] / (pivot i-1). */
  function Mult(s: System, n: nat, i: nat): real
    requires Fits(s, n) && 0 < i < n
    decreases i, 0
  {
    Quot(s.a[i], Pivot(s, n, i - 1))
  }

  /** b[i] after forward elimination. */
  function Pivot(s: System, n: nat, i: nat): real
    requires Fits(s, n) && i < n
    decreases i, 1
  {
    if i == 0 then s.b[0] else Reduce(s.b[i], Mult(s, n, i), s.c[i - 1])
  }

  /** d[i] after forward elimination. */
  function Rhs(s: System, n: nat, i: nat): real
    requires Fits(s, n) && i < n
  {
    if i == 0 then s.d[0] else Reduce(s.d[i], Mult(s, n, i), Rhs(s, n, i - 1))
  }

  /** x[i] after back substitution. */
  function Sol(s: System, n: nat, i: nat): real
    requires Fits(s, n) && i < n
    decreases n - i
  {
    if i == n - 1 then Quot(Rhs(s, n, i), Pivot(s, n, i))
    else Quot(Reduce(Rhs(s, n, i), s.c[i], Sol(s, n, i + 1)), Pivot(s, n, i))
  }

  /** Left-hand side of row i of the original system at the computed x. */
  function RowValue(s: System, n: nat, i: nat): real
    requires Fits(s, n) && i < n
  {
    (if i > 0 then s.a[i] * Sol(s, n, i - 1) else 0.0)
    + s.b[i] * Sol(s, n, i)
    + (if i < n - 1 then s.c[i] * Sol(s, n, i + 1) else 0.0)
  }

  ghost predicate PivotsNonzero(s: System, n: nat)
    requires Fits(s, n)
  {
    forall i :: 0 <= i < n ==> Pivot(s, n, i) != 0.0
  }

  /**
   * The in-place solver. The arrays must be distinct, and a, b, c, d must
   * be at least as long as x (the source reads them at the indices of x).
   */
  method Solve(a: array<real>, b: array<real>, c: array<real>, d: array<real>, x: array<real>)
    requires b != d && b != x && d != x
    requires a != b && a != d && a != x && c != b && c != d && c != x
    requires a.Length >= x.Length && b.Length >= x.Length
    requires c.Length >= x.Length - 1 && d.Length >= x.Length
    modifies b, d, x
    ensures var s, n := System(a[..], old(b[..]), c[..], old(d[..])), x.Length;
      && (forall i :: 0 <= i < n ==> b[i] == Pivot(s, n, i) && d[i] == Rhs(s, n, i))
      && (forall i :: n <= i < b.Length ==> b[i] == old(b[i]))
      && (forall i :: n <= i < d.Length ==> d[i] == old(d[i]))
      && (forall i :: 0 <= i < n ==> x[i] == Sol(s, n, i))
  {
    ghost var s := System(a[..], b[..], c[..], d[..]);
    Eliminate(a, b, c, d, x.Length);
    BackSubstitute(b, c, d, x, s);
  }

  /** The forward-elimination loop: rewrites b[1..n) and d[1..n). */
  method Eliminate(a: array<real>, b: array<real>, c: array<real>, d: array<real>, n: nat)
    requires b != d && a != b && a != d && c != b && c != d
    requires a.Length >= n && b.Length >= n && c.Length >= n - 1 && d.Length >= n
    modifies b, d
    ensures var s := System(a[..], old(b[..]), c[..], old(d[..]));
      && (forall k :: 0 <= k < n ==> b[k] == Pivot(s, n, k) && d[k] == Rhs(s, n, k))
      && (forall k :: n <= k < b.Length ==> b[k] == old(b[k]))
      && (forall k :: n <= k < d.Length ==> d[k] == old(d[k]))
  {
    ghost var s := System(a[..], b[..], c[..], d[..]);
    var i := 1;
    while i < n
      invariant 1 <= i && (i <= n || i == 1)
      invariant forall k :: 0 <= k < i && k < n ==> b[k] == Pivot(s, n, k)
      invariant forall k :: 0 <= k < i && k < n ==> d[k] == Rhs(s, n, k)
      invariant forall k :: (i <= k || k == 0) && k < b.Length ==> b[k] == s.b[k]
      invariant forall k :: (i <= k || k == 0) && k < d.Length ==> d[k] == s.d[k]
    {
      assert b[i - 1] == Pivot(s, n, i - 1) && d[i - 1] == Rhs(s, n, i - 1);
      var m := Quot(a[i], b[i - 1]);
      assert m == Mult(s, n, i);
      b[i] := Reduce(b[i], m, c[i - 1]);
      d[i] := Reduce(d[i], m, d[i - 1]);
      assert b[i] == Pivot(s, n, i) && d[i] == Rhs(s, n, i);
      i := i + 1;
    }
  }

  /** The back-substitution loop, on the eliminated b and d of system s. */
  method BackSubstitute(b: array<real>, c: array<real>, d: array<real>, x: array<real>, ghost s: System)
    requires x != b && x != c && x != d
    requires Fits(s, x.Length) && c[..] == s.c
    requires b.Length >= x.Length && c.Length >= x.Length - 1 && d.Length >= x.Length
    requires forall k :: 0 <= k < x.Length ==> b[k] == Pivot(s, x.Length, k) && d[k] == Rhs(s, x.Length, k)
    modifies x
    ensures forall k :: 0 <= k < x.Length ==> x[k] == Sol(s, x.Length, k)
  {
    var n := x.Length;
    if n > 0 {
      x[n - 1] := Quot(d[n - 1], b[n - 1]);
      var j := n - 2;
      while j >= 0
        invariant -1 <= j <= n - 2
        invariant forall k :: j < k < n ==> x[k] == Sol(s, n, k)
      {
        SolUnfold(s, n, j);
        assert c[j] == s.c[j];
        x[j] := Quot(Reduce(d[j], c[j], x[j + 1]), b[j]);
        j := j - 1;
      }
    }
  }

  lemma SolUnfold(s: System, n: nat, i: nat)
    requires Fits(s, n) && i < n - 1
    ensures Sol(s, n, i) == Quot(Reduce(Rhs(s, n, i), s.c[i], Sol(s, n, i + 1)), Pivot(s, n, i))
  {
  }

  /** One back-substitution step, rearranged. */
  lemma BackStep(p: real, r: real, xi: real, rest: real)
    requires p != 0.0 && xi == Quot(r - rest, p)
    ensures p * xi + rest == r
  {
  }

  /**
   * Row i of the elimination, for i >= 1, in plain variables: rows i - 1 and
   * i of the eliminated system give row i of the original one.
   */
  lemma RowAlgebra(ai: real, bi: real, di: real, cPrev: real, pPrev: real, rPrev: real,
                   xPrev: real, xi: real, next: real, m: real, pi: real, ri: real)
    requires pPrev != 0.0 && m == Quot(ai, pPrev)
    requires pi == Reduce(bi, m, cPrev) && ri == Reduce(di, m, rPrev)
    requires pPrev * xPrev + cPrev * xi == rPrev
    requires pi * xi + next == ri
    ensures ai * xPrev + bi * xi + next == di
  {
    assert ai == m * pPrev;
    assert ai * xPrev == m * (pPrev * xPrev);
  }

  /** Each eliminated row holds at the computed solution. */
  lemma EliminatedRow(s: System, n: nat, i: nat)
    requires Fits(s, n) && PivotsNonzero(s, n) && i < n
    ensures Pivot(s, n, i) * Sol(s, n, i) + (if i < n - 1 then s.c[i] * Sol(s, n, i + 1) else 0.0)
         == Rhs(s, n, i)
  {
    if i == n - 1 {
      BackStep(Pivot(s, n, i), Rhs(s, n, i), Sol(s, n, i), 0.0);
    } else {
      BackStep(Pivot(s, n, i), Rhs(s, n, i), Sol(s, n, i), s.c[i] * Sol(s, n, i + 1));
    }
  }

  /**
   * When every pivot produced by the elimination is nonzero, the computed x
   * satisfies every row of the original system.
   */
  lemma SolvesSystem(s: System, n: nat, i: nat)
    requires Fits(s, n) && PivotsNonzero(s, n) && i < n
    ensures RowValue(s, n, i) == s.d[i]
  {
    if i == 0 {
      EliminatedRow(s, n, 0);
    } else {
      SolvesLaterRow(s, n, i);
    }
  }

  /** Row i >= 1: the eliminated rows i - 1 and i combine into the original row i. */
  lemma SolvesLaterRow(s: System, n: nat, i: nat)
    requires Fits(s, n) && PivotsNonzero(s, n) && 0 < i < n
    ensures RowValue(s, n, i) == s.d[i]
  {
    EliminatedRow(s, n, i);
    EliminatedRow(s, n, i - 1);
    RowAlgebra(s.a[i], s.b[i], s.d[i], s.c[i - 1], Pivot(s, n, i - 1), Rhs(s, n, i - 1),
               Sol(s, n, i - 1), Sol(s, n, i), if i < n - 1 then s.c[i] * Sol(s, n, i + 1) else 0.0,
               Mult(s, n, i), Pivot(s, n, i), Rhs(s, n, i));
  }

  /** a[0] and c[n-1] are never read: they do not affect the pivots or x. */
  lemma {:induction false} IgnoresCorners(s: System, t: System, n: nat, i: nat)
    requires Fits(s, n) && Fits(t, n) && i < n
    requires s.b[..n] == t.b[..n] && s.d[..n] == t.d[..n]
    requires forall k :: 0 < k < n ==> s.a[k] == t.a[k]
    requires forall k :: 0 <= k < n - 1 ==> s.c[k] == t.c[k]
    ensures Pivot(s, n, i) == Pivot(t, n, i) && Rhs(s, n, i) == Rhs(t, n, i)
    ensures Sol(s, n, i) == Sol(t, n, i)
  {
    assert forall k :: 0 <= k < n ==> s.b[k] == s.b[..n][k] && t.b[k] == t.b[..n][k];
    assert forall k :: 0 <= k < n ==> s.d[k] == s.d[..n][k] && t.d[k] == t.d[..n][k];
    PivotsAgree(s, t, n, i);
    SolAgree(s, t, n, i);
  }

  lemma {:induction false} PivotsAgree(s: System, t: System, n: nat, i: nat)
    requires Fits(s, n) && Fits(t, n) && i < n
    requires forall k :: 0 <= k < n ==> s.b[k] == t.b[k] && s.d[k] == t.d[k]
    requires forall k :: 0 < k < n ==> s.a[k] == t.a[k]
    requires forall k :: 0 <= k < n - 1 ==> s.c[k] == t.c[k]
    ensures Pivot(s, n, i) == Pivot(t, n, i) && Rhs(s, n, i) == Rhs(t, n, i)
  {
    if i > 0 {
      PivotsAgree(s, t, n, i - 1);
    }
  }

  lemma {:induction false} SolAgree(s: System, t: System, n: nat, i: nat)
    requires Fits(s, n) && Fits(t, n) && i < n
    requires forall k :: 0 <= k < n ==> s.b[k] == t.b[k] && s.d[k] == t.d[k]
    requires forall k :: 0 < k < n ==> s.a[k] == t.a[k]
    requires forall k :: 0 <= k < n - 1 ==> s.c[k] == t.c[k]
    ensures Sol(s, n, i) == Sol(t, n, i)
    decreases n - i
  {
    PivotsAgree(s, t, n, i);
    if i < n - 1 {
      SolAgree(s, t, n, i + 1);
      assert s.c[i] == t.c[i];
      SolUnfold(s, n, i);
      SolUnfold(t, n, i);
    }
  }
}

=== FILE: tuner.dfy ===
/**
 * The curve tuner's grid of masters (docs/demo/tuner.js): the bisection
 * root finder, the six-value two-cubic shape with its symmetry operations,
 * the Euclidean modulus, and the grid that folds any integer grid point
 * into one stored quadrant by symmetry, interpolates bilinearly between
 * grid points and serialises to a JSON object and back.
 */
module Tuner {
  import opened Numerics
  import opened Bezier

  // ---------------------------------------------------------------------
  // solve_bisect

  /** 2^k as a real. */
  function Pow2(k: nat): (r: real)
    ensures r >= 1.0
  {
    if k == 0 then 1.0 else 2.0 * Pow2(k - 1)
  }

  /** x lies in the closed interval spanned by a and b, in either order. */
  predicate Between(x: real, a: real, b: real) {
    (a <= x <= b) || (b <= x <= a)
  }

  /** The number of halvings `solve_bisect` performs at most. */
  const BisectSteps: nat := 30

  /**
   * Bisection for a sign change of f between xmin and xmax. An end where f
   * has sign 0 is returned at once; ends of equal nonzero sign give no
   * value. Otherwise the bracket [lo, hi] keeps the end signs and is
   * halved on each of at most 30 steps; the result is an exact root or
   * one end of the final bracket, whose width is the original width over
   * 2^30. The bounds are explicit parameters, since the model has no
   * default arguments.
   */
  method SolveBisect(f: real -> real, xmin: real, xmax: real) returns (r: Option<real>, ghost lo: real, ghost hi: real)
    ensures Sign(f(xmin)) == 0 ==> r == Some(xmin)
    ensures Sign(f(xmin)) != 0 && Sign(f(xmax)) == 0 ==> r == Some(xmax)
    ensures r.None? <==> Sign(f(xmin)) == Sign(f(xmax)) != 0
    ensures r.Some? ==> Between(r.value, xmin, xmax)
    ensures r.Some? && Sign(f(r.value)) != 0 ==>
      && Sign(f(lo)) == Sign(f(xmin)) && Sign(f(hi)) == Sign(f(xmax))
      && (r.value == lo || r.value == hi)
      && (hi - lo) * Pow2(BisectSteps) == xmax - xmin
  {
    var smin := Sign(f(xmin));
    if smin == 0 {
      return Some(xmin), xmin, xmax;
    }
    var smax := Sign(f(xmax));
    if smax == 0 {
      return Some(xmax), xmin, xmax;
    }
    if smin == smax {
      return None, xmin, xmax;
    }
    var x;
    x, lo, hi := Bisect(f, xmin, xmax, smin, smax);
    r := Some(x);
  }

  /**
   * After i halvings of [xmin, xmax] the bracket [a, b] still has f of
   * sign smin at a and smax at b, lies within the original interval and
   * is 2^i times narrower.
   */
  ghost predicate Bracketed(f: real -> real, xmin: real, xmax: real, smin: int, smax: int, a: real, b: real, i: nat) {
    && Sign(f(a)) == smin && Sign(f(b)) == smax
    && Between(a, xmin, xmax) && Between(b, xmin, xmax)
    && (b - a) * Pow2(i) == xmax - xmin
  }

  /** Replacing the end of the midpoint's sign by the midpoint keeps the bracket, one halving further. */
  lemma BracketHalved(f: real -> real, xmin: real, xmax: real, smin: int, smax: int, a: real, b: real, i: nat)
    requires Bracketed(f, xmin, xmax, smin, smax, a, b, i)
    requires smin != 0 && smax != 0 && smin != smax
    ensures var x := 0.5 * (a + b);
      && Between(x, xmin, xmax)
      && (Sign(f(x)) == smin ==> Bracketed(f, xmin, xmax, smin, smax, x, b, i + 1))
      && (Sign(f(x)) != 0 && Sign(f(x)) != smin ==> Bracketed(f, xmin, xmax, smin, smax, a, x, i + 1))
  {
    var x, p := 0.5 * (a + b), Pow2(i);
    assert Pow2(i + 1) == 2.0 * p;
    assert (b - x) * (2.0 * p) == (b - a) * p;
    assert (x - a) * (2.0 * p) == (b - a) * p;
  }

  /**
   * The halving loop of `solve_bisect`, from ends whose signs are smin and
   * smax: the midpoint is returned at once when f has sign 0 there;
   * otherwise it replaces the end of the same sign as smin, or else the
   * other end.
   */
  method Bisect(f: real -> real, xmin: real, xmax: real, smin: int, smax: int) returns (x: real, ghost lo: real, ghost hi: real)
    requires Sign(f(xmin)) == smin && Sign(f(xmax)) == smax
    requires smin != 0 && smax != 0 && smin != smax
    ensures Between(x, xmin, xmax)
    ensures Sign(f(x)) != 0 ==> Bracketed(f, xmin, xmax, smin, smax, lo, hi, BisectSteps) && (x == lo || x == hi)
  {
    var a, b := xmin, xmax;
    x := a;
    for i := 0 to BisectSteps
      invariant Bracketed(f, xmin, xmax, smin, smax, a, b, i)
      invariant x == a || x == b
    {
      BracketHalved(f, xmin, xmax, smin, smax, a, b, i);
      x := 0.5 * (a + b);
      var s := Sign(f(x));
      if s == 0 {
        return x, a, b;
      }
      if s == smin {
        a := x;
      } else {
        b := x;
      }
    }
    return x, a, b;
  }

  // ---------------------------------------------------------------------
  // TwoCubics

  /** The point turned 180 degrees about (0.5, 0). */
  function Rot(p: Vec2): Vec2 {
    Vec2(1.0 - p.x, -p.y)
  }

  /** The point mirrored left to right about x = 0.5. */
  function MirrorX(p: Vec2): Vec2 {
    Vec2(1.0 - p.x, p.y)
  }

  /** The point mirrored top to bottom about y = 0. */
  function MirrorY(p: Vec2): Vec2 {
    Vec2(p.x, -p.y)
  }

  /**
   * Two cubics from (0, 0) to (1, 0) joined at a centre point, as six
   * values: the start arm length, the two interior control points, the
   * end arm length. The end angles are supplied when rendering.
   */
  datatype TwoCubics = TwoCubics(a: seq<real>) {
    /** The six values the constructor expects. */
    predicate Valid() {
      |a| == 6
    }

    /** The join point: halfway between the two interior points. */
    function GetCenterPt(th0: real, th1: real): (r: Vec2)
      requires Valid()
      ensures r.x - a[1] == a[3] - r.x && r.y - a[2] == a[4] - r.y
    {
      var t := 0.5;
      Vec2(a[1] + t * (a[3] - a[1]), a[2] + t * (a[4] - a[2]))
    }

    /**
     * The five interior control points in the curve-family render style:
     * start arm end, first interior point, join, second interior point,
     * end arm end.
     */
    function Render(tr: Transcendentals, th0: real, th1: real): (r: seq<Vec2>)
      requires Valid()
      ensures |r| == 5
      ensures r[1] == Vec2(a[1], a[2]) && r[3] == Vec2(a[3], a[4])
      ensures r[2] == GetCenterPt(th0, th1)
      ensures 2.0 * r[2].x == r[1].x + r[3].x && 2.0 * r[2].y == r[1].y + r[3].y
    {
      var p1 := Vec2(a[0] * tr.cos(th0), a[0] * tr.sin(th0));
      var p2 := Vec2(a[1], a[2]);
      var p4 := Vec2(a[3], a[4]);
      var p5 := Vec2(1.0 - a[5] * tr.cos(th1), a[5] * tr.sin(th1));
      var p3 := GetCenterPt(th0, th1);
      [p1, p2, p3, p4, p5]
    }

    /** A shape that is right for the grid point (0, 0): thirds on the chord. */
    static function Default(): (r: TwoCubics)
      ensures r.Valid()
    {
      TwoCubics([1.0 / 6.0, 1.0 / 3.0, 0.0, 2.0 / 3.0, 0.0, 1.0 / 6.0])
    }

    /** The shape turned 180 degrees: ends swapped, interior points rotated. */
    function Turn(): (r: TwoCubics)
      requires Valid()
      ensures r.Valid()
    {
      TwoCubics([a[5], 1.0 - a[3], -a[4], 1.0 - a[1], -a[2], a[0]])
    }

    /** The shape mirrored left to right: ends swapped, interior points mirrored. */
    function FlipHoriz(): (r: TwoCubics)
      requires Valid()
      ensures r.Valid()
    {
      TwoCubics([a[5], 1.0 - a[3], a[4], 1.0 - a[1], a[2], a[0]])
    }

    /** The shape mirrored top to bottom; the arm lengths and x coordinates stay. */
    function FlipVert(): (r: TwoCubics)
      requires Valid()
      ensures r.Valid()
      ensures r.a[0] == a[0] && r.a[1] == a[1] && r.a[3] == a[3] && r.a[5] == a[5]
    {
      var c := a;
      TwoCubics(c[2 := -c[2]][4 := -c[4]])
    }
  }

  /** Each symmetry operation undoes itself. */
  lemma SymmetriesAreInvolutions(t: TwoCubics)
    requires t.Valid()
    ensures t.Turn().Turn() == t
    ensures t.FlipHoriz().FlipHoriz() == t
    ensures t.FlipVert().FlipVert() == t
  {
    assert t.Turn().Turn().a == t.a;
    assert t.FlipHoriz().FlipHoriz().a == t.a;
    assert t.FlipVert().FlipVert().a == t.a;
  }

  /** Turning is mirroring both ways, in either order. */
  lemma TurnIsBothFlips(t: TwoCubics)
    requires t.Valid()
    ensures t.Turn() == t.FlipHoriz().FlipVert()
    ensures t.Turn() == t.FlipVert().FlipHoriz()
  {
    assert t.Turn().a == t.FlipHoriz().FlipVert().a;
    assert t.Turn().a == t.FlipVert().FlipHoriz().a;
  }

  /** The default shape is symmetric under all three operations. */
  lemma DefaultIsSymmetric()
    ensures TwoCubics.Default().Turn() == TwoCubics.Default()
    ensures TwoCubics.Default().FlipHoriz() == TwoCubics.Default()
    ensures TwoCubics.Default().FlipVert() == TwoCubics.Default()
  {
    var d := TwoCubics.Default();
    assert d.Turn().a == d.a;
    assert d.FlipHoriz().a == d.a;
    assert d.FlipVert().a == d.a;
  }

  /** The default shape's interior points sit at a third, a half and two thirds of the chord. */
  lemma DefaultOnChord(tr: Transcendentals, th0: real, th1: real)
    ensures var r := TwoCubics.Default().Render(tr, th0, th1);
      r[1] == Vec2(1.0 / 3.0, 0.0) && r[2] == Vec2(0.5, 0.0) && r[3] == Vec2(2.0 / 3.0, 0.0)
  {
  }

  /** When cos^2 + sin^2 = 1 at both angles, the outer points lie at the arm lengths from the ends. */
  lemma RenderArms(t: TwoCubics, tr: Transcendentals, th0: real, th1: real)
    requires t.Valid()
    requires tr.cos(th0) * tr.cos(th0) + tr.sin(th0) * tr.sin(th0) == 1.0
    requires tr.cos(th1) * tr.cos(th1) + tr.sin(th1) * tr.sin(th1) == 1.0
    ensures var r := t.Render(tr, th0, th1);
      && r[0].x * r[0].x + r[0].y * r[0].y == t.a[0] * t.a[0]
      && (1.0 - r[4].x) * (1.0 - r[4].x) + r[4].y * r[4].y == t.a[5] * t.a[5]
  {
    var r := t.Render(tr, th0, th1);
    var c0, s0, c1, s1 := tr.cos(th0), tr.sin(th0), tr.cos(th1), tr.sin(th1);
    assert r[0].x * r[0].x + r[0].y * r[0].y == t.a[0] * t.a[0] * (c0 * c0 + s0 * s0);
    assert (1.0 - r[4].x) * (1.0 - r[4].x) + r[4].y * r[4].y == t.a[5] * t.a[5] * (c1 * c1 + s1 * s1);
  }

  /**
   * The left-right mirror, rendered with the end angles swapped, is the
   * original rendering mirrored about x = 0.5 and read backwards.
   */
  lemma FlipHorizMirrorsRender(t: TwoCubics, tr: Transcendentals, th0: real, th1: real)
    requires t.Valid()
    ensures var r, q := t.Render(tr, th0, th1), t.FlipHoriz().Render(tr, th1, th0);
      forall k :: 0 <= k < 5 ==> q[k] == MirrorX(r[4 - k])
  {
  }

  /**
   * The top-bottom mirror, rendered with both end angles negated, is the
   * original rendering mirrored about y = 0, given that cos is even and
   * sin odd at those angles.
   */
  lemma FlipVertMirrorsRender(t: TwoCubics, tr: Transcendentals, th0: real, th1: real)
    requires t.Valid()
    requires tr.cos(-th0) == tr.cos(th0) && tr.sin(-th0) == -tr.sin(th0)
    requires tr.cos(-th1) == tr.cos(th1) && tr.sin(-th1) == -tr.sin(th1)
    ensures var r, q := t.Render(tr, th0, th1), t.FlipVert().Render(tr, -th0, -th1);
      forall k :: 0 <= k < 5 ==> q[k] == MirrorY(r[k])
  {
  }

  /**
   * The 180-degree turn, rendered with the end angles swapped and negated,
   * is the original rendering turned about (0.5, 0) and read backwards,
   * given that cos is even and sin odd at those angles.
   */
  lemma TurnRotatesRender(t: TwoCubics, tr: Transcendentals, th0: real, th1: real)
    requires t.Valid()
    requires tr.cos(-th0) == tr.cos(th0) && tr.sin(-th0) == -tr.sin(th0)
    requires tr.cos(-th1) == tr.cos(th1) && tr.sin(-th1) == -tr.sin(th1)
    ensures var r, q := t.Render(tr, th0, th1), t.Turn().Render(tr, -th1, -th0);
      forall k :: 0 <= k < 5 ==> q[k] == Rot(r[4 - k])
  {
  }

  // ---------------------------------------------------------------------
  // mymod

  function IntAbs(x: int): (r: nat)
    ensures r == x || r == -x
  {
    if x < 0 then -x else x
  }

  /** JavaScript's `%` on integers: it truncates, so the result takes the dividend's sign. */
  function JsRem(a: int, b: int): (r: int)
    requires b != 0
    ensures IntAbs(r) < IntAbs(b)
    ensures a >= 0 ==> r >= 0
    ensures a < 0 ==> r <= 0
  {
    var m := IntAbs(a) % IntAbs(b);
    if a < 0 then -m else m
  }

  /** A modulus with a nonnegative result: the remainder, moved up by b when negative. */
  function MyMod(a: int, b: int): (r: int)
    requires b != 0
    ensures b > 0 ==> 0 <= r < b
  {
    var r := JsRem(a, b);
    if r < 0 then r + b else r
  }

  /** For a positive modulus `mymod` is the Euclidean remainder. */
  lemma MyModIsEuclidean(a: int, b: int)
    requires b > 0
    ensures MyMod(a, b) == a % b
  {
    if a < 0 {
      var q, m := (-a) / b, (-a) % b;
      assert -a == q * b + m;
      if m == 0 {
        ModUnique(a, b, -q, 0);
      } else {
        ModUnique(a, b, -q - 1, b - m);
      }
    }
  }

  /** `mymod` is periodic in its first argument. */
  lemma MyModPeriodic(a: int, b: int, k: int)
    requires b > 0
    ensures MyMod(a + k * b, b) == MyMod(a, b)
  {
    MyModIsEuclidean(a, b);
    MyModIsEuclidean(a + k * b, b);
    var q := a / b;
    assert a + k * b == (q + k) * b + a % b;
    ModUnique(a + k * b, b, q + k, a % b);
  }

  // ---------------------------------------------------------------------
  // CurveGrid

  /** Where the master for grid point (i, j) of the stored quadrant is kept. */
  function MasterIndex(i: int, j: int): int {
    i * i + i + j
  }

  /** The stored quadrant: 0 <= i <= n and -i <= j <= i. */
  predicate InTriangle(n: int, i: int, j: int) {
    0 <= i <= n && -i <= j <= i
  }

  lemma SquareMonotone(x: int, y: int)
    requires 0 <= x <= y
    ensures x * x <= y * y
  {
    assert x * x <= x * y <= y * y;
  }

  /** The stored quadrant's indices lie in 0 .. (n + 1)^2 - 1. */
  lemma MasterIndexRange(n: int, i: int, j: int)
    requires InTriangle(n, i, j)
    ensures 0 <= MasterIndex(i, j) < (n + 1) * (n + 1)
  {
    SquareMonotone(i + 1, n + 1);
  }

  /**
   * Indices increase column by column (in i) and, within a column, with j:
   * the layout of the grid's storage. In particular no two grid points of
   * the quadrant share an index.
   */
  lemma MasterIndexOrder(i: int, j: int, i2: int, j2: int)
    requires InTriangle(i, i, j) && InTriangle(i2, i2, j2)
    requires i < i2 || (i == i2 && j < j2)
    ensures MasterIndex(i, j) < MasterIndex(i2, j2)
  {
    if i < i2 {
      SquareMonotone(i + 1, i2);
    }
  }

  /** The column holding index k: i * i <= k < (i + 1) * (i + 1). */
  function Column(k: nat): (i: nat)
    ensures i * i <= k < (i + 1) * (i + 1)
  {
    if k == 0 then 0
    else
      var p := Column(k - 1);
      if k == (p + 1) * (p + 1) then p + 1 else p
  }

  /** Every index in 0 .. (n + 1)^2 - 1 belongs to a grid point of the quadrant. */
  lemma MasterIndexOnto(n: int, k: int)
    requires n >= 0 && 0 <= k < (n + 1) * (n + 1)
    ensures var i := Column(k);
      InTriangle(n, i, k - i * i - i) && MasterIndex(i, k - i * i - i) == k
  {
    var i := Column(k);
    if i > n {
      SquareMonotone(n + 1, i);
    }
  }

  /** Bilinear interpolation: along i by fi, then along j by fj. */
  function Bilinear(a00: real, a01: real, a10: real, a11: real, fi: real, fj: real): real {
    var a0 := a00 + fi * (a01 - a00);
    var a1 := a10 + fi * (a11 - a10);
    a0 + fj * (a1 - a0)
  }

  /** The blend meets each of the four corners at the corresponding fractions. */
  lemma BilinearCorners(a00: real, a01: real, a10: real, a11: real)
    ensures Bilinear(a00, a01, a10, a11, 0.0, 0.0) == a00
    ensures Bilinear(a00, a01, a10, a11, 1.0, 0.0) == a01
    ensures Bilinear(a00, a01, a10, a11, 0.0, 1.0) == a10
    ensures Bilinear(a00, a01, a10, a11, 1.0, 1.0) == a11
  {
  }

  /** Blending four equal values gives that value, whatever the fractions. */
  lemma BilinearConstant(x: real, fi: real, fj: real)
    ensures Bilinear(x, x, x, x, fi, fj) == x
  {
  }

  /** The first k coefficients of the blend of four masters. */
  function BlendPrefix(m00: seq<real>, m01: seq<real>, m10: seq<real>, m11: seq<real>,
                       fi: real, fj: real, k: nat): (r: seq<real>)
    requires k <= |m00| && k <= |m01| && k <= |m10| && k <= |m11|
    ensures |r| == k
  {
    if k == 0 then []
    else BlendPrefix(m00, m01, m10, m11, fi, fj, k - 1)
         + [Bilinear(m00[k - 1], m01[k - 1], m10[k - 1], m11[k - 1], fi, fj)]
  }

  /** The blend of the masters at four grid corners; none when a corner has no master. */
  function BlendCorners(m00: Option<TwoCubics>, m01: Option<TwoCubics>, m10: Option<TwoCubics>, m11: Option<TwoCubics>,
                        fi: real, fj: real): (r: Option<TwoCubics>)
    requires m00.Some? ==> m00.value.Valid()
    requires m01.Some? ==> m01.value.Valid()
    requires m10.Some? ==> m10.value.Valid()
    requires m11.Some? ==> m11.value.Valid()
    ensures r.Some? <==> m00.Some? && m01.Some? && m10.Some? && m11.Some?
    ensures r.Some? ==> r.value.Valid()
  {
    if m00.None? || m01.None? || m10.None? || m11.None? then None
    else Some(TwoCubics(BlendPrefix(m00.value.a, m01.value.a, m10.value.a, m11.value.a, fi, fj, 6)))
  }

  /** Coefficient x of the blend is the bilinear blend of the four masters' coefficient x. */
  lemma {:induction false} BlendPrefixAt(m00: seq<real>, m01: seq<real>, m10: seq<real>, m11: seq<real>,
                                         fi: real, fj: real, k: nat, x: nat)
    requires k <= |m00| && k <= |m01| && k <= |m10| && k <= |m11| && x < k
    ensures BlendPrefix(m00, m01, m10, m11, fi, fj, k)[x] == Bilinear(m00[x], m01[x], m10[x], m11[x], fi, fj)
  {
    if x < k - 1 {
      BlendPrefixAt(m00, m01, m10, m11, fi, fj, k - 1, x);
    }
  }

  /** One coefficient of `get_interp`: blended along i, then along j. */
  method BlendCoeff(a00: real, a01: real, a10: real, a11: real, iFrac: real, jFrac: real) returns (v: real)
    ensures v == Bilinear(a00, a01, a10, a11, iFrac, jFrac)
  {
    var a0 := a00 + iFrac * (a01 - a00);
    var a1 := a10 + iFrac * (a11 - a10);
    v := a0 + jFrac * (a1 - a0);
  }

  /** The loop of `get_interp`: each of the six coefficients blended from the four masters. */
  method Blend(m00: TwoCubics, m01: TwoCubics, m10: TwoCubics, m11: TwoCubics, iFrac: real, jFrac: real)
    returns (r: TwoCubics)
    requires m00.Valid() && m01.Valid() && m10.Valid() && m11.Valid()
    ensures r == TwoCubics(BlendPrefix(m00.a, m01.a, m10.a, m11.a, iFrac, jFrac, 6))
  {
    var a := new real[6];
    for k := 0 to 6
      invariant a[..k] == BlendPrefix(m00.a, m01.a, m10.a, m11.a, iFrac, jFrac, k)
    {
      a[k] := BlendCoeff(m00.a[k], m01.a[k], m10.a[k], m11.a[k], iFrac, jFrac);
      assert a[..k + 1] == a[..k] + [a[k]];
    }
    assert a[..] == a[..6];
    r := TwoCubics(a[..]);
  }

  /** A grid of masters in JSON form: `n` and each master's coefficient list. */
  datatype GridJson = GridJson(n: int, masters: seq<seq<real>>)

  /**
   * The grid: (n + 1)^2 masters for the quadrant 0 <= i <= n, -i <= j <= i
   * of grid points, grid unit pi / (2n) in each end angle.
   */
  datatype CurveGrid = CurveGrid(n: int, masters: seq<TwoCubics>) {
    /** Every stored master has six values. */
    predicate MastersValid() {
      forall k :: 0 <= k < |masters| ==> masters[k].Valid()
    }

    /** A grid as `tunerui.js` builds one: n >= 1 and one master per quadrant point. */
    predicate Valid() {
      n >= 1 && |masters| == (n + 1) * (n + 1) && MastersValid()
    }

    /** The stored master for (i, j); no master when the index falls outside the store. */
    function GetMasterCore(i: int, j: int): (r: Option<TwoCubics>)
      ensures r.Some? <==> 0 <= MasterIndex(i, j) < |masters|
    {
      var ix := MasterIndex(i, j);
      if 0 <= ix < |masters| then Some(masters[ix]) else None
    }

    /** A grid coordinate folded into -n + 1 .. n, the period being 2n. */
    function Fold(i: int): (r: int)
      requires n >= 1
      ensures -n + 1 <= r <= n
    {
      MyMod(i + n - 1, n * 2) - n + 1
    }

    /**
     * The master for any grid point: both coordinates folded, then the
     * right quadrant read directly, the top one mirrored left to right,
     * the left one mirrored top to bottom and the bottom one turned.
     */
    function GetMaster(i: int, j: int): (r: Option<TwoCubics>)
      requires n >= 1 && MastersValid()
      ensures r.Some? ==> r.value.Valid()
    {
      var i, j := Fold(i), Fold(j);
      if i >= 0 && -i <= j <= i then
        GetMasterCore(i, j)
      else if j >= 0 && -j <= i <= j then
        (match GetMasterCore(j, i) case None => None case Some(m) => Some(m.FlipHoriz()))
      else if i <= 0 && i <= j <= -i then
        (match GetMasterCore(-i, -j) case None => None case Some(m) => Some(m.FlipVert()))
      else
        (match GetMasterCore(-j, -i) case None => None case Some(m) => Some(m.Turn()))
    }

    /** An end angle in grid units. */
    function GridCoord(tr: Transcendentals, th: real): real
      requires tr.pi > 0.0
    {
      th * 2.0 * (n as real) / tr.pi
    }

    /**
     * The shape for end angles th0, th1: the bilinear blend of the masters
     * at the four grid points around them; no shape when one of those
     * masters is missing.
     */
    function Interp(tr: Transcendentals, th0: real, th1: real): (r: Option<TwoCubics>)
      requires tr.pi > 0.0 && n >= 1 && MastersValid()
      ensures r.Some? ==> r.value.Valid()
    {
      InterpAt(GridCoord(tr, th0), GridCoord(tr, th1))
    }

    /** The blend of the masters around grid coordinates (i, j); none when one is missing. */
    function InterpAt(i: real, j: real): (r: Option<TwoCubics>)
      requires n >= 1 && MastersValid()
      ensures r.Some? ==> r.value.Valid()
    {
      var iInt, jInt := i.Floor, j.Floor;
      var m00, m01 := GetMaster(iInt, jInt), GetMaster(iInt + 1, jInt);
      var m10, m11 := GetMaster(iInt, jInt + 1), GetMaster(iInt + 1, jInt + 1);
      BlendCorners(m00, m01, m10, m11, i - iInt as real, j - jInt as real)
    }

    /** `get_interp`: the four neighbouring masters blended coefficient by coefficient. */
    method GetInterp(tr: Transcendentals, th0: real, th1: real) returns (r: Option<TwoCubics>)
      requires tr.pi > 0.0 && n >= 1 && MastersValid()
      ensures r == Interp(tr, th0, th1)
    {
      var i := GridCoord(tr, th0);
      var j := GridCoord(tr, th1);
      r := GetInterpAt(i, j);
    }

    /** The rest of `get_interp`, from the grid coordinates (i, j) of the end angles. */
    method GetInterpAt(i: real, j: real) returns (r: Option<TwoCubics>)
      requires n >= 1 && MastersValid()
      ensures r == InterpAt(i, j)
    {
      var iInt := i.Floor;
      var jInt := j.Floor;
      var iFrac := i - iInt as real;
      var jFrac := j - jInt as real;
      var m00 := GetMaster(iInt, jInt);
      var m01 := GetMaster(iInt + 1, jInt);
      var m10 := GetMaster(iInt, jInt + 1);
      var m11 := GetMaster(iInt + 1, jInt + 1);
      if m00.None? || m01.None? || m10.None? || m11.None? {
        return None;
      }
      var a := Blend(m00.value, m01.value, m10.value, m11.value, iFrac, jFrac);
      r := Some(a);
    }

    /** `toJson`: `n` and a copy of each master's coefficients, in order. */
    method ToJson() returns (json: GridJson)
      ensures json == Serialized(this)
    {
      var ms: seq<seq<real>> := [];
      for m := 0 to |masters|
        invariant |ms| == m
        invariant forall k :: 0 <= k < m ==> ms[k] == masters[k].a
      {
        var master := masters[m];
        var a: seq<real> := [];
        for i := 0 to |master.a|
          invariant a == master.a[..i]
        {
          a := a + [master.a[i]];
        }
        ms := ms + [a];
      }
      json := GridJson(n, ms);
    }

    /** `fromJson`: one master per coefficient list, in order. */
    static method FromJson(json: GridJson) returns (g: CurveGrid)
      ensures g == Deserialized(json)
    {
      var ms: seq<TwoCubics> := [];
      for m := 0 to |json.masters|
        invariant |ms| == m
        invariant forall k :: 0 <= k < m ==> ms[k] == TwoCubics(json.masters[k])
      {
        ms := ms + [TwoCubics(json.masters[m])];
      }
      g := CurveGrid(json.n, ms);
    }
  }

  /** The JSON object `toJson` builds. */
  function Serialized(g: CurveGrid): GridJson {
    GridJson(g.n, seq(|g.masters|, k requires 0 <= k < |g.masters| => g.masters[k].a))
  }

  /** The grid `fromJson` builds. */
  function Deserialized(json: GridJson): CurveGrid {
    CurveGrid(json.n, seq(|json.masters|, k requires 0 <= k < |json.masters| => TwoCubics(json.masters[k])))
  }

  /** Reading back what was written gives the same grid, and writing back what was read the same JSON. */
  lemma JsonRoundTrip(g: CurveGrid, json: GridJson)
    ensures Deserialized(Serialized(g)) == g
    ensures Serialized(Deserialized(json)) == json
  {
    assert Deserialized(Serialized(g)).masters == g.masters;
    assert Serialized(Deserialized(json)).masters == json.masters;
  }

  /** Folding leaves coordinates in -n + 1 .. n alone. */
  lemma FoldInside(g: CurveGrid, i: int)
    requires g.n >= 1 && -g.n + 1 <= i <= g.n
    ensures g.Fold(i) == i
  {
    MyModIsEuclidean(i + g.n - 1, g.n * 2);
    ModUnique(i + g.n - 1, g.n * 2, 0, i + g.n - 1);
  }

  /** Folding has period 2n. */
  lemma FoldPeriodic(g: CurveGrid, i: int, k: int)
    requires g.n >= 1
    ensures g.Fold(i + k * (2 * g.n)) == g.Fold(i)
  {
    assert i + k * (2 * g.n) + g.n - 1 == (i + g.n - 1) + k * (g.n * 2);
    MyModPeriodic(i + g.n - 1, g.n * 2, k);
  }

  /** `get_master` has period 2n in each coordinate. */
  lemma GetMasterPeriodic(g: CurveGrid, i: int, j: int, k: int, l: int)
    requires g.n >= 1 && g.MastersValid()
    ensures g.GetMaster(i + k * (2 * g.n), j + l * (2 * g.n)) == g.GetMaster(i, j)
  {
    FoldPeriodic(g, i, k);
    FoldPeriodic(g, j, l);
  }

  /**
   * On a grid with all its masters, every grid point has a master: each
   * branch of `get_master` reads the store inside the quadrant.
   */
  lemma GetMasterTotal(g: CurveGrid, i: int, j: int)
    requires g.Valid()
    ensures g.GetMaster(i, j).Some?
  {
    var fi, fj := g.Fold(i), g.Fold(j);
    if fi >= 0 && -fi <= fj <= fi {
      MasterIndexRange(g.n, fi, fj);
    } else if fj >= 0 && -fj <= fi <= fj {
      MasterIndexRange(g.n, fj, fi);
    } else if fi <= 0 && fi <= fj <= -fi {
      MasterIndexRange(g.n, -fi, -fj);
    } else {
      MasterIndexRange(g.n, -fj, -fi);
    }
  }

  /** Inside the stored quadrant (away from its j = -n corner) the stored master is returned as is. */
  lemma GetMasterInside(g: CurveGrid, i: int, j: int)
    requires g.n >= 1 && g.MastersValid() && InTriangle(g.n, i, j) && j > -g.n
    ensures g.GetMaster(i, j) == g.GetMasterCore(i, j)
  {
    FoldInside(g, i);
    FoldInside(g, j);
  }

  /**
   * The stored corner (n, -n) is not looked up directly: folding sends
   * j = -n to n, so the lookup answers with the master stored for (n, n),
   * which differs from the stored (n, -n) master whenever the two differ.
   */
  lemma GetMasterCorner(g: CurveGrid)
    requires g.n >= 1 && g.MastersValid()
    ensures g.GetMaster(g.n, -g.n) == g.GetMasterCore(g.n, g.n)
    ensures MasterIndex(g.n, g.n) < |g.masters| && g.masters[MasterIndex(g.n, g.n)] != g.masters[MasterIndex(g.n, -g.n)]
      ==> g.GetMaster(g.n, -g.n) != g.GetMasterCore(g.n, -g.n)
  {
    var n := g.n;
    FoldInside(g, n);
    FoldPeriodic(g, n, -1);
    assert n + -1 * (2 * n) == -n;
  }

  /** On a full grid, interpolation always gives a shape. */
  lemma InterpTotal(g: CurveGrid, tr: Transcendentals, th0: real, th1: real)
    requires tr.pi > 0.0 && g.Valid()
    ensures g.Interp(tr, th0, th1).Some?
  {
    var iInt, jInt := g.GridCoord(tr, th0).Floor, g.GridCoord(tr, th1).Floor;
    GetMasterTotal(g, iInt, jInt);
    GetMasterTotal(g, iInt + 1, jInt);
    GetMasterTotal(g, iInt, jInt + 1);
    GetMasterTotal(g, iInt + 1, jInt + 1);
  }

  /** Blending four equal masters gives that master, whatever the fractions. */
  lemma BlendOfEqual(m: TwoCubics, fi: real, fj: real)
    requires m.Valid()
    ensures BlendCorners(Some(m), Some(m), Some(m), Some(m), fi, fj) == Some(m)
  {
    var b := BlendPrefix(m.a, m.a, m.a, m.a, fi, fj, 6);
    forall x | 0 <= x < 6
      ensures b[x] == m.a[x]
    {
      BlendPrefixAt(m.a, m.a, m.a, m.a, fi, fj, 6, x);
      BilinearConstant(m.a[x], fi, fj);
    }
    assert b == m.a;
  }

  /** Blending with both fractions 0 gives the first corner's master. */
  lemma BlendAtCorner(m00: TwoCubics, m01: TwoCubics, m10: TwoCubics, m11: TwoCubics)
    requires m00.Valid() && m01.Valid() && m10.Valid() && m11.Valid()
    ensures BlendCorners(Some(m00), Some(m01), Some(m10), Some(m11), 0.0, 0.0) == Some(m00)
  {
    var b := BlendPrefix(m00.a, m01.a, m10.a, m11.a, 0.0, 0.0, 6);
    forall x | 0 <= x < 6
      ensures b[x] == m00.a[x]
    {
      BlendPrefixAt(m00.a, m01.a, m10.a, m11.a, 0.0, 0.0, 6, x);
      BilinearCorners(m00.a[x], m01.a[x], m10.a[x], m11.a[x]);
    }
    assert b == m00.a;
  }

  /** At a grid point the interpolated shape is that grid point's master. */
  lemma InterpAtGridPoint(g: CurveGrid, tr: Transcendentals, th0: real, th1: real)
    requires tr.pi > 0.0 && g.Valid()
    requires g.GridCoord(tr, th0).Floor as real == g.GridCoord(tr, th0)
    requires g.GridCoord(tr, th1).Floor as real == g.GridCoord(tr, th1)
    ensures g.Interp(tr, th0, th1) == g.GetMaster(g.GridCoord(tr, th0).Floor, g.GridCoord(tr, th1).Floor)
  {
    var iInt, jInt := g.GridCoord(tr, th0).Floor, g.GridCoord(tr, th1).Floor;
    InterpTotal(g, tr, th0, th1);
    BlendAtCorner(g.GetMaster(iInt, jInt).value, g.GetMaster(iInt + 1, jInt).value,
                  g.GetMaster(iInt, jInt + 1).value, g.GetMaster(iInt + 1, jInt + 1).value);
  }

  /** Where the four surrounding masters agree, the interpolated shape is that master. */
  lemma InterpUniform(g: CurveGrid, tr: Transcendentals, th0: real, th1: real)
    requires tr.pi > 0.0 && g.Valid()
    requires var iInt, jInt := g.GridCoord(tr, th0).Floor, g.GridCoord(tr, th1).Floor;
      && g.GetMaster(iInt + 1, jInt) == g.GetMaster(iInt, jInt)
      && g.GetMaster(iInt, jInt + 1) == g.GetMaster(iInt, jInt)
      && g.GetMaster(iInt + 1, jInt + 1) == g.GetMaster(iInt, jInt)
    ensures g.Interp(tr, th0, th1) == g.GetMaster(g.GridCoord(tr, th0).Floor, g.GridCoord(tr, th1).Floor)
  {
    var i, j := g.GridCoord(tr, th0), g.GridCoord(tr, th1);
    InterpTotal(g, tr, th0, th1);
    BlendOfEqual(g.GetMaster(i.Floor, j.Floor).value, i - i.Floor as real, j - j.Floor as real);
  }
}

=== FILE: twoparam.dfy ===
/**
 * The two-parameter curve family interface (`TwoParamCurve`) and the
 * tangent-angle bookkeeping of `TwoParamSpline` in curves.js: which slots of
 * the tangent array are seeded from chord angles, which are pinned by given
 * end tangents, and how one relaxation sweep (`iterDumb`) moves them.
 * The family's own mathematics is abstract: a `CurveFamily` is a record of
 * functions, and the transcendental functions come from `Transcendentals`.
 */
module TwoParam {
  import opened Numerics
  import opened Bezier

  /** Arctangents of the curvature at the two ends of a segment. */
  datatype Aks = Aks(ak0: real, ak1: real)

  /** A segment's end tangents relative to its chord, and the chord length (`getThs`). */
  datatype SegAngles = SegAngles(th0: real, th1: real, chord: real)

  /** What a spline needs of a curve family. */
  datatype CurveFamily = CurveFamily(
    // interior control points of the segment from (0,0) to (1,0)
    render: (real, real) -> seq<Vec2>,
    // the same, with optional end curvatures
    render4: (real, real, Option<real>, Option<real>) -> seq<Vec2>,
    computeCurvature: (real, real) -> Aks,
    endpointTangent: real -> real)

  /** Direction of the chord from pts[k] to pts[k+1]. */
  function ChordAngle(tr: Transcendentals, pts: seq<Vec2>, k: nat): real
    requires k + 1 < |pts|
  {
    tr.atan2(pts[k + 1].y - pts[k].y, pts[k + 1].x - pts[k].x)
  }

  function ChordLen(tr: Transcendentals, pts: seq<Vec2>, k: nat): real
    requires k + 1 < |pts|
  {
    tr.hypot(pts[k + 1].x - pts[k].x, pts[k + 1].y - pts[k].y)
  }

  /**
   * The seed tangent at an interior point: the incoming chord angle turned
   * by the bend between the chords, weighted by the incoming chord's share
   * of the two chord lengths.
   */
  function BlendAngle(tr: Transcendentals, th0: real, th1: real, l0: real, l1: real): real {
    var bend := tr.mod2pi(th1 - th0);
    tr.mod2pi(th0 + Quot(bend * l0, l0 + l1))
  }

  /** The seed tangent at interior point i. */
  function InteriorTh(tr: Transcendentals, pts: seq<Vec2>, i: nat): real
    requires 0 < i < |pts| - 1
  {
    BlendAngle(tr, ChordAngle(tr, pts, i - 1), ChordAngle(tr, pts, i),
               ChordLen(tr, pts, i - 1), ChordLen(tr, pts, i))
  }

  /** The seeds of interior points 1 .. i - 1. */
  function Interiors(tr: Transcendentals, pts: seq<Vec2>, i: nat): (r: seq<real>)
    requires i < |pts|
    ensures |r| == if i == 0 then 0 else i - 1
  {
    if i <= 1 then [] else Interiors(tr, pts, i - 1) + [InteriorTh(tr, pts, i - 1)]
  }

  lemma {:induction false} InteriorsAt(tr: Transcendentals, pts: seq<Vec2>, i: nat, k: nat)
    requires 1 <= k < i < |pts|
    ensures Interiors(tr, pts, i)[k - 1] == InteriorTh(tr, pts, k)
  {
    if k < i - 1 {
      InteriorsAt(tr, pts, i - 1, k);
    }
  }

  /** Slot i of the array `initialThs` returns. */
  function SeedTh(tr: Transcendentals, pts: seq<Vec2>, startTh: Option<real>, endTh: Option<real>,
                  i: nat): real
    requires i < |pts|
  {
    var n := |pts|;
    if i == n - 1 && endTh.Some? then endTh.value
    else if i == 0 && startTh.Some? then startTh.value
    else if 0 < i < n - 1 then InteriorTh(tr, pts, i)
    else if n >= 3 then (if i == 0 then ChordAngle(tr, pts, 0) else ChordAngle(tr, pts, n - 2))
    else 0.0
  }

  function InitialThsSpec(tr: Transcendentals, pts: seq<Vec2>, startTh: Option<real>,
                          endTh: Option<real>): (r: seq<real>)
    ensures |r| == |pts|
  {
    seq(|pts|, i requires 0 <= i < |pts| => SeedTh(tr, pts, startTh, endTh, i))
  }

  /**
   * The seeding loop's array once interior points 1 .. i - 1 are seeded: their
   * seeds in order, and each end holding its chord angle once the interior
   * point next to it is seeded, 0 before.
   */
  ghost predicate Seeded(tr: Transcendentals, pts: seq<Vec2>, s: seq<real>, i: nat) {
    var n := |pts|;
    && |s| == n
    && (n >= 2 ==> 1 <= i <= n - 1 && s[1..i] == Interiors(tr, pts, i))
    && (n >= 1 ==> s[0] == (if i > 1 && n >= 2 then ChordAngle(tr, pts, 0) else 0.0))
    && (n >= 2 ==> s[n - 1] == (if i == n - 1 && n >= 3 then ChordAngle(tr, pts, n - 2) else 0.0))
  }

  /** A zeroed array is seeded up to nothing. */
  lemma SeededAtStart(tr: Transcendentals, pts: seq<Vec2>, s: seq<real>)
    requires |s| == |pts| && forall k :: 0 <= k < |s| ==> s[k] == 0.0
    ensures Seeded(tr, pts, s, 1)
  {
    assert |pts| >= 2 ==> s[1..1] == [];
  }

  /** What the seeding loop leaves behind is the unpinned `initialThs` array. */
  lemma SeedsFromChords(tr: Transcendentals, pts: seq<Vec2>, a: seq<real>)
    requires Seeded(tr, pts, a, if |pts| >= 2 then |pts| - 1 else 1)
    ensures a == InitialThsSpec(tr, pts, None, None)
  {
    var n := |pts|;
    forall k | 0 <= k < n
      ensures a[k] == SeedTh(tr, pts, None, None, k)
    {
      if 0 < k < n - 1 {
        InteriorsAt(tr, pts, n - 1, k);
        assert a[k] == a[1..n - 1][k - 1];
      }
    }
  }

  /**
   * Pinned ends are honoured (the end pin wins when one point is both ends);
   * unpinned ends of three or more points take the end chords' directions.
   */
  lemma InitialThsEnds(tr: Transcendentals, pts: seq<Vec2>, startTh: Option<real>, endTh: Option<real>)
    requires |pts| >= 1
    ensures var r, n := InitialThsSpec(tr, pts, startTh, endTh), |pts|;
      && (endTh.Some? ==> r[n - 1] == endTh.value)
      && (startTh.Some? && (n >= 2 || endTh.None?) ==> r[0] == startTh.value)
      && (startTh.None? && n >= 3 ==> r[0] == ChordAngle(tr, pts, 0))
      && (endTh.None? && n >= 3 ==> r[n - 1] == ChordAngle(tr, pts, n - 2))
      && (n < 3 && startTh.None? && (n == 2 || endTh.None?) ==> r[0] == 0.0)
  {
  }

  /** `getThs` on an explicit tangent array. */
  function SegThsOf(tr: Transcendentals, pts: seq<Vec2>, ths: seq<real>, i: nat): SegAngles
    requires i + 1 < |pts| && |ths| == |pts|
  {
    var th := ChordAngle(tr, pts, i);
    SegAngles(tr.mod2pi(ths[i] - th), tr.mod2pi(th - ths[i + 1]), ChordLen(tr, pts, i))
  }

  /**
   * `computeErr`: mismatch of the curvature arctangents at the joint of two
   * segments, each rescaled by the square root of the other's chord.
   */
  function ComputeErr(tr: Transcendentals, s0: SegAngles, ak0: Aks, s1: SegAngles, ak1: Aks): real {
    var ch0 := tr.sqrt(s0.chord);
    var ch1 := tr.sqrt(s1.chord);
    var a0 := tr.atan2(tr.sin(ak0.ak1) * ch1, tr.cos(ak0.ak1) * ch0);
    var a1 := tr.atan2(tr.sin(ak1.ak0) * ch0, tr.cos(ak1.ak0) * ch1);
    a0 - a1
  }

  /** The step `iterDumb` applies to an end slot left unpinned. */
  function StartFix(curve: CurveFamily, tr: Transcendentals, pts: seq<Vec2>, ths: seq<real>): real
    requires |pts| >= 2 && |ths| == |pts|
  {
    var g := SegThsOf(tr, pts, ths, 0);
    curve.endpointTangent(g.th1) - g.th0
  }

  function EndFix(curve: CurveFamily, tr: Transcendentals, pts: seq<Vec2>, ths: seq<real>): real
    requires |pts| >= 2 && |ths| == |pts|
  {
    var g := SegThsOf(tr, pts, ths, |pts| - 2);
    curve.endpointTangent(g.th0) - g.th1
  }

  /** The error `getThs` raises when a segment's end point is missing. */
  const NoNeighbour := "getThs: no point after the segment start"

  /** Which ends an `iterDumb` call may work on: at least two points, or both ends pinned. */
  predicate CanRelax(pts: seq<Vec2>, startTh: Option<real>, endTh: Option<real>) {
    |pts| >= 2 || (startTh.Some? && endTh.Some?)
  }

  /** The tangent array after the end fixes at the top of `iterDumb`. */
  function EndsFixed(curve: CurveFamily, tr: Transcendentals, pts: seq<Vec2>, startTh: Option<real>,
                     endTh: Option<real>, ths: seq<real>): (r: seq<real>)
    requires CanRelax(pts, startTh, endTh) && |ths| == |pts|
    ensures |r| == |ths|
  {
    var n := |pts|;
    var t1 := if startTh.None? then ths[0 := ths[0] + StartFix(curve, tr, pts, ths)] else ths;
    if endTh.None? then t1[n - 1 := t1[n - 1] - EndFix(curve, tr, pts, t1)] else t1
  }

  /** `EndsFixed` is the start fix, where the start is free, followed by the end fix, where the end is free. */
  lemma EndsFixedSteps(curve: CurveFamily, tr: Transcendentals, pts: seq<Vec2>, startTh: Option<real>,
                       endTh: Option<real>, t0: seq<real>, t1: seq<real>, t2: seq<real>)
    requires CanRelax(pts, startTh, endTh) && |t0| == |pts|
    requires t1 == if startTh.None? then t0[0 := t0[0] + StartFix(curve, tr, pts, t0)] else t0
    requires t2 == if endTh.None? then t1[|pts| - 1 := t1[|pts| - 1] - EndFix(curve, tr, pts, t1)] else t1
    ensures t2 == EndsFixed(curve, tr, pts, startTh, endTh, t0)
  {
  }

  const Epsilon: real := 0.001

  /** `computeErr` for two adjacent segments, each with its own curvatures. */
  function SegErr(curve: CurveFamily, tr: Transcendentals, s0: SegAngles, s1: SegAngles): real {
    ComputeErr(tr, s0, curve.computeCurvature(s0.th0, s0.th1), s1, curve.computeCurvature(s1.th0, s1.th1))
  }

  /**
   * The secant step for the shared tangent of two adjacent segments: the
   * error divided by its change when that tangent turns by `Epsilon`.
   */
  function SegSecant(curve: CurveFamily, tr: Transcendentals, s0: SegAngles, s1: SegAngles): real {
    var err := SegErr(curve, tr, s0, s1);
    var errp := ComputeErr(tr, s0, curve.computeCurvature(s0.th0, s0.th1 + Epsilon),
                           s1, curve.computeCurvature(s1.th0 - Epsilon, s1.th1));
    Quot(err, (errp - err) * (1.0 / Epsilon))
  }

  /** The joint error at interior point i + 1. */
  function JointErr(curve: CurveFamily, tr: Transcendentals, pts: seq<Vec2>, ths: seq<real>, i: nat): real
    requires i + 2 < |pts| && |ths| == |pts|
  {
    SegErr(curve, tr, SegThsOf(tr, pts, ths, i), SegThsOf(tr, pts, ths, i + 1))
  }

  /** The secant step x[i] for interior point i + 1. */
  function Step(curve: CurveFamily, tr: Transcendentals, pts: seq<Vec2>, ths: seq<real>, i: nat): real
    requires i + 2 < |pts| && |ths| == |pts|
  {
    SegSecant(curve, tr, SegThsOf(tr, pts, ths, i), SegThsOf(tr, pts, ths, i + 1))
  }

  /** Sum of the absolute values of the entries of errs. */
  function SumAbs(errs: seq<real>): real {
    if |errs| == 0 then 0.0 else SumAbs(errs[..|errs| - 1]) + Abs(errs[|errs| - 1])
  }

  lemma {:induction false} SumAbsNonneg(errs: seq<real>)
    ensures SumAbs(errs) >= 0.0
  {
    if |errs| > 0 {
      SumAbsNonneg(errs[..|errs| - 1]);
    }
  }

  /** The joint errors of the first k interior points. */
  function JointErrs(curve: CurveFamily, tr: Transcendentals, pts: seq<Vec2>, ths: seq<real>, k: nat): (r: seq<real>)
    requires k + 2 <= |pts| && |ths| == |pts|
    ensures |r| == k
  {
    seq(k, i requires 0 <= i < k => JointErr(curve, tr, pts, ths, i))
  }

  /** The secant steps of the first k interior points. */
  function Steps(curve: CurveFamily, tr: Transcendentals, pts: seq<Vec2>, ths: seq<real>, k: nat): (r: seq<real>)
    requires k + 2 <= |pts| && |ths| == |pts|
    ensures |r| == k
  {
    seq(k, i requires 0 <= i < k => Step(curve, tr, pts, ths, i))
  }

  /** The damping factor of sweep `iter`. */
  function Damping(tr: Transcendentals, iter: nat): real {
    tr.tanh(0.25 * (iter + 1) as real)
  }

  /** A tangent moved by a damped step. */
  function Moved(th: real, scale: real, dx: real): real {
    th + scale * dx
  }

  /** Every interior tangent moved by its damped step; the ends stay. */
  function Nudged(ths: seq<real>, scale: real, steps: seq<real>): (r: seq<real>)
    requires |steps| + 2 == |ths|
    ensures |r| == |ths|
  {
    seq(|ths|, k requires 0 <= k < |ths| =>
          if 1 <= k <= |ths| - 2 then Moved(ths[k], scale, steps[k - 1]) else ths[k])
  }

  /** `Nudged` keeps both ends and moves slot k by exactly scale times step k - 1. */
  lemma NudgedMoves(ths: seq<real>, scale: real, steps: seq<real>)
    requires |steps| + 2 == |ths|
    ensures var r := Nudged(ths, scale, steps);
      && r[0] == ths[0] && r[|ths| - 1] == ths[|ths| - 1]
      && forall k :: 1 <= k <= |ths| - 2 ==> r[k] - ths[k] == scale * steps[k - 1]
  {
  }

  /** The tangent array after `iterDumb(iter)`. */
  function Relaxed(curve: CurveFamily, tr: Transcendentals, pts: seq<Vec2>, startTh: Option<real>,
                   endTh: Option<real>, ths: seq<real>, iter: nat): (r: seq<real>)
    requires CanRelax(pts, startTh, endTh) && |ths| == |pts|
    ensures |r| == |ths|
  {
    var mid := EndsFixed(curve, tr, pts, startTh, endTh, ths);
    if |pts| < 3 then mid
    else Nudged(mid, Damping(tr, iter), Steps(curve, tr, pts, mid, |pts| - 2))
  }

  /** The value `iterDumb(iter)` returns. */
  function RelaxErr(curve: CurveFamily, tr: Transcendentals, pts: seq<Vec2>, startTh: Option<real>,
                    endTh: Option<real>, ths: seq<real>): (r: real)
    requires CanRelax(pts, startTh, endTh) && |ths| == |pts|
  {
    if |pts| < 3 then 0.0
    else SumAbs(JointErrs(curve, tr, pts, EndsFixed(curve, tr, pts, startTh, endTh, ths), |pts| - 2))
  }

  /** `iterDumb` never moves a pinned end. */
  lemma RelaxedKeepsPins(curve: CurveFamily, tr: Transcendentals, pts: seq<Vec2>, startTh: Option<real>,
                         endTh: Option<real>, ths: seq<real>, iter: nat)
    requires CanRelax(pts, startTh, endTh) && |ths| == |pts| && |pts| >= 1
    ensures var r := Relaxed(curve, tr, pts, startTh, endTh, ths, iter);
      && (startTh.Some? ==> r[0] == ths[0])
      && (endTh.Some? ==> r[|pts| - 1] == ths[|pts| - 1])
  {
  }

  /** The end fixes leave the interior tangents alone. */
  lemma EndsFixedInterior(curve: CurveFamily, tr: Transcendentals, pts: seq<Vec2>, startTh: Option<real>,
                          endTh: Option<real>, ths: seq<real>)
    requires CanRelax(pts, startTh, endTh) && |ths| == |pts|
    ensures forall k :: 1 <= k <= |pts| - 2 ==> EndsFixed(curve, tr, pts, startTh, endTh, ths)[k] == ths[k]
  {
  }

  /** The reported error is non-negative, and 0 when there is no interior point. */
  lemma RelaxErrNonneg(curve: CurveFamily, tr: Transcendentals, pts: seq<Vec2>, startTh: Option<real>,
                       endTh: Option<real>, ths: seq<real>)
    requires CanRelax(pts, startTh, endTh) && |ths| == |pts|
    ensures RelaxErr(curve, tr, pts, startTh, endTh, ths) >= 0.0
    ensures |pts| < 3 ==> RelaxErr(curve, tr, pts, startTh, endTh, ths) == 0.0
  {
    if |pts| >= 3 {
      SumAbsNonneg(JointErrs(curve, tr, pts, EndsFixed(curve, tr, pts, startTh, endTh, ths), |pts| - 2));
    }
  }

  /** The tangents a run of `nIter` sweeps produces from the initial seeds. */
  function Sweeps(curve: CurveFamily, tr: Transcendentals, pts: seq<Vec2>, startTh: Option<real>,
                  endTh: Option<real>, ths: seq<real>, from: nat, count: nat): (r: seq<real>)
    requires CanRelax(pts, startTh, endTh) && |ths| == |pts|
    ensures |r| == |pts|
    decreases count
  {
    if count == 0 then ths
    else Sweeps(curve, tr, pts, startTh, endTh, Relaxed(curve, tr, pts, startTh, endTh, ths, from),
                from + 1, count - 1)
  }

  /** A run of count + 1 sweeps is one sweep followed by a run of count sweeps. */
  lemma SweepsStep(curve: CurveFamily, tr: Transcendentals, pts: seq<Vec2>, startTh: Option<real>,
                   endTh: Option<real>, ths: seq<real>, from: nat, count: nat)
    requires CanRelax(pts, startTh, endTh) && |ths| == |pts|
    ensures Sweeps(curve, tr, pts, startTh, endTh, ths, from, count + 1)
      == Sweeps(curve, tr, pts, startTh, endTh, Relaxed(curve, tr, pts, startTh, endTh, ths, from), from + 1, count)
  {
  }

  /** Sweeps keep pinned ends. */
  lemma {:induction false} SweepsKeepPins(curve: CurveFamily, tr: Transcendentals, pts: seq<Vec2>,
                                          startTh: Option<real>, endTh: Option<real>, ths: seq<real>,
                                          from: nat, count: nat)
    requires CanRelax(pts, startTh, endTh) && |ths| == |pts| && |pts| >= 1
    ensures var r := Sweeps(curve, tr, pts, startTh, endTh, ths, from, count);
      && (startTh.Some? ==> r[0] == ths[0])
      && (endTh.Some? ==> r[|pts| - 1] == ths[|pts| - 1])
    decreases count
  {
    if count > 0 {
      var next := Relaxed(curve, tr, pts, startTh, endTh, ths, from);
      RelaxedKeepsPins(curve, tr, pts, startTh, endTh, ths, from);
      SweepsKeepPins(curve, tr, pts, startTh, endTh, next, from + 1, count - 1);
    }
  }

  /** Number of `iterDumb` sweeps `Spline.solve` runs. */
  const NumIter: nat := 10

  /** The tangents `Spline.solve` reads back from a solved run of points. */
  function SolveRun(curve: CurveFamily, tr: Transcendentals, pts: seq<Vec2>, startTh: Option<real>,
                    endTh: Option<real>): (r: seq<real>)
    requires |pts| >= 2
    ensures |r| == |pts|
  {
    Sweeps(curve, tr, pts, startTh, endTh, InitialThsSpec(tr, pts, startTh, endTh), 0, NumIter)
  }

  /** A solved run honours its pinned end tangents. */
  lemma SolveRunPins(curve: CurveFamily, tr: Transcendentals, pts: seq<Vec2>, startTh: Option<real>,
                     endTh: Option<real>)
    requires |pts| >= 2
    ensures var r := SolveRun(curve, tr, pts, startTh, endTh);
      && (startTh.Some? ==> r[0] == startTh.value)
      && (endTh.Some? ==> r[|pts| - 1] == endTh.value)
  {
    InitialThsEnds(tr, pts, startTh, endTh);
    SweepsKeepPins(curve, tr, pts, startTh, endTh, InitialThsSpec(tr, pts, startTh, endTh), 0, NumIter);
  }

  /** The solver of one curved run of `Spline.solve`: `initialThs` on a fresh spline, then `NumIter` sweeps of `iterDumb`. */
  method SolveInner(curve: CurveFamily, tr: Transcendentals, innerPts: seq<Vec2>, startTh: Option<real>,
                    endTh: Option<real>) returns (ths: seq<real>)
    requires |innerPts| >= 2
    ensures ths == SolveRun(curve, tr, innerPts, startTh, endTh)
  {
    var inner := new TwoParamSpline(curve, tr, innerPts);
    inner.startTh := startTh;
    inner.endTh := endTh;
    var _ := inner.InitialThs();
    inner.IterDumbs();
    ths := inner.ths[..];
  }

  class TwoParamSpline {
    const curve: CurveFamily
    const tr: Transcendentals
    const ctrlPts: seq<Vec2>
    var startTh: Option<real>
    var endTh: Option<real>
    /** The tangent angle at each control point; empty until `InitialThs`. */
    var ths: array<real>

    constructor(curve: CurveFamily, tr: Transcendentals, ctrlPts: seq<Vec2>)
      ensures this.curve == curve && this.tr == tr && this.ctrlPts == ctrlPts
      ensures startTh == None && endTh == None && ths.Length == 0
    {
      this.curve := curve;
      this.tr := tr;
      this.ctrlPts := ctrlPts;
      startTh := None;
      endTh := None;
      ths := new real[0];
    }

    /** `initialThs`: seeds a fresh tangent array and installs it. */
    method InitialThs() returns (r: array<real>)
      modifies this`ths
      ensures fresh(r) && ths == r
      ensures r[..] == InitialThsSpec(tr, ctrlPts, startTh, endTh)
    {
      var n := |ctrlPts|;
      var a := ChordSeeds();
      if startTh.Some? && n > 0 {
        a[0] := startTh.value;
      }
      if endTh.Some? && n > 0 {
        a[n - 1] := endTh.value;
      }
      assert forall k :: 0 <= k < n ==> a[k] == SeedTh(tr, ctrlPts, startTh, endTh, k);
      ths := a;
      r := a;
    }

    /** The seeding loop of `initialThs`, before any end tangent is pinned. */
    method ChordSeeds() returns (a: array<real>)
      ensures fresh(a) && a[..] == InitialThsSpec(tr, ctrlPts, None, None)
    {
      var n := |ctrlPts|;
      a := new real[n](_ => 0.0);
      SeededAtStart(tr, ctrlPts, a[..]);
      var i := 1;
      while i < n - 1
        invariant 1 <= i && (n >= 2 ==> i <= n - 1) && (n < 2 ==> i == 1)
        invariant Seeded(tr, ctrlPts, a[..], i)
      {
        SeedAt(a, i);
        i := i + 1;
      }
      assert i == if n >= 2 then n - 1 else 1;
      SeedsFromChords(tr, ctrlPts, a[..]);
    }

    /** The body of the seeding loop: seeds interior point i, and an end next to it. */
    method SeedAt(a: array<real>, i: nat)
      requires a.Length == |ctrlPts| && 0 < i < |ctrlPts| - 1 && Seeded(tr, ctrlPts, a[..], i)
      modifies a
      ensures Seeded(tr, ctrlPts, a[..], i + 1)
    {
      var n := |ctrlPts|;
      var th, th0, th1 := InteriorSeed(i);
      a[i] := th;
      if i == 1 {
        a[0] := th0;
      }
      if i == n - 2 {
        a[i + 1] := th1;
      }
      assert a[1..i + 1] == old(a[1..i]) + [th];
    }

    /** The chord computations of that body: the seed at interior point i and its two chord angles. */
    method InteriorSeed(i: nat) returns (th: real, th0: real, th1: real)
      requires 0 < i < |ctrlPts| - 1
      ensures th == InteriorTh(tr, ctrlPts, i)
      ensures th0 == ChordAngle(tr, ctrlPts, i - 1) && th1 == ChordAngle(tr, ctrlPts, i)
    {
      var dx0 := ctrlPts[i].x - ctrlPts[i - 1].x;
      var dy0 := ctrlPts[i].y - ctrlPts[i - 1].y;
      var l0 := tr.hypot(dx0, dy0);
      var dx1 := ctrlPts[i + 1].x - ctrlPts[i].x;
      var dy1 := ctrlPts[i + 1].y - ctrlPts[i].y;
      var l1 := tr.hypot(dx1, dy1);
      th0 := tr.atan2(dy0, dx0);
      th1 := tr.atan2(dy1, dx1);
      th := BlendAngle(tr, th0, th1, l0, l1);
    }

    /** `getThs`. */
    function GetThs(i: nat): SegAngles
      reads this, ths
      requires i + 1 < |ctrlPts| && ths.Length == |ctrlPts|
    {
      SegThsOf(tr, ctrlPts, ths[..], i)
    }

    /** The sweep loop of `Spline.solve`: `iterDumb(k)` for k from 0 below `NumIter`. */
    method IterDumbs()
      requires ths.Length == |ctrlPts| && CanRelax(ctrlPts, startTh, endTh)
      modifies ths
      ensures ths[..] == Sweeps(curve, tr, ctrlPts, startTh, endTh, old(ths[..]), 0, NumIter)
    {
      ghost var cur := ths[..];
      for k := 0 to NumIter
        invariant ths[..] == cur && |cur| == |ctrlPts|
        invariant Sweeps(curve, tr, ctrlPts, startTh, endTh, cur, k, NumIter - k)
          == Sweeps(curve, tr, ctrlPts, startTh, endTh, old(ths[..]), 0, NumIter)
      {
        SweepsStep(curve, tr, ctrlPts, startTh, endTh, cur, k, NumIter - k - 1);
        var _ := IterDumb(k);
        cur := Relaxed(curve, tr, ctrlPts, startTh, endTh, cur, k);
      }
    }

    /**
     * `iterDumb`: fixes the unpinned ends, then one damped secant sweep.
     * With fewer than two points an unpinned end has no neighbour, and
     * the source's `getThs` throws before any angle changes.
     */
    method IterDumb(iter: nat) returns (r: Result<real>)
      requires ths.Length == |ctrlPts|
      modifies ths
      ensures r.Ok? <==> CanRelax(ctrlPts, startTh, endTh)
      ensures r.Ok? ==> ths[..] == Relaxed(curve, tr, ctrlPts, startTh, endTh, old(ths[..]), iter)
      ensures r.Ok? ==> r.value == RelaxErr(curve, tr, ctrlPts, startTh, endTh, old(ths[..]))
      ensures r.Err? ==> ths[..] == old(ths[..])
    {
      var fixed := FixEnds();
      if fixed.Err? {
        return Err(fixed.msg);
      }
      if |ctrlPts| < 3 {
        return Ok(0.0);
      }
      var x, absErr := SecantSteps();
      ApplySteps(x, iter);
      r := Ok(absErr);
    }

    /**
     * The end fixes at the top of `iterDumb`; an error, with nothing
     * changed, when an unpinned end has no neighbouring point.
     */
    method FixEnds() returns (r: Result<()>)
      requires ths.Length == |ctrlPts|
      modifies ths
      ensures r.Ok? <==> CanRelax(ctrlPts, startTh, endTh)
      ensures r.Ok? ==> ths[..] == EndsFixed(curve, tr, ctrlPts, startTh, endTh, old(ths[..]))
      ensures r.Err? ==> ths[..] == old(ths[..])
    {
      var n := |ctrlPts|;
      ghost var t0 := ths[..];
      if startTh.None? {
        if n < 2 {
          return Err(NoNeighbour);
        }
        FixStart();
      }
      ghost var t1 := ths[..];
      if endTh.None? {
        if n < 2 {
          return Err(NoNeighbour);
        }
        FixEnd();
      }
      EndsFixedSteps(curve, tr, ctrlPts, startTh, endTh, t0, t1, ths[..]);
      r := Ok(());
    }

    /** The start fix: the first angle moves to where the family's end tangent puts it. */
    method FixStart()
      requires ths.Length == |ctrlPts| >= 2
      modifies ths
      ensures ths[..] == old(ths[..])[0 := old(ths[0]) + StartFix(curve, tr, ctrlPts, old(ths[..]))]
    {
      var ths0 := GetThs(0);
      ths[0] := ths[0] + (curve.endpointTangent(ths0.th1) - ths0.th0);
    }

    /** The end fix: the last angle moves to where the family's end tangent puts it. */
    method FixEnd()
      requires ths.Length == |ctrlPts| >= 2
      modifies ths
      ensures ths[..] == old(ths[..])[|ctrlPts| - 1 := old(ths[|ctrlPts| - 1]) - EndFix(curve, tr, ctrlPts, old(ths[..]))]
    {
      var n := |ctrlPts|;
      var ths0 := GetThs(n - 2);
      ths[n - 1] := ths[n - 1] - (curve.endpointTangent(ths0.th0) - ths0.th1);
    }

    /** The first loop of `iterDumb`: a secant step and the error at each interior point. */
    method SecantSteps() returns (x: array<real>, absErr: real)
      requires ths.Length == |ctrlPts| >= 3
      ensures fresh(x) && x.Length == |ctrlPts| - 2
      ensures x[..] == Steps(curve, tr, ctrlPts, ths[..], |ctrlPts| - 2)
      ensures absErr == SumAbs(JointErrs(curve, tr, ctrlPts, ths[..], |ctrlPts| - 2))
    {
      var n := |ctrlPts|;
      ghost var mid := ths[..];
      absErr := 0.0;
      x := new real[n - 2];
      var ths0 := GetThs(0);
      var ak0 := curve.computeCurvature(ths0.th0, ths0.th1);
      ghost var steps, errs := Steps(curve, tr, ctrlPts, mid, n - 2), JointErrs(curve, tr, ctrlPts, mid, n - 2);
      for i := 0 to n - 2
        invariant ths[..] == mid
        invariant ths0 == SegThsOf(tr, ctrlPts, mid, i)
        invariant ak0 == curve.computeCurvature(ths0.th0, ths0.th1)
        invariant x[..i] == steps[..i] && absErr == SumAbs(errs[..i])
      {
        ths0, ak0, absErr := SecantAt(x, i, ths0, ak0, absErr, mid, steps, errs);
      }
      assert x[..] == x[..n - 2] && steps == steps[..n - 2] && errs == errs[..n - 2];
    }

    /** One iteration of that loop: the step and error at interior point i + 1, and the next segment. */
    method SecantAt(x: array<real>, i: nat, ths0: SegAngles, ak0: Aks, absErr: real, ghost mid: seq<real>,
      ghost steps: seq<real>, ghost errs: seq<real>) returns (ths1: SegAngles, ak1: Aks, sum: real)
      requires ths.Length == |ctrlPts| >= 3 && x.Length == |ctrlPts| - 2 && x != ths && i < x.Length
      requires ths[..] == mid
      requires steps == Steps(curve, tr, ctrlPts, mid, |ctrlPts| - 2)
      requires errs == JointErrs(curve, tr, ctrlPts, mid, |ctrlPts| - 2)
      requires ths0 == SegThsOf(tr, ctrlPts, mid, i) && ak0 == curve.computeCurvature(ths0.th0, ths0.th1)
      requires x[..i] == steps[..i] && absErr == SumAbs(errs[..i])
      modifies x
      ensures ths1 == SegThsOf(tr, ctrlPts, mid, i + 1) && ak1 == curve.computeCurvature(ths1.th0, ths1.th1)
      ensures x[..i + 1] == steps[..i + 1] && sum == SumAbs(errs[..i + 1])
    {
      ths1 := GetThs(i + 1);
      var step, err;
      step, err, ak1 := SecantStep(ths0, ak0, ths1);
      sum := RecordStep(x, i, step, err, absErr, steps, errs);
    }

    /** Stores step i of that loop and adds its error to the running sum. */
    method RecordStep(x: array<real>, i: nat, step: real, err: real, absErr: real, ghost steps: seq<real>,
      ghost errs: seq<real>) returns (sum: real)
      requires i < x.Length && i < |steps| && i < |errs| && step == steps[i] && err == errs[i]
      requires x[..i] == steps[..i] && absErr == SumAbs(errs[..i])
      modifies x
      ensures x[..i + 1] == steps[..i + 1] && sum == SumAbs(errs[..i + 1])
    {
      x[i] := step;
      assert x[..i + 1] == x[..i] + [step];
      assert errs[..i + 1][..i] == errs[..i];
      sum := absErr + Abs(err);
    }

    /** The body of that loop: the error at the joint of s0 and s1 and its secant step. */
    method SecantStep(s0: SegAngles, ak0: Aks, s1: SegAngles) returns (step: real, err: real, ak1: Aks)
      requires ak0 == curve.computeCurvature(s0.th0, s0.th1)
      ensures ak1 == curve.computeCurvature(s1.th0, s1.th1)
      ensures err == SegErr(curve, tr, s0, s1) && step == SegSecant(curve, tr, s0, s1)
    {
      ak1 := curve.computeCurvature(s1.th0, s1.th1);
      err := ComputeErr(tr, s0, ak0, s1, ak1);
      var epsilon := Epsilon;
      var ak0p := curve.computeCurvature(s0.th0, s0.th1 + epsilon);
      var ak1p := curve.computeCurvature(s1.th0 - epsilon, s1.th1);
      var errp := ComputeErr(tr, s0, ak0p, s1, ak1p);
      var derr := (errp - err) * (1.0 / epsilon);
      step := Quot(err, derr);
    }

    /** The second loop of `iterDumb`: move each interior tangent by its damped step. */
    method ApplySteps(x: array<real>, iter: nat)
      requires ths.Length == |ctrlPts| >= 3 && x.Length == |ctrlPts| - 2 && x != ths
      modifies ths
      ensures ths[..] == Nudged(old(ths[..]), Damping(tr, iter), x[..])
    {
      var n := |ctrlPts|;
      for i := 0 to n - 2
        invariant forall k :: 0 <= k < n ==>
          ths[k] == if 1 <= k <= i then Moved(old(ths[k]), Damping(tr, iter), x[k - 1]) else old(ths[k])
      {
        var scale := tr.tanh(0.25 * (iter + 1) as real);
        ths[i + 1] := Moved(ths[i + 1], scale, x[i]);
      }
      assert forall k :: 0 <= k < n ==> ths[k] == Nudged(old(ths[..]), Damping(tr, iter), x[..])[k];
    }
  }
}
